=== FILE: README.md ===
# sublime-xpath, modelled in Dafny

sublime-xpath is a Sublime Text plugin for XML and HTML documents. It
parses the buffer with lxml and remembers where every element, comment and
processing instruction starts and ends. With that it maps between
selections and nodes: it finds the nodes under the cursors, selects the
nodes an XPath query returns, and shows an approximate path to the cursor in
the status bar.

This project models the position bookkeeping at the plugin's core and the
small state machines around it:

- the span tracker of `LocationAwareXMLParser` (`SpanTracker`): the chunk
  scan for `<![CDATA[`, `]]>`, `<` and `>` (the CDATA delimiters of section 2.7
  of XML 1.0 plus the tag brackets), the recorded offset pairs, `close` and
  `getLocation`;
- the tree builder `LocationAwareTreeBuilder` (`TreeBuilder`), driven by an
  abstract list of parser callbacks, and the two glued together
  (`LocationParser`);
- the pure helpers of `lxml_parser.py`: tag ranges, sibling navigation,
  the namespace-map filter and result wrapping (`LxmlHelpers`), prefix
  numbering (`NamespacePrefixes`) and whitespace collapsing (`Collapse`);
- the node locator of `sublime_lxml.py` (`NodeLocator`) and the regions an
  XPath result selects (`NodeRegions`), over the editor's regions (`Regions`);
- the status-bar path approximation of `xpath.py` (`LightPath`);
- the debounced input panel of `sublime_input.py` (`RequestInput`);
- the grouping of positions into runs of one scope (`Scopes`).

`Wrappers` (`Option`, `Result`), `Strings` (Python's `str()` of an int,
`strip`, `join`) and `Positions` (`TagPos` and self-closing) are shared.
Where Python raises, the model returns `Failure`. Host and library calls
(lxml's parser and XPath engine, the editor's text, scopes, timers and
`Region.intersects`) are parameters or abstract inputs.

Where the source and its documentation disagree, the model follows the
code and records the discrepancy under Findings: a negative `maxlen` in
`collapseWhitespace`, and `relevance` giving up before it finds a first
match.

The model departs from the code in the editor-facing wrappers of
sublime_lxml.py. `getNodeTagRange` returns two integers (lxml_parser.py:238),
and `getNodeTagRegion` indexes them as pairs (`begin[0]`, sublime_lxml.py:9).
So as written every call raises `TypeError`, whatever the editor does:
- `get_regions_of_nodes` swallows it in its bare `except: continue`
  (sublime_lxml.py:111-112) and yields nothing for any input;
- `getNodePosition` raises too, so `getNodesAtPositions` raises for any
  root that is not `None`.

The model instead takes tag ranges as character offsets: a node is located
when its positions are known. Behind that error sits a latent one.
`get_regions_of_nodes` calls `isTagSelfClosing`, which is defined nowhere.
No node reaches that call as written; once the ranges are converted
correctly, `close` and `names` would raise `NameError` there. The model's
`NodeRegion` uses the element method `is_self_closing`
(lxml_parser.py:35), and `NodeRegionAsWritten` keeps the undefined call
(see Findings).

## Model

| member | source | states |
|---|---|---|
| `Strings.IntToString` | lxml_parser.py:293 | `str(index)` is non-empty and, for a non-negative index, its decimal digits |
| `Strings.ParseNatToString` | lxml_parser.py:293 | reading the decimal rendering back gives the number again |
| `Strings.IntToStringInjective` | lxml_parser.py:293 | different indices render differently, so numbered prefixes with different indices differ |
| `Strings.StripSlice` | lxml_parser.py:270 | `Strip`: `strip()` keeps a slice of the input that starts and ends with non-whitespace, and cuts off only whitespace |
| `Strings.StripEmptyIffBlank` | lxml_parser.py:139 | `value.strip() == ''` holds exactly when every character is whitespace |
| `Positions.SelfClosingIsEquality` | lxml_parser.py:12-37 | `is_self_closing`, which compares the two `TagPos` attributes field by field through the equality mixin, holds exactly when they are the same value (both `None` included) |
| `Regions.Region.Cover` | sublime_lxml.py:92 | `cover` contains every point of either region, and its ends are ends of the inputs |
| `SpanTracker.TokenAt` | lxml_parser.py:50 | the split expression matches at a position one of `<![CDATA[`, `]]>`, `<`, `>` in the written order, and matches nothing exactly when the character is no bracket |
| `SpanTracker.NextToken` | lxml_parser.py:82 | the next match lies after the search start and is a whole token |
| `SpanTracker.NextTokenIsLeftmost` | lxml_parser.py:82 | no bracket lies between the search start and the match, nor anywhere after when there is no match |
| `SpanTracker.Scan` | lxml_parser.py:82-88 | the loop records one span per string handed to the parser and stops within the text |
| `SpanTracker.ScanTiles` | lxml_parser.py:82-88 | the spans of one `feed` run without gap from the first `chunk_offset` to the last, each as long as its string |
| `SpanTracker.ScanText` | lxml_parser.py:82-89 | the strings handed to the parser concatenate to exactly the text consumed |
| `SpanTracker.ScanAlternates` | lxml_parser.py:82-89 | text and token alternate, and the remainder left over holds no bracket |
| `SpanTracker.Init` | lxml_parser.py:52-74 | a new tracker sits at its initial offset with nothing carried over and no spans |
| `SpanTracker.Feed` | lxml_parser.py:76-90 | `_position_offset + len(_remainder)` grows by exactly the chunk's length; spans and parser input grow in step |
| `SpanTracker.FeedText` | lxml_parser.py:76-90 | what `feed` hands to the parser, then the new remainder, is the old remainder then the chunk |
| `SpanTracker.FeedKeepsTiles` | lxml_parser.py:83-90 | `feed` keeps the spans contiguous from the initial offset up to the current offset |
| `SpanTracker.FeedKeepsFits` | lxml_parser.py:83-87 | every span is as long as the string handed to the parser with it |
| `SpanTracker.FeedKeepsAlternates` | lxml_parser.py:82-89 | text and token keep alternating and the remainder keeps holding no bracket |
| `SpanTracker.FeedKeepsValid` | lxml_parser.py:76-90 | `feed` preserves the tracker invariant |
| `SpanTracker.Close` | lxml_parser.py:95-100 | `close` adds one span over exactly the remainder, hands the remainder to the parser and resets the tracker |
| `SpanTracker.CloseTiles` | lxml_parser.py:95-97 | the final span continues the recorded ones without gap |
| `SpanTracker.FeedAll` | lxml_parser.py:217-220 | feeding several chunks grows the spans and the parser input in step |
| `SpanTracker.FeedAllKeepsValid` | lxml_parser.py:217-220 | any number of `feed` calls preserves the invariant |
| `SpanTracker.FeedAllText` | lxml_parser.py:217-220 | across several `feed` calls, parser input plus remainder is the input so far plus the chunks |
| `SpanTracker.FeedAllLog` | lxml_parser.py:83-87 | spans and parser input are only ever appended to |
| `SpanTracker.FeedAllConserves` | lxml_parser.py:76-90 | from a fresh tracker, offset plus remainder length is the initial offset plus the characters fed, and the parser input plus remainder is exactly the chunks |
| `SpanTracker.TiledLength` | lxml_parser.py:83-86 | contiguous spans, each as long as its string, cover as many offsets as the strings have characters |
| `SpanTracker.SpansLocateText` | lxml_parser.py:83-86 | each span, taken from the initial offset, cuts exactly its own string out of the concatenated input |
| `SpanTracker.SpansLocateAll` | lxml_parser.py:83-86 | every span of a tiling locates its string |
| `SpanTracker.ClosePieces` | lxml_parser.py:95-97 | after `close`, the pieces since the reset are the chunks fed, with contiguous spans |
| `SpanTracker.DocumentSpans` | lxml_parser.py:76-100 | a whole document: spans tile the input, each locating its piece of the chunks, and the tracker is fresh again |
| `SpanTracker.GetLocation` | lxml_parser.py:53-56 | `getLocation(index)` exists exactly for a Python-valid index, from `_positions[index]` (negative from the end) to the last span |
| `SpanTracker.DefaultLocationFramesTokens` | lxml_parser.py:53-63 | the default location after a `feed` runs from a token over text to a token, and is exactly as long as those three pieces |
| `SpanTracker.DataLocationIsToken` | lxml_parser.py:61 | character data is located at the latest span, which is a token |
| `LocationParser.InitValid` | lxml_parser.py:52-69 | a new parser satisfies both invariants |
| `LocationParser.Deliver` | lxml_parser.py:58-65 | a callback that does not raise keeps the builder invariant |
| `LocationParser.DeliverAll` | lxml_parser.py:58-65 | a series of callbacks that do not raise keeps the builder invariant |
| `LocationParser.CloseResets` | lxml_parser.py:95-100 | after `close` the tracker and builder are as `__init__` leaves them, apart from the foreign parser's input, so the object is reusable |
| `LocationParser.DeliverNeedsSpans` | lxml_parser.py:53-63 | a tag callback with fewer than three spans, or data with none, raises `IndexError` |
| `LocationParser.StartLocation` | lxml_parser.py:59 | a new element's open-tag position runs from the third-latest span to the latest |
| `LocationParser.FedCount` | lxml_parser.py:214-220 | the chunks fed are exactly those before the first `should_stop()` that answers true |
| `TreeBuilder.AddNamespaceSpec` | lxml_parser.py:149-151 | `AddNamespace`: `setdefault` then append-unless-present records the URI once, keeps prefixes and URI lists free of repetitions and keeps old entries |
| `TreeBuilder.MergeNamespacesShape` | lxml_parser.py:148-151 | the loop over a namespace map keeps every prefix once and each URI list free of repetitions |
| `TreeBuilder.MergeNamespacesHas` | lxml_parser.py:148-151 | `MergeNamespaces`: afterwards exactly the old pairs and the map's pairs are recorded |
| `TreeBuilder.EmptyValid` | lxml_parser.py:125-134 | the state `_reset` leaves satisfies the builder invariant |
| `TreeBuilder.FlushKeepsValid` | lxml_parser.py:136-145 | `_flush` keeps the invariant and the shape of the tree |
| `TreeBuilder.PushKeepsValid` | lxml_parser.py:154-157 | appending an element and pushing it keeps the invariant |
| `TreeBuilder.PopKeepsValid` | lxml_parser.py:165-167 | popping the stack top keeps the invariant |
| `TreeBuilder.AttachKeepsValid` | lxml_parser.py:174-182 | appending a comment or processing instruction keeps the invariant |
| `TreeBuilder.AttachChildKeepsValid` | lxml_parser.py:191-192 | ... when it becomes a child of the stack top |
| `TreeBuilder.AttachEpilogKeepsValid` | lxml_parser.py:197-199 | ... when it is added after the root |
| `TreeBuilder.AttachPrologKeepsValid` | lxml_parser.py:200-202 | ... when it is buffered before the root |
| `TreeBuilder.ElementStartKeepsValid` | lxml_parser.py:147-157 | `element_start` keeps the invariant |
| `TreeBuilder.ElementEndKeepsValid` | lxml_parser.py:163-167 | `element_end` keeps the invariant |
| `TreeBuilder.LeafKeepsValid` | lxml_parser.py:172-182 | `comment` and `pi` keep the invariant |
| `TreeBuilder.Apply` | lxml_parser.py:147-182 | any callback that does not raise keeps the invariant |
| `TreeBuilder.Run` | lxml_parser.py:147-182 | a series of callbacks that does not raise keeps the invariant |
| `TreeBuilder.FlushCases` | lxml_parser.py:136-145 | `_flush` (`Flush`): an empty buffer changes nothing; blank text before any node is dropped; otherwise the text becomes the most recent node's tail when `_in_tail`, else its text, and no other node changes; the buffer is empty afterwards |
| `TreeBuilder.FlushTextGoesToOpenElement` | lxml_parser.py:141-157 | text (rather than tail) always goes to the innermost open element |
| `TreeBuilder.FlushUndefinedOnlyBeforeFirstNode` | lxml_parser.py:139-144 | `_flush` can dereference `None` only on non-blank text before the first node |
| `TreeBuilder.ElementStartEffect` | lxml_parser.py:147-157 | `ElementStart`: `element_start` appends one element, a child of the stack top or else the root, pushes it, gives it the open-tag position and records its namespaces |
| `TreeBuilder.ElementEndEffect` | lxml_parser.py:163-167 | `ElementEnd`: `element_end` pops the stack top, gives it the close-tag position and makes following text its tail |
| `TreeBuilder.LeafEffect` | lxml_parser.py:172-182 | `Leaf`: a comment or processing instruction is appended with its position; following text is its tail |
| `TreeBuilder.AttachEffect` | lxml_parser.py:190-204 | `_appendNode` appends to `_all_elements` and makes the node the most recent |
| `TreeBuilder.LeafInsideElement` | lxml_parser.py:191-192 | inside an element the node becomes a child of the stack top |
| `TreeBuilder.LeafAfterRoot` | lxml_parser.py:197-199 | after the root, the node joins the end of the epilog |
| `TreeBuilder.LeafBeforeRoot` | lxml_parser.py:200-202 | before the root, the node is buffered in the prolog |
| `TreeBuilder.AddNextAppends` | lxml_parser.py:197-199 | `addnext` on the most recent node appends to the top level, because that node is always the last top-level node |
| `TreeBuilder.TopLevelOrder` | lxml_parser.py:190-204 | `_appendNode` (`AppendNode`) keeps this order: the top level is prolog, root, epilog in creation order; these are exactly the parentless nodes and the root is the only element among them |
| `TreeBuilder.DocumentEndRoot` | lxml_parser.py:206-208 | `document_end` (`DocumentEnd`) returns every node created and a namespace table without repetitions; its root is the one element without a parent |
| `TreeBuilder.ApplyFrame` | lxml_parser.py:147-182 | one callback keeps old nodes' kind, parent and open position, and pushes, pops or keeps the stack |
| `TreeBuilder.StartFrame` | lxml_parser.py:147-157 | `element_start` keeps old nodes and pushes the new id |
| `TreeBuilder.EndFrame` | lxml_parser.py:163-167 | `element_end` keeps old nodes and pops |
| `TreeBuilder.LeafFrame` | lxml_parser.py:172-182 | a leaf keeps old nodes and the stack |
| `TreeBuilder.FlushKeepsOld` | lxml_parser.py:136-145 | `_flush` changes no node's kind, parent or position |
| `TreeBuilder.RunStack` | lxml_parser.py:155-165 | a run that never closes more than it opens keeps the starting stack below it, with opens minus closes more entries |
| `TreeBuilder.RunFrame` | lxml_parser.py:147-204 | a run never changes the kind, parent or open position of an earlier node |
| `TreeBuilder.BalancedRun` | lxml_parser.py:155-165 | a balanced run ends on the stack it started from |
| `TreeBuilder.StartEndPair` | lxml_parser.py:147-167 | an `end` matching a `start` pops that same element, sets its close-tag position and restores the stack |
| `TreeBuilder.RunGrows` | lxml_parser.py:203 | every node created is appended to `_all_elements`, and nothing else is |
| `LxmlHelpers.TagRangeSpec` | lxml_parser.py:230-238 | `getNodeTagRange`: a comment or processing instruction answers its one `tag_pos` range for any position type; an element answers only `open` and `close`; the range runs from the start of the tag's first span to the end of its last, so it covers both spans |
| `LxmlHelpers.SelfClosingSameRange` | lxml_parser.py:230-238 | a self-closing element, comment or processing instruction has equal open and close ranges |
| `LxmlHelpers.DifferentRangesNotSelfClosing` | lxml_parser.py:230-238 | an element whose ranges differ is not self-closing |
| `LxmlHelpers.StartedElementOpenRange` | lxml_parser.py:147-157 | the element `element_start` creates answers its location's range for `"open"` |
| `LxmlHelpers.NextFrom` | lxml_parser.py:246 | the next node with the given parent, with none skipped |
| `LxmlHelpers.PrevBefore` | lxml_parser.py:248 | the previous node with the given parent, with none skipped |
| `LxmlHelpers.GetRelativeNode` | lxml_parser.py:240-257 | the direction is one of next, prev, previous, self, parent, or `ValueError` with its message |
| `LxmlHelpers.NextSiblingNearest` | lxml_parser.py:245-246 | the next sibling is the nearest later node with the same parent, or `None` if there is none |
| `LxmlHelpers.NextPrevRoundTrip` | lxml_parser.py:245-248 | `NextSibling` and `PrevSibling`: going to the next sibling and back returns to the start, and so does the reverse |
| `LxmlHelpers.RootNextSibling` | lxml_parser.py:193-199 | the root's next sibling is the first epilog node |
| `LxmlHelpers.RootPrevSibling` | lxml_parser.py:193-202 | the root's previous sibling is the last prolog node |
| `LxmlHelpers.NsMapSpec` | lxml_parser.py:300-306 | a prefix is mapped exactly when its first URI is non-empty, and to that URI |
| `LxmlHelpers.QueryResultsSpec` | lxml_parser.py:300-321 | `get_results_for_xpath_query` (`GetResultsForXPathQuery`) and `execute_xpath_query` (`ExecuteXPath`): the compiler gets exactly the prefixes with a non-empty URI, each with that URI (none without a table); the query runs on the context node or else the tree; a list result is returned as it is and a single value becomes a list of one |
| `LxmlHelpers.ExecuteXPathList` | lxml_parser.py:313-321 | no context node means the tree |
| `LxmlHelpers.QuerySeesNonEmptyPrefixes` | lxml_parser.py:300-311 | `NsMapOf`: the compiled query sees exactly the prefixes with a non-empty URI |
| `NamespacePrefixes.NumberedIs` | lxml_parser.py:293 | a numbered name is the base followed by `str(index)` |
| `NamespacePrefixes.PutSpec` | lxml_parser.py:287-296 | assigning into the ordered dictionary stores the value and keeps other keys, their order and their distinctness |
| `NamespacePrefixes.TakenBelow` | lxml_parser.py:289-295 | only finitely many indices give taken names, so the `while True` search ends |
| `NamespacePrefixes.NextFree` | lxml_parser.py:289-295 | the search returns an index no smaller than its start |
| `NamespacePrefixes.NextFreeIsFree` | lxml_parser.py:294 | the name the search settles on is neither a chosen key nor an original prefix |
| `NamespacePrefixes.NextFreeIsFirst` | lxml_parser.py:289-295 | every index the search passes over names a taken key |
| `NamespacePrefixes.Suffixes` | lxml_parser.py:288-296 | one index is chosen per URI |
| `NamespacePrefixes.AssignManyShape` | lxml_parser.py:288-296 | `AssignMany`: the loop appends one entry per URI, in order, named by its index |
| `NamespacePrefixes.SuffixesIncrease` | lxml_parser.py:288-292 | the indices are at least `start` and strictly increase |
| `NamespacePrefixes.SuffixesFresh` | lxml_parser.py:293-294 | each numbered name is no original prefix and no key chosen before it |
| `NamespacePrefixes.AssignManyDistinct` | lxml_parser.py:288-296 | the numbered names keep the keys distinct |
| `NamespacePrefixes.FindFree` | lxml_parser.py:289-295 | the search loop computes the first free index |
| `NamespacePrefixes.AssignEach` | lxml_parser.py:288-296 | the loop over several URIs computes the numbered entries |
| `NamespacePrefixes.AssignPrefix` | lxml_parser.py:284-296 | the body for one prefix computes one step |
| `NamespacePrefixes.UniqueNamespacePrefixes` | lxml_parser.py:281-298 | the method computes the prefix table one prefix at a time, in document order |
| `NamespacePrefixes.StepKeepsKeys` | lxml_parser.py:283-296 | `Step`: every step keeps the keys already chosen, in place |
| `NamespacePrefixes.StepDistinct` | lxml_parser.py:283-296 | every step keeps the keys distinct |
| `NamespacePrefixes.UniqueDistinct` | lxml_parser.py:281-298 | `Unique`: the result's keys are distinct |
| `NamespacePrefixes.StepKeepsEntry` | lxml_parser.py:284-287 | a later step keeps an entry unless it is a one-URI prefix assigning the same name |
| `NamespacePrefixes.EntrySurvives` | lxml_parser.py:283-296 | an entry survives every later step that does not reassign its name |
| `NamespacePrefixes.SingleKeepsName` | lxml_parser.py:284-287 | a prefix with one URI keeps its name, with `None` and `''` becoming `replaceNoneWith` |
| `NamespacePrefixes.KeySurvives` | lxml_parser.py:283-296 | a key once chosen stays a key at the same place |
| `NamespacePrefixes.SharedPrefixNumbered` | lxml_parser.py:288-296 | a prefix with n URIs other than one gets n entries with strictly increasing indices from `start`, each new |
| `NamespacePrefixes.SharedNamesKept` | lxml_parser.py:287-298 | every numbered name is still a key of the final table |
| `NamespacePrefixes.DefaultCollisionLosesUri` | lxml_parser.py:284-287 | the default namespace and a prefix spelled `default` leave one entry: the first URI is lost |
| `NamespacePrefixes.StepKeepingAllAppends` | lxml_parser.py:281-298 | corrected step: one new entry per URI, distinct keys |
| `NamespacePrefixes.KeepingAllPrefix` | lxml_parser.py:281-298 | corrected table after n prefixes: distinct keys, one entry per (prefix, URI) pair |
| `NamespacePrefixes.KeepingAllGrows` | lxml_parser.py:281-298 | the corrected table only grows at the end |
| `NamespacePrefixes.KeepingAllKeepsEveryUri` | lxml_parser.py:281-298 | corrected: distinct keys, exactly one entry per (prefix, URI) pair, and every pair has its entry |
| `NamespacePrefixes.KeepingAllAgrees` | lxml_parser.py:281-298 | where no one-URI name collides, the correction equals the original |
| `Collapse.PyPrefixSpec` | lxml_parser.py:270 | `s[0:stop]` keeps exactly the characters whose index lies before `stop`, a negative `stop` counting from the end: a prefix of `s`, all of `s` for a stop past the end, and `s[0:-k]` drops the last `k` characters |
| `Collapse.ReplaceChar` | lxml_parser.py:270 | `replace` of one character changes exactly its occurrences |
| `Collapse.ReplaceDouble` | lxml_parser.py:272 | `replace('  ', ' ')` never lengthens the text |
| `Collapse.ReplaceDoubleSqueeze` | lxml_parser.py:271-272 | a round of replacement leaves the squeezed text unchanged |
| `Collapse.ReplaceDoubleShrinks` | lxml_parser.py:271-272 | while a double space remains, each round shortens the text, so the loop ends |
| `Collapse.SqueezeFixed` | lxml_parser.py:271 | a text without double spaces is left as it is |
| `Collapse.SqueezeNoDouble` | lxml_parser.py:271-272 | `Squeeze`: no double space is left after the loop |
| `Collapse.SqueezeKeepsNonSpace` | lxml_parser.py:271-272 | the loop deletes only spaces |
| `Collapse.SqueezeChars` | lxml_parser.py:271-272 | the loop introduces no new character |
| `Collapse.Normalise` | lxml_parser.py:270 | after stripping, cutting and replacing, no newline or tab remains |
| `Collapse.NormaliseLength` | lxml_parser.py:270 | normalising never lengthens the stripped text |
| `Collapse.CollapseWhitespace` | lxml_parser.py:268-279 | the method with its replacement loop computes the squeezed, normalised, truncated text |
| `Collapse.TruncateClean` | lxml_parser.py:276-279 | truncation with `...` keeps the text free of newlines, tabs and double spaces |
| `Collapse.CollapseClean` | lxml_parser.py:268-279 | the result never contains a newline, a tab or two spaces in a row |
| `Collapse.TruncateBounded` | lxml_parser.py:276-279 | `Truncate`: with `maxlen >= 3` the result is at most `maxlen` long; a longer text becomes its first `maxlen - 3` characters then `...` |
| `Collapse.CollapseBounded` | lxml_parser.py:268-279 | the same bound and the same ellipsis for the whole function |
| `Collapse.TruncateFits` | lxml_parser.py:273-279 | a text that fits, or any text when `maxlen` is negative, is not truncated |
| `Collapse.CollapseShortText` | lxml_parser.py:268-279 | a text whose stripped form fits is only normalised |
| `Collapse.CollapseKeepsWords` | lxml_parser.py:268-279 | a text that is not cut loses only spaces |
| `Collapse.MinusOneDropsEverything` | lxml_parser.py:270-274 | as written, `maxlen = -1` returns `''` for every text |
| `Collapse.MinusOneExample` | lxml_parser.py:270-274 | an illustration, one input: `collapseWhitespace('a', -1)` is `''` |
| `Collapse.NoLimitKeepsText` | lxml_parser.py:273-274 | corrected: without a limit the result is empty exactly for blank text, and keeps every non-space character |
| `Collapse.NoLimitAgrees` | lxml_parser.py:268-279 | for a non-negative `maxlen` the correction changes nothing |
| `NodeLocator.SpansFromShape` | sublime_lxml.py:25-33 | `SpansFrom`: from any offset, the remaining children give 2k+1 contiguous spans: gaps of the node itself, child spans |
| `NodeLocator.NodePositionsShape` | sublime_lxml.py:21-33 | `GetNodePositions`: 2k+1 contiguous spans from the open tag's begin to the close tag's end; gaps are the node and final; child spans are final exactly when the child has no children |
| `NodeLocator.NonFinalIsChild` | sublime_lxml.py:27-31 | a span that is not final is a child span, so the recursion goes into a child |
| `NodeLocator.OwnSpansAreGaps` | sublime_lxml.py:29-33 | `span_node == node` holds exactly for the gap spans |
| `NodeLocator.RegionIntersectsCases` | sublime_lxml.py:35-36 | `RegionIntersects`: true when the regions intersect, or with `include_beginning` for an empty inner region whose begin lies in the outer one |
| `NodeLocator.RunFrom` | sublime_lxml.py:45-50 | once a match is found, the loop yields consecutive matches up to the first miss |
| `NodeLocator.SearchFrom` | sublime_lxml.py:45-52 | before any match, as written a miss beyond `start_index + 1` stops the loop; the corrected policy (`KeepLooking`) moves past every miss until the first match |
| `NodeLocator.Relevance` | sublime_lxml.py:42-52 | one contiguous increasing run inside `[start_index, max_index]`, with no match skipped before it and a miss (or the end) after it; as written it starts no later than `start_index + 2` and is empty when nothing matches up to there; corrected, it is empty only when nothing matches at all |
| `NodeLocator.KeepLookingFindsMatch` | sublime_lxml.py:42-52 | corrected `relevance`: every matching selection lies at or after the run's start, and is in the run when every selection from the start up to it matches |
| `NodeLocator.RunFromIgnoresPolicy` | sublime_lxml.py:45-50 | the run after a first match does not depend on the policy: line 51 applies only before a match |
| `NodeLocator.SearchPoliciesAgree` | sublime_lxml.py:45-52 | the search as written either gives up empty or finds what the corrected search finds |
| `NodeLocator.RelevancePoliciesAgree` | sublime_lxml.py:42-52 | `relevance` as written agrees with the correction whenever it finds something, and finds nothing when the correction finds nothing |
| `NodeLocator.MatchSpan` | sublime_lxml.py:54-61 | the first and last match, or the given bounds when nothing matched; the matches are exactly the indices between them |
| `NodeLocator.FinalEntryChain` | sublime_lxml.py:74-76 | a final span's matches make one sound entry |
| `NodeLocator.GetMatches` | sublime_lxml.py:63-82 | returns an index in `[next_match_index, max_index]`, and its entries hold runs of matching selections in selection order |
| `NodeLocator.SpanLoop` | sublime_lxml.py:67-82 | the loop over the spans keeps the same bounds and order, ending after a miss that follows a match at `max_index` |
| `NodeLocator.MatchedSpan` | sublime_lxml.py:71-78 | a final matched span records an entry; otherwise the search descends into the child over the matched selections |
| `NodeLocator.RootsFrom` | sublime_lxml.py:86-95 | across the roots `start_match_index` never decreases and stays within the selections |
| `NodeLocator.GetNodesAtPositions` | sublime_lxml.py:39-97 | every entry holds a run of selections matching its span, in selection order |
| `NodeLocator.Present` | sublime_lxml.py:86-87 | the roots that are not `None` |
| `NodeLocator.NoneRootsSkipped` | sublime_lxml.py:86-87 | `None` roots contribute nothing |
| `NodeLocator.SingleRootSearchedWhole` | sublime_lxml.py:88-95 | with one root the covering region is not checked, and every selection is searched |
| `NodeLocator.UnmatchedRootSkipped` | sublime_lxml.py:90-94 | with several roots, one whose covering region matches no selection is skipped |
| `NodeLocator.EarlyCursorsHideTree` | sublime_lxml.py:39-52 | as written, selections at 1, 2 and 3 in front of a tree spanning 10 to 23 hide a selection at 15 inside it: `getNodesAtPositions` returns nothing, contrary to the docstring at line 40 |
| `NodeLocator.KeepLookingFindsLateCursor` | sublime_lxml.py:39-52 | with the corrected `relevance`, the same input relates the selection at 15 to the tree |
| `NodeLocator.KeepLookingLeafRootComplete` | sublime_lxml.py:39-97 | corrected: a single tree without children yields no entry exactly when no selection meets it |
| `NodeRegions.TagRegionsSpec` | sublime_lxml.py:106-112 | a node is located exactly when the builder recorded its positions (both open and close for an element, `tag_pos` for a leaf); a leaf's and a self-closing element's two regions coincide; the open region spans the whole open tag |
| `NodeRegions.NodeRegion` | sublime_lxml.py:120-132 | with `is_self_closing` in place of the undefined `isTagSelfClosing`: a name is asked only for the name types, and fails exactly for a node that is not an element |
| `NodeRegions.UndefinedHelperRaises` | sublime_lxml.py:120-128 | with the undefined `isTagSelfClosing` kept (a latent error, unreachable while `getNodeTagRegion` raises first), `close` and `names` raise `NameError` on every element, where `NodeRegion` gives the names; every other position type behaves the same |
| `NodeRegions.Located` | sublime_lxml.py:100-112 | the ids kept are the results' nodes whose positions are known |
| `NodeRegions.FilterThenRegions` | sublime_lxml.py:100-112 | `GetRegionsOfNodes`: string results stand for their parent, other values and unlocatable nodes are skipped, and only then are regions computed |
| `NodeRegions.RegionsFailure` | sublime_lxml.py:120-128 | with `is_self_closing` in place of the undefined helper, the iteration fails exactly when a name type is asked and some located node is not an element |
| `NodeRegions.OneRegionEach` | sublime_lxml.py:120-132 | for open, close, content and entire, each located node gives exactly its one region, in order |
| `NodeRegions.NamesRegions` | sublime_lxml.py:120-128 | for names, a self-closing element gives its open name and any other element gives both names |
| `NodeRegions.NameRegionsFit` | sublime_lxml.py:123-128 | a name region starts one (`<`) or two (`</`) characters into its tag and is as long as the prefixed name |
| `LightPath.PopUndoesOpen` | xpath.py:24-38 | popping after an opening tag restores the path, but the level keeps the raised count, so the next same-name tag there is numbered one higher |
| `LightPath.OpenTag` | xpath.py:27-38 | `path` and `levelCounters` each grow by one, earlier entries untouched; the tag's count at the current level goes up by one and no other name's count changes; the new segment is the name with that count, the new level is empty, and the self-closing flag is the tag's |
| `LightPath.CloseTag` | xpath.py:40-46 | a closing tag pops only when the selection ends after it, and always clears the self-closing flag |
| `LightPath.StepBalanced` | xpath.py:24-46 | `Step`: every loop body pushes or pops a segment and a level together |
| `LightPath.ScanBalanced` | xpath.py:17-47 | the loop keeps path and counters the same length |
| `LightPath.BuildBalanced` | xpath.py:9-52 | from one entry each, path and counters stay the same length, after the loop too |
| `LightPath.ScanStopsAfterSelection` | xpath.py:17-19 | regions from the first one that starts after the selection on are never looked at |
| `LightPath.OpeningTagSegment` | xpath.py:32-35 | an opening tag appends `name[k]`, k one more than the earlier same-name openings at that level |
| `LightPath.SelfClosingPoppedNext` | xpath.py:24-46 | a self-closing tag's segment is popped when the next region is handled, whatever it is: a next opening tag lands on the same level, a next closing tag (`<a><b/></a>`) then pops the enclosing segment when the selection ends after it, and any other region leaves the earlier path with the flag still set |
| `LightPath.SiblingsNumbered` | xpath.py:32-34 | two same-name self-closing siblings count as the first and second |
| `LightPath.ClosingTagPops` | xpath.py:40-46 | a closing-tag region pops only when the selection ends strictly after it, and clears the flag |
| `LightPath.FinishPopsAtMostOne` | xpath.py:49-52 | after the loop (`Finish`), exactly the pending self-closing tag whose scope ends before the selection starts is popped, and nothing else changes |
| `LightPath.BuildPathRooted` | xpath.py:9-52 | whenever the path `buildPath` (`BuildPath`) returns is non-empty, its first segment is the leading empty one; a path of two or more segments joins to a string that starts with `/`, while `['']` joins to `''` (xpath.py:103); a stray closing tag can pop that segment and leave `[]` |
| `LightPath.DocumentLevelPath` | xpath.py:9-52 | an illustration: a cursor after `<a></a>` gets the path `['']`, which joins to `''` |
| `LightPath.StrayClosingTagsRaise` | xpath.py:40-44 | two stray closing tags before the cursor make `buildPath` pop from an empty list and raise |
| `LightPath.NestedPathText` | xpath.py:9-34 | an illustration, one input: the cursor inside `<a><b>` builds the path `/a[1]/b[1]` |
| `LightPath.IsSGMLExamples` | xpath.py:81-86 | an illustration of `IsSGMLSpec` on four syntax paths |
| `LightPath.IsSGMLSpec` | xpath.py:81-86 | `isSGML` (`IsSGML`): a syntax is SGML exactly when its first characters spell `Packages/XML/` or `Packages/HTML/`; any longer path starting like an SGML one is SGML too, and a path shorter than `Packages/XML/` never is |
| `LightPath.UpdateStatusKeepsConsistent` | xpath.py:94-105 | `updateStatus` with both globals set or neither: the guard (`NeedsRecompute`) never raises, a successful `buildPath` leaves both set, and only `buildPath` can raise |
| `LightPath.UpdateStatusSettles` | xpath.py:99-105 | after a successful recomputation showing `XPath: ` and the joined path, the same change count and a selection inside the new range recompute nothing and change nothing |
| `LightPath.FailedBuildLeavesStaleCache` | xpath.py:99-105 | as written: when the first `buildPath` raises, the new count is cached without a range, and the next update with an unchanged count raises in its guard |
| `LightPath.AtomicKeepsConsistent` | xpath.py:99-105 | corrected, both globals stored together after `buildPath` returns: they stay set together, the guard never raises, a failed build is retried, and a successful one agrees with the source |
| `RequestInput.ExplicitNoneIsAbsent` | sublime_input.py:35-39 | `get_value_from_args` treats an explicit `None` like a missing key, giving the default, and never looks at other keys |
| `RequestInput.RunStartsAfresh` | sublime_input.py:12-20 | `run` forgets everything typed before; a timer still outstanding from earlier processes nothing when it fires right after `run`; in live mode the first input is scheduled with no delay |
| `RequestInput.CompareToPrevious` | sublime_input.py:45-50 | always clears the timer flag; processes once exactly when pending differs from current, leaving current equal to pending |
| `RequestInput.InputChanged` | sublime_input.py:52-66 | records the pending value; in live mode schedules one timer only when none is active, with no delay for the first input |
| `RequestInput.Fire` | sublime_input.py:45-66 | a firing timer is no longer outstanding and processes the pending value if it is new |
| `RequestInput.CancelKeepsTimers` | sublime_input.py:68-69 | cancelling processes nothing, keeps at most one timer if there was, and a timer still outstanding fires exactly as it would have |
| `RequestInput.InputDone` | sublime_input.py:71-75 | the panel is gone, current is the submitted value, and it is processed unless it was already current |
| `RequestInput.CompareTwice` | sublime_input.py:45-50 | an immediate second comparison processes nothing |
| `RequestInput.AtMostOneTimer` | sublime_input.py:52-66 | typing and firing keep at most one timer outstanding, exactly when the flag is set |
| `RequestInput.DoneLeavesStrayTimer` | sublime_input.py:45-75 | `input_done` clears the flag while the timer stays outstanding, so the one-timer correspondence ends there; the stray timer processes nothing |
| `RequestInput.FlagHasTimer` | sublime_input.py:47-66 | a set flag always stands for an outstanding timer |
| `RequestInput.NoTimersOutsideLiveMode` | sublime_input.py:56-66 | outside live mode nothing is ever scheduled |
| `RequestInput.FiringProcessesLatest` | sublime_input.py:45-66 | the timer processes the latest value typed, not the one typed when it was scheduled |
| `Scopes.FirstRun` | sublime_helper.py:6-7 | the first position opens a run |
| `Scopes.ExtendRun` | sublime_helper.py:8-9 | an equal scope extends the open run |
| `Scopes.NewRun` | sublime_helper.py:10-12 | a different scope closes the open run and opens a new one |
| `Scopes.CloseRuns` | sublime_helper.py:13-14 | the open run is yielded last |
| `Scopes.GetScopes` | sublime_helper.py:1-14 | the runs tile the range (none when it is empty), each has one scope, and neighbours differ |
| `Scopes.RunsDetermined` | sublime_helper.py:1-14 | any two run lists with those three properties are equal, so they determine the result |

## Left out

- lxml itself: the `XMLParser` event generation and its timing inside `_feed`, element proxy classes, `append`/`addprevious`/`addnext` (modelled as the prolog, root and epilog lists), XPath compilation and evaluation (a parameter), `QName` and `getTagName` (the prefixed name is a parameter), and `clean_html`.
- The `doctype` callback: the builder does nothing with it, beyond `getLocation` possibly raising as for any callback.
- `lxml_etree_parse_xml_string_with_location`: only the `should_stop` cut-off (`FedCount`) is modelled, since the rest hands work to lxml.
- Every editor call: `view.text_point`, `substr`, `find_by_selector`, `extract_scope`, `scope_name`, `sel`, `change_count`, the status and panel calls, and `set_timeout(_async)`. They become parameters, abstract inputs (tag-name regions, a scope-name function) or explicit timer tokens.
- `Region.intersects`: a function parameter, whose source is not available.
- `getNodeTagRegion`, `getNodePosition`, `move_cursors_to_nodes` and `getElementXMLPreview`: host wrappers. `getNodeTagRange` returns two integers, `(pos.start_pos[0], pos.end_pos[1])` (lxml_parser.py:238), and `getNodeTagRegion` indexes them (`begin[0]`, sublime_lxml.py:9). So as written every call raises `TypeError`, independent of the editor. `get_regions_of_nodes` swallows that in its bare `except` (sublime_lxml.py:111-112) and yields nothing for any input. `getNodePosition` (sublime_lxml.py:16) raises too, so `getNodesAtPositions` raises for any root that is not `None`. The model takes tag ranges as character offsets, which is what these wrappers evidently mean to compute, so `NodeRegions` and `NodeLocator` describe the intended behaviour, not that failure.
- `buildPath` after the loop's final pop (xpath.py:54-79): the range computation reads host text and can reach unbound names. The `isSGML` branch for a view without a syntax setting returns the undefined `false` and is not modelled.
- sublime_input_quickpanel.py, sublime_input_view.py and tests.py are not part of this model. They are UI flows and a set of editor commands.
- `show_input_panel`, `close_input_panel`, `set_args` and `parse_args` are folded into `RequestInput.Run`. The panel is a flag.
- `Strings.IsWhitespace` is a fixed set: the characters Python's `str.isspace()` accepts. It is not read from a Unicode database.
- Integers are unbounded, as Python's are, so no wrap-around is modelled.
- `NodeLocator.GetMatches`: its contract states the bounds, soundness and order of the entries, not completeness. As written completeness fails (`EarlyCursorsHideTree`, see Findings). With the correction it is proved for `relevance` (`KeepLookingFindsMatch`) and for a childless tree (`KeepLookingLeafRootComplete`). For deeper trees it rests on the geometry of the host's `Region.intersects`, which is an abstract parameter here. Nor is it stated that each entry's node lies in the searched tree.
- `NodeLocator.GetNodesAtPositions`: soundness and order only. The docstring's "the nodes that relate to each position" is false as written (`EarlyCursorsHideTree`). With the correction it is proved only for a single childless tree (`KeepLookingLeafRootComplete`), for the same reason as for `GetMatches`.
- `NodeRegions.NodeRegion`: models `get_regions_of_nodes` with `is_self_closing` and with ranges as offsets. As written no node gets past `getNodeTagRegion` (see the wrappers line above). Were it to, `close` and `names` would raise `NameError` on every element (`UndefinedHelperRaises`, see Findings).
- `NodeRegions.RegionsFailure`: its failure condition is that of the helper with `is_self_closing` and ranges as offsets. As written the iteration never fails: it yields nothing, because every node is skipped at sublime_lxml.py:111-112.
- `NamespacePrefixes.SingleKeepsName`: proved only when no later one-URI prefix claims the same name; otherwise the source overwrites (see Findings).
- `RequestInput.AtMostOneTimer`: the flag/timer correspondence is proved over typing and firing only. `input_done` and a repeated `run` clear the flag while a timer is still outstanding (`DoneLeavesStrayTimer`, `RunStartsAfresh`); such a stray timer processes nothing.
- `Collapse.CollapseBounded`: the length bound is proved for `maxlen >= 3` only. For smaller limits the source appends `...` after a shorter cut, and the result can exceed `maxlen`.

## Findings

| source | as written | input that shows it | evidently intended | confidence | as-written member | corrected member |
|---|---|---|---|---|---|---|
| lxml_parser.py:270-274 | the text is cut to `[0:maxlen + 1]` before the "negative means no limit" check, so `maxlen = -1` cuts it to `[0:0]` | `collapseWhitespace('a', -1)` returns `''` | a negative `maxlen` keeps the whole text, as the comment at line 273 says | not executed; high | `Collapse.MinusOneDropsEverything` | `Collapse.NoLimitKeepsText` |
| lxml_parser.py:284-287 | a one-URI prefix assigns its name without checking it is free, so a later prefix spelled like `replaceNoneWith` overwrites the default namespace's entry | namespaces `{None: ['urn:a'], 'default': ['urn:b']}` with `replaceNoneWith = 'default'` gives only `{'default': ('urn:b', 'default')}` | every (prefix, URI) pair keeps an entry under a distinct prefix | not executed; medium | `NamespacePrefixes.DefaultCollisionLosesUri` | `NamespacePrefixes.KeepingAllKeepsEveryUri` |
| sublime_lxml.py:51 | before its first match, `relevance` stops at a miss beyond `start_index + 1`, trusting sortedness, but a tree can start after three or more selections | selections at 1, 2, 3 and 15 with one tree spanning 10 to 23: `getNodesAtPositions` returns nothing, although 15 lies inside the tree (`NodeLocator.EarlyCursorsHideTree`) | the nodes that relate to each position are returned (docstring at line 40): the search keeps looking until a first match | not executed; medium | `NodeLocator.EarlyCursorsHideTree` | `NodeLocator.KeepLookingFindsMatch` |
| sublime_lxml.py:124-126 | `isTagSelfClosing` is called but defined nowhere; lxml_parser.py:35 defines the element method `is_self_closing`. The error is latent: as written no node reaches line 124, because `getNodeTagRegion` raises `TypeError` on `begin[0]` (sublime_lxml.py:9) and the bare `except` at :111-112 skips the node | once `getNodeTagRegion` stops indexing integers, any located element with position type `close` or `names` raises `NameError` (`NodeRegions.UndefinedHelperRaises`) | the element's own `is_self_closing()` decides whether there is a close name | not executed; medium (latent) | `NodeRegions.UndefinedHelperRaises` | `NodeRegions.NamesRegions` |
| xpath.py:99-105 | `changeCounter` is assigned before `buildPath` runs and `currentXPathRange` only after it returns | a first update whose `buildPath` raises, for instance on two stray closing tags before the cursor (`LightPath.StrayClosingTagsRaise`); the next update with an unchanged change count indexes the `None` range and raises `TypeError` | both globals are stored together once a path is built, so a failed build is simply retried | not executed; medium | `LightPath.FailedBuildLeavesStaleCache` | `LightPath.AtomicKeepsConsistent` |

=== FILE: collapse.dfy ===
/** `collapseWhitespace(text, maxlen)` of lxml_parser.py: strip, cut, turn
    tabs and newlines into spaces, squeeze runs of spaces, and truncate with an
    ellipsis. */
module Collapse {
  import opened Wrappers
  import opened Strings

  /** Where Python's `s[0:stop]` ends: a negative stop counts from the end,
      and both ends are clamped to the string. */
  function PyStop(n: nat, stop: int): (k: nat)
    ensures k <= n
    ensures stop >= 0 ==> k == (if stop < n then stop else n)
    ensures stop < 0 ==> k == (if n + stop > 0 then n + stop else 0)
  {
    if stop < 0 then (if n + stop > 0 then n + stop else 0)
    else if stop < n then stop else n
  }

  /** `s[0:stop]` */
  function PyPrefix(s: string, stop: int): (r: string)
  {
    s[..PyStop(|s|, stop)]
  }

  /** Index `i` of a string of length `n` lies before the slice end `stop`,
      a negative `stop` counting from the end. */
  predicate BeforeStop(n: nat, i: int, stop: int)
  {
    if stop >= 0 then i < stop else i < n + stop
  }

  /** `s[0:stop]` as Python defines it: the prefix holding exactly the
      characters whose index lies before `stop`, a negative `stop` standing
      for `len(s) + stop`. So a stop past the end keeps everything, and
      `s[0:-k]` drops the last `k` characters. */
  lemma PyPrefixSpec(s: string, stop: int)
    ensures var r := PyPrefix(s, stop);
            && |r| <= |s| && r == s[..|r|]
            && (forall i :: 0 <= i < |s| ==> (i < |r| <==> BeforeStop(|s|, i, stop)))
            && (stop >= |s| ==> r == s)
            && (0 < -stop <= |s| ==> |r| == |s| - (-stop))
  {
  }

  /** `s.replace(a, b)` for single characters. */
  function ReplaceChar(s: string, a: char, b: char): (r: string)
    ensures |r| == |s|
    ensures forall i :: 0 <= i < |s| ==> r[i] == (if s[i] == a then b else s[i])
  {
    if |s| == 0 then "" else [if s[0] == a then b else s[0]] + ReplaceChar(s[1..], a, b)
  }

  /** `text` contains two spaces in a row. */
  predicate HasDoubleSpace(s: string)
  {
    exists i :: 0 <= i < |s| - 1 && s[i] == ' ' && s[i + 1] == ' '
  }

  /** `s.replace('  ', ' ')`: every non-overlapping pair of spaces, scanned
      from the left, becomes one space. */
  function ReplaceDouble(s: string): (r: string)
    ensures |r| <= |s|
  {
    if |s| < 2 then s
    else if s[0] == ' ' && s[1] == ' ' then " " + ReplaceDouble(s[2..])
    else [s[0]] + ReplaceDouble(s[1..])
  }

  /** The reference definition: every run of spaces squeezed to one space. */
  function Squeeze(s: string): (r: string)
    ensures |r| <= |s|
  {
    if |s| < 2 then s
    else if s[0] == ' ' && s[1] == ' ' then Squeeze(s[1..])
    else [s[0]] + Squeeze(s[1..])
  }

  lemma {:induction false} SqueezeFirst(u: string)
    ensures |Squeeze(u)| > 0 <==> |u| > 0
    ensures |u| > 0 ==> Squeeze(u)[0] == u[0]
  {
    if |u| >= 2 && u[0] == ' ' && u[1] == ' ' {
      SqueezeFirst(u[1..]);
    }
  }

  /** Squeezing sees only the first character of what follows `c`. */
  lemma SqueezeCons(c: char, u: string, v: string)
    requires Squeeze(u) == Squeeze(v)
    ensures Squeeze([c] + u) == Squeeze([c] + v)
  {
    SqueezeFirst(u);
    SqueezeFirst(v);
    assert ([c] + u)[1..] == u;
    assert ([c] + v)[1..] == v;
  }

  /** One round of `replace('  ', ' ')` does not change the squeezed text. */
  lemma {:induction false} ReplaceDoubleSqueeze(s: string)
    ensures Squeeze(ReplaceDouble(s)) == Squeeze(s)
  {
    if |s| >= 2 {
      if s[0] == ' ' && s[1] == ' ' {
        ReplaceDoubleSqueeze(s[2..]);
        SqueezeCons(' ', ReplaceDouble(s[2..]), s[2..]);
        assert [' '] + s[2..] == s[1..];
      } else {
        ReplaceDoubleSqueeze(s[1..]);
        SqueezeCons(s[0], ReplaceDouble(s[1..]), s[1..]);
        assert [s[0]] + s[1..] == s;
      }
    }
  }

  /** A round of replacement shortens a text that has a double space. */
  lemma {:induction false} ReplaceDoubleShrinks(s: string)
    requires HasDoubleSpace(s)
    ensures |ReplaceDouble(s)| < |s|
  {
    if !(s[0] == ' ' && s[1] == ' ') {
      var i :| 0 <= i < |s| - 1 && s[i] == ' ' && s[i + 1] == ' ';
      assert s[1..][i - 1] == ' ' && s[1..][i] == ' ';
      ReplaceDoubleShrinks(s[1..]);
    }
  }

  /** Squeezing leaves a text without double spaces as it is. */
  lemma {:induction false} SqueezeFixed(s: string)
    requires !HasDoubleSpace(s)
    ensures Squeeze(s) == s
  {
    if |s| >= 2 {
      assert !HasDoubleSpace(s[1..]) by {
        forall i | 0 <= i < |s[1..]| - 1
          ensures !(s[1..][i] == ' ' && s[1..][i + 1] == ' ')
        {
          assert s[1..][i] == s[i + 1] && s[1..][i + 1] == s[i + 2];
        }
      }
      SqueezeFixed(s[1..]);
    }
  }

  /** The squeezed text has no double space. */
  lemma {:induction false} SqueezeNoDouble(s: string)
    ensures !HasDoubleSpace(Squeeze(s))
  {
    if |s| >= 2 {
      SqueezeNoDouble(s[1..]);
      if !(s[0] == ' ' && s[1] == ' ') {
        var r := Squeeze(s);
        SqueezeFirst(s[1..]);
        assert r[1..] == Squeeze(s[1..]);
        forall i | 0 <= i < |r| - 1
          ensures !(r[i] == ' ' && r[i + 1] == ' ')
        {
          if i > 0 {
            assert r[i] == r[1..][i - 1] && r[i + 1] == r[1..][i];
          }
        }
      }
    }
  }

  /** Squeezing deletes only spaces and keeps every other character. */
  function NonSpace(s: string): string
  {
    if |s| == 0 then "" else (if s[0] == ' ' then "" else [s[0]]) + NonSpace(s[1..])
  }

  lemma {:induction false} SqueezeKeepsNonSpace(s: string)
    ensures NonSpace(Squeeze(s)) == NonSpace(s)
  {
    if |s| >= 2 {
      SqueezeKeepsNonSpace(s[1..]);
      if !(s[0] == ' ' && s[1] == ' ') {
        assert Squeeze(s)[1..] == Squeeze(s[1..]);
      }
    }
  }

  /** Everything before the squeezing loop: `(text or '').strip()[0:stop]`
      with newlines, then tabs, replaced by spaces. */
  function Normalise(text: Option<string>, stop: int): (r: string)
    ensures NoNewlineOrTab(r)
  {
    ReplaceChar(ReplaceChar(PyPrefix(Strip(text.GetOr("")), stop), '\n', ' '), '\t', ' ')
  }

  /** What happens after the loop: a negative `maxlen` returns the text as it
      is; otherwise it is cut to `maxlen` characters, with `...` replacing the
      end of a text that is longer. */
  function Truncate(t: string, maxlen: int): string
  {
    if maxlen < 0 then t
    else if |t| > maxlen then PyPrefix(t, maxlen - 3) + "..."
    else PyPrefix(t, maxlen)
  }

  /** The result as a function: the squeezed normalised text, truncated. */
  function CollapseReference(text: Option<string>, maxlen: int): string
  {
    Truncate(Squeeze(Normalise(text, maxlen + 1)), maxlen)
  }

  /** `collapseWhitespace(text, maxlen)` as the source computes it: the
      replacement loop runs until no double space is left. */
  method CollapseWhitespace(text: Option<string>, maxlen: int) returns (r: string)
    ensures r == CollapseReference(text, maxlen)
  {
    var t := Normalise(text, maxlen + 1);
    ghost var t0 := t;
    while HasDoubleSpace(t)
      invariant Squeeze(t) == Squeeze(t0)
      decreases |t|
    {
      ReplaceDoubleSqueeze(t);
      ReplaceDoubleShrinks(t);
      t := ReplaceDouble(t);
    }
    SqueezeFixed(t);
    if maxlen < 0 {
      return t;
    }
    var append := "";
    if |t| > maxlen {
      append := "...";
    }
    r := PyPrefix(t, maxlen - |append|) + append;
  }

  predicate NoNewlineOrTab(s: string)
  {
    forall i :: 0 <= i < |s| ==> s[i] != '\n' && s[i] != '\t'
  }

  /** Truncation keeps a clean text clean. */
  lemma TruncateClean(t: string, maxlen: int)
    requires NoNewlineOrTab(t) && !HasDoubleSpace(t)
    ensures NoNewlineOrTab(Truncate(t, maxlen)) && !HasDoubleSpace(Truncate(t, maxlen))
  {
    var r := Truncate(t, maxlen);
    if maxlen >= 0 {
      var k := if |t| > maxlen then PyStop(|t|, maxlen - 3) else PyStop(|t|, maxlen);
      var p := t[..k];
      assert r == p + (if |t| > maxlen then "..." else "");
      forall i | 0 <= i < |r| - 1
        ensures !(r[i] == ' ' && r[i + 1] == ' ')
      {
        if i + 1 < |p| {
          assert r[i] == t[i] && r[i + 1] == t[i + 1];
        }
      }
      forall i | 0 <= i < |r|
        ensures r[i] != '\n' && r[i] != '\t'
      {
        if i < |p| {
          assert r[i] == t[i];
        }
      }
    }
  }

  /** Squeezing introduces no character that was not there. */
  lemma {:induction false} SqueezeChars(s: string)
    ensures forall i :: 0 <= i < |Squeeze(s)| ==> Squeeze(s)[i] in s
  {
    if |s| >= 2 {
      SqueezeChars(s[1..]);
      var r := Squeeze(s);
      forall i | 0 <= i < |r|
        ensures r[i] in s
      {
        if s[0] == ' ' && s[1] == ' ' {
          assert r[i] in s[1..];
        } else if i > 0 {
          assert r[i] == Squeeze(s[1..])[i - 1];
          assert r[i] in s[1..];
        }
      }
    }
  }

  /** No newline, no tab and no double space survive. */
  lemma CollapseClean(text: Option<string>, maxlen: int)
    ensures NoNewlineOrTab(CollapseReference(text, maxlen))
    ensures !HasDoubleSpace(CollapseReference(text, maxlen))
  {
    var n := Normalise(text, maxlen + 1);
    SqueezeNoDouble(n);
    SqueezeChars(n);
    var t := Squeeze(n);
    assert NoNewlineOrTab(t) by {
      forall i | 0 <= i < |t|
        ensures t[i] != '\n' && t[i] != '\t'
      {
        assert t[i] in n;
      }
    }
    TruncateClean(t, maxlen);
  }

  /** With room for the ellipsis, the result is at most `maxlen` long; a text
      too long keeps its first `maxlen - 3` characters and ends in `...`, a
      text that fits is returned whole. */
  lemma TruncateBounded(t: string, maxlen: int)
    requires maxlen >= 3
    ensures |Truncate(t, maxlen)| <= maxlen
    ensures |t| > maxlen ==> Truncate(t, maxlen) == t[..maxlen - 3] + "..."
    ensures |t| <= maxlen ==> Truncate(t, maxlen) == t
  {
  }

  lemma CollapseBounded(text: Option<string>, maxlen: int)
    requires maxlen >= 3
    ensures var t := Squeeze(Normalise(text, maxlen + 1));
            var r := CollapseReference(text, maxlen);
            && |r| <= maxlen
            && (|t| > maxlen ==> r == t[..maxlen - 3] + "...")
            && (|t| <= maxlen ==> r == t)
  {
    TruncateBounded(Squeeze(Normalise(text, maxlen + 1)), maxlen);
  }

  /** Normalising never lengthens the stripped text. */
  lemma NormaliseLength(text: Option<string>, stop: int)
    ensures |Normalise(text, stop)| <= |Strip(text.GetOr(""))|
  {
  }

  /** A text that fits (or any text, without a limit) is not truncated. */
  lemma TruncateFits(t: string, maxlen: int)
    requires maxlen < 0 || |t| <= maxlen
    ensures Truncate(t, maxlen) == t
  {
  }

  /** A text whose stripped form fits is only normalised, never cut. */
  lemma CollapseShortText(text: Option<string>, maxlen: int)
    requires 0 <= |Strip(text.GetOr(""))| <= maxlen
    ensures CollapseReference(text, maxlen)
            == Squeeze(ReplaceChar(ReplaceChar(Strip(text.GetOr("")), '\n', ' '), '\t', ' '))
  {
    var s := Strip(text.GetOr(""));
    assert PyPrefix(s, maxlen + 1) == s;
    var n := Normalise(text, maxlen + 1);
    NormaliseLength(text, maxlen + 1);
    TruncateFits(Squeeze(n), maxlen);
  }

  /** Only spaces are ever removed from a text that is not cut. */
  lemma CollapseKeepsWords(text: Option<string>, maxlen: int)
    requires maxlen < 0 || |Strip(text.GetOr(""))| <= maxlen
    ensures NonSpace(CollapseReference(text, maxlen)) == NonSpace(Normalise(text, maxlen + 1))
  {
    var n := Normalise(text, maxlen + 1);
    SqueezeKeepsNonSpace(n);
    NormaliseLength(text, maxlen + 1);
    TruncateFits(Squeeze(n), maxlen);
  }

  // ---------------------------------------------------------------------------
  // maxlen = -1

  /** As written, `maxlen = -1` cuts the stripped text to `[0:0]` before the
      "no limit" branch is reached, so every text collapses to nothing. */
  lemma MinusOneDropsEverything(text: Option<string>)
    ensures CollapseReference(text, -1) == ""
  {
  }

  /** The concrete case: `collapseWhitespace("a", -1)` is empty. */
  lemma MinusOneExample()
    ensures CollapseReference(Some("a"), -1) == ""
    ensures Strip("a") == "a"
  {
  }

  /** The intended behaviour: a negative `maxlen` is no limit, so nothing is
      cut before squeezing. */
  function CollapseNoLimit(text: Option<string>, maxlen: int): (r: string)
  {
    if maxlen < 0 then Squeeze(ReplaceChar(ReplaceChar(Strip(text.GetOr("")), '\n', ' '), '\t', ' '))
    else CollapseReference(text, maxlen)
  }

  /** Without a limit the result is empty exactly for blank (or missing)
      text, and every non-space character of the stripped text survives. */
  lemma NoLimitKeepsText(text: Option<string>, maxlen: int)
    requires maxlen < 0
    ensures CollapseNoLimit(text, maxlen) == "" <==> AllWhitespace(text.GetOr(""))
    ensures NonSpace(CollapseNoLimit(text, maxlen))
            == NonSpace(ReplaceChar(ReplaceChar(Strip(text.GetOr("")), '\n', ' '), '\t', ' '))
  {
    var s := Strip(text.GetOr(""));
    var n := ReplaceChar(ReplaceChar(s, '\n', ' '), '\t', ' ');
    SqueezeFirst(n);
    StripEmptyIffBlank(text.GetOr(""));
    SqueezeKeepsNonSpace(n);
  }

  /** For a non-negative `maxlen` the correction changes nothing. */
  lemma NoLimitAgrees(text: Option<string>, maxlen: int)
    requires maxlen >= 0
    ensures CollapseNoLimit(text, maxlen) == CollapseReference(text, maxlen)
  {
  }
}

=== FILE: light_path.dfy ===
/** The approximate path shown in the status bar (xpath.py:8-52, 81-105).

    `buildPath` walks the tag-name regions the editor's syntax marks, in
    document order, keeping a stack of path segments and a stack of
    per-level counters of the names opened so far. The host supplies, per
    region, its offsets, the character before it, its text, and, for an
    opening tag, the end of the enclosing tag scope and whether that tag
    ends in `/>`. The range computation that follows the loop
    (xpath.py:54-79) is not part of this model. */
module LightPath {
  import opened Wrappers
  import opened Strings
  import opened Regions

  /** A tag-name region: `begin`, `end`, the one character before it, the
      name, and for an opening tag the end of its tag scope and whether its
      second-to-last character is `/`. */
  datatype TagRegion = TagRegion(begin: int, end: int, prevChar: string, name: string, scopeEnd: int, selfClosing: bool)

  /** The loop variables: `path`, `levelCounters`, `selfEndingTag`,
      `insideElement`, `prevStartTagOpenPos` and the end of the last opening
      tag's scope (`tagScope.end()`). */
  datatype PathState = PathState(path: seq<string>, counters: seq<map<string, int>>, selfEnding: bool,
                                 inside: bool, prevStartTagOpenPos: int, scopeEnd: Option<int>)

  /** The state before the first region: one empty segment and one empty
      counter map, so that a path of two or more segments joins to a string
      starting with `/` (the empty segment alone joins to `''`). */
  function Start(): PathState
  {
    PathState([""], [map[]], false, false, -1, None)
  }

  predicate Balanced(st: PathState)
  {
    |st.path| == |st.counters|
  }

  /** `path.pop(); levelCounters.pop()`, which raises on an empty list. */
  function PopBoth(st: PathState): (r: Result<PathState, string>)
    ensures r.Success? <==> |st.path| > 0 && |st.counters| > 0
    ensures r.Success? ==> r.value == st.(path := st.path[..|st.path| - 1], counters := st.counters[..|st.counters| - 1])
  {
    if |st.path| == 0 || |st.counters| == 0 then Failure("pop from empty list")
    else Success(st.(path := st.path[..|st.path| - 1], counters := st.counters[..|st.counters| - 1]))
  }

  /** The segment for the `level`-th opening of `name` at one level. */
  function Segment(name: string, level: int): string
  {
    name + "[" + IntToString(level) + "]"
  }

  /** The count of `name` in one level's counters (`setdefault(name, 0)`). */
  function CountOf(level: map<string, int>, name: string): int
  {
    if name in level then level[name] else 0
  }

  /** An opening tag: count it at the current level, push its segment and a
      fresh level, and remember whether it closes itself. */
  function OpenTag(st: PathState, r: TagRegion): (res: Result<PathState, string>)
    ensures res.Success? <==> |st.counters| > 0
    ensures res.Success? ==>
              var top := st.counters[|st.counters| - 1];
              && |res.value.path| == |st.path| + 1 && res.value.path[..|st.path|] == st.path
              && |res.value.counters| == |st.counters| + 1
              && res.value.counters[..|st.counters| - 1] == st.counters[..|st.counters| - 1]
              && res.value.counters[|st.counters|] == map[]
              && res.value.selfEnding == r.selfClosing && res.value.inside
              && var newTop := res.value.counters[|st.counters| - 1];
                 && CountOf(newTop, r.name) == CountOf(top, r.name) + 1
                 && (forall other :: other != r.name ==> CountOf(newTop, other) == CountOf(top, other))
                 && res.value.path[|st.path|] == Segment(r.name, CountOf(newTop, r.name))
  {
    if |st.counters| == 0 then Failure("list index out of range")
    else
      var top := st.counters[|st.counters| - 1];
      var k := CountOf(top, r.name) + 1;
      Success(PathState(st.path + [Segment(r.name, k)], st.counters[..|st.counters| - 1] + [top[r.name := k], map[]],
                        r.selfClosing, true, r.begin, Some(r.scopeEnd)))
  }

  /** Popping undoes the push of an opening tag on the path, but the level
      keeps the raised count, so the next same-name tag there is numbered one
      higher. */
  lemma PopUndoesOpen(st: PathState, r: TagRegion)
    requires |st.counters| > 0
    ensures var o := OpenTag(st, r);
            && o.Success? && PopBoth(o.value).Success?
            && var p := PopBoth(o.value).value;
               && p.path == st.path
               && |p.counters| == |st.counters|
               && p.counters[..|st.counters| - 1] == st.counters[..|st.counters| - 1]
               && CountOf(p.counters[|st.counters| - 1], r.name) == CountOf(st.counters[|st.counters| - 1], r.name) + 1
  {
    var o := OpenTag(st, r).value;
    assert o.counters[..|o.counters| - 1][..|st.counters| - 1] == o.counters[..|st.counters| - 1];
  }

  /** A closing tag: pop only when the selection ends after the name, and
      forget any pending self-closing tag in every case. */
  function CloseTag(st: PathState, r: TagRegion, sel: Region): (res: Result<PathState, string>)
    ensures res.Success? ==> !res.value.selfEnding
    ensures sel.End() <= r.end ==> res == Success(st.(selfEnding := false))
    ensures sel.End() > r.end && Balanced(st) ==>
              && (res.Success? <==> |st.path| > 0)
              && (res.Success? ==> res.value.path == st.path[..|st.path| - 1] && !res.value.inside && Balanced(res.value))
  {
    if sel.End() > r.end then
      var p :- PopBoth(st);
      Success(p.(inside := false, selfEnding := false))
    else Success(st.(selfEnding := false))
  }

  /** One pass of the loop body for a region that starts no later than the
      selection ends: a self-closing tag seen last is popped first, then the
      region is handled by the character before it. */
  function Step(st: PathState, r: TagRegion, sel: Region): Result<PathState, string>
  {
    var st1 :- if st.selfEnding then PopBoth(st) else Success(st);
    if r.prevChar == "<" then OpenTag(st1, r)
    else if r.prevChar == "/" then CloseTag(st1, r, sel)
    else Success(st1)
  }

  /** The `for region in tagRegions` loop, which breaks at the first region
      that starts after the selection. */
  function Scan(st: PathState, regions: seq<TagRegion>, sel: Region): Result<PathState, string>
    decreases |regions|
  {
    if |regions| == 0 || regions[0].begin > sel.End() then Success(st)
    else
      var next :- Step(st, regions[0], sel);
      Scan(next, regions[1..], sel)
  }

  /** After the loop: a self-closing tag that ends before the selection
      starts is popped too. */
  function Finish(st: PathState, sel: Region): Result<PathState, string>
  {
    if st.selfEnding && st.scopeEnd.Some? && st.scopeEnd.value <= sel.Begin() then
      var p :- PopBoth(st);
      Success(p.(inside := false))
    else Success(st)
  }

  /** The path part of `buildPath(view, selection)`. */
  function BuildPath(regions: seq<TagRegion>, sel: Region): Result<seq<string>, string>
  {
    var st :- Scan(Start(), regions, sel);
    var fin :- Finish(st, sel);
    Success(fin.path)
  }

  // ---------------------------------------------------------------------------
  // Properties of the loop

  /** Every step pushes or pops a segment and a level together. */
  lemma StepBalanced(st: PathState, r: TagRegion, sel: Region)
    requires Balanced(st)
    ensures Step(st, r, sel).Success? ==> Balanced(Step(st, r, sel).value)
  {
  }

  lemma {:induction false} ScanBalanced(st: PathState, regions: seq<TagRegion>, sel: Region)
    requires Balanced(st)
    ensures Scan(st, regions, sel).Success? ==> Balanced(Scan(st, regions, sel).value)
    decreases |regions|
  {
    if |regions| > 0 && regions[0].begin <= sel.End() {
      StepBalanced(st, regions[0], sel);
      if Step(st, regions[0], sel).Success? {
        ScanBalanced(Step(st, regions[0], sel).value, regions[1..], sel);
      }
    }
  }

  /** `path` and `levelCounters` start with one entry each and are always
      pushed and popped together, so their lengths stay equal. */
  lemma BuildBalanced(regions: seq<TagRegion>, sel: Region)
    ensures var st := Scan(Start(), regions, sel);
            st.Success? ==> Balanced(st.value) && (Finish(st.value, sel).Success? ==> Balanced(Finish(st.value, sel).value))
  {
    ScanBalanced(Start(), regions, sel);
  }

  /** Regions from the first one that starts after the selection on are
      never looked at. */
  lemma {:induction false} ScanStopsAfterSelection(st: PathState, before: seq<TagRegion>, r: TagRegion,
                                                   after: seq<TagRegion>, sel: Region)
    requires r.begin > sel.End()
    ensures Scan(st, before + [r] + after, sel) == Scan(st, before, sel)
    decreases |before|
  {
    var all := before + [r] + after;
    if |before| == 0 {
      assert all[0] == r;
    } else {
      assert all[0] == before[0];
      assert all[1..] == before[1..] + [r] + after;
      if before[0].begin <= sel.End() && Step(st, before[0], sel).Success? {
        ScanStopsAfterSelection(Step(st, before[0], sel).value, before[1..], r, after, sel);
      }
    }
  }

  /** An opening tag appends `name[k]`, where `k` is one more than the
      number of same-name opening tags counted so far at the current level;
      the count goes up by one and a fresh level starts. */
  lemma OpeningTagSegment(st: PathState, r: TagRegion, sel: Region)
    requires Balanced(st) && !st.selfEnding && |st.path| > 0 && r.prevChar == "<"
    ensures var res := Step(st, r, sel);
            var k := CountOf(st.counters[|st.counters| - 1], r.name) + 1;
            && res.Success?
            && res.value.path == st.path + [Segment(r.name, k)]
            && res.value.counters[|st.counters| - 1] == st.counters[|st.counters| - 1][r.name := k]
            && CountOf(res.value.counters[|st.counters| - 1], r.name) == k
            && res.value.counters[|st.counters|] == map[]
  {
  }

  /** A self-closing tag leaves no segment behind: whatever region comes
      next, its segment is popped first. A next opening tag lands on the level
      the self-closing tag was opened at; a next closing tag (`<a><b/></a>`)
      then pops the enclosing segment if the selection ends after it; any other
      region leaves the path as it was before the self-closing tag, with the
      flag still set. */
  lemma SelfClosingPoppedNext(st: PathState, r1: TagRegion, r2: TagRegion, sel: Region)
    requires Balanced(st) && !st.selfEnding && |st.path| > 0
    requires r1.prevChar == "<" && r1.selfClosing
    ensures var s1 := Step(st, r1, sel);
            && s1.Success? && s1.value.selfEnding
            && var s2 := Step(s1.value, r2, sel);
               && s2.Success?
               && (r2.prevChar == "<" ==> |s2.value.path| == |st.path| + 1 && s2.value.path[..|st.path|] == st.path)
               && (r2.prevChar == "/" ==>
                     && !s2.value.selfEnding
                     && s2.value.path == (if sel.End() > r2.end then st.path[..|st.path| - 1] else st.path))
               && (r2.prevChar != "<" && r2.prevChar != "/" ==> s2.value.path == st.path && s2.value.selfEnding)
  {
    var s1 := Step(st, r1, sel).value;
    assert s1.path[..|s1.path| - 1] == st.path;
    var popped := PopBoth(s1).value;
    assert popped.path == st.path && Balanced(popped);
  }

  /** Two self-closing tags of one name side by side count as the first and
      second of that name. */
  lemma SiblingsNumbered(st: PathState, r1: TagRegion, r2: TagRegion, sel: Region)
    requires Balanced(st) && !st.selfEnding && |st.path| > 0 && CountOf(st.counters[|st.counters| - 1], r1.name) == 0
    requires r1.prevChar == "<" && r1.selfClosing && r2.prevChar == "<" && r2.name == r1.name
    ensures var s2 := Step(Step(st, r1, sel).value, r2, sel);
            s2.Success? && s2.value.path == st.path + [Segment(r1.name, 2)]
  {
    var s1 := Step(st, r1, sel).value;
    assert s1.path[..|s1.path| - 1] == st.path;
    assert s1.counters[..|s1.counters| - 1] == st.counters[..|st.counters| - 1] + [st.counters[|st.counters| - 1][r1.name := 1]];
  }

  /** A closing-tag region pops a segment only when the selection ends
      strictly after it, and always clears the self-closing flag. */
  lemma ClosingTagPops(st: PathState, r: TagRegion, sel: Region)
    requires Balanced(st) && !st.selfEnding && |st.path| > 0 && r.prevChar == "/"
    ensures var res := Step(st, r, sel);
            && res.Success? && !res.value.selfEnding
            && (sel.End() > r.end ==> res.value.path == st.path[..|st.path| - 1] && !res.value.inside)
            && (sel.End() <= r.end ==> res.value.path == st.path)
  {
  }

  /** After the loop at most one segment goes: the pending self-closing tag's,
      when its tag scope ends before the selection starts. */
  lemma FinishPopsAtMostOne(st: PathState, sel: Region)
    requires Balanced(st) && |st.path| > 0
    ensures var f := Finish(st, sel);
            && f.Success? && Balanced(f.value)
            && var popped := st.selfEnding && st.scopeEnd.Some? && st.scopeEnd.value <= sel.Begin();
               && (popped ==> f.value.path == st.path[..|st.path| - 1] && !f.value.inside)
               && (!popped ==> f.value == st)
  {
  }

  /** The leading empty segment stays at the bottom of the path until the
      path runs empty. */
  predicate Rooted(st: PathState)
  {
    |st.path| > 0 ==> st.path[0] == ""
  }

  lemma StepRooted(st: PathState, r: TagRegion, sel: Region)
    requires Balanced(st) && Rooted(st)
    ensures Step(st, r, sel).Success? ==> Rooted(Step(st, r, sel).value)
  {
  }

  lemma {:induction false} ScanRooted(st: PathState, regions: seq<TagRegion>, sel: Region)
    requires Balanced(st) && Rooted(st)
    ensures Scan(st, regions, sel).Success? ==> Rooted(Scan(st, regions, sel).value)
    decreases |regions|
  {
    if |regions| > 0 && regions[0].begin <= sel.End() {
      StepBalanced(st, regions[0], sel);
      StepRooted(st, regions[0], sel);
      if Step(st, regions[0], sel).Success? {
        ScanRooted(Step(st, regions[0], sel).value, regions[1..], sel);
      }
    }
  }

  /** A path `buildPath` returns starts with the empty segment unless stray
      closing tags emptied it. So a path of two or more segments joins to a
      string starting with `/`, while the empty segment alone, at document
      level, joins to `''`. */
  lemma BuildPathRooted(regions: seq<TagRegion>, sel: Region)
    ensures var p := BuildPath(regions, sel);
            p.Success? && |p.value| > 0 ==> p.value[0] == ""
    ensures var p := BuildPath(regions, sel);
            p.Success? && |p.value| >= 2 ==> |Join("/", p.value)| > 0 && Join("/", p.value)[0] == '/'
    ensures var p := BuildPath(regions, sel);
            p.Success? && |p.value| == 1 ==> Join("/", p.value) == ""
  {
    ScanBalanced(Start(), regions, sel);
    ScanRooted(Start(), regions, sel);
  }

  /** An illustration: a cursor after `<a></a>` is at document level, and
      its path is the empty segment alone, which joins to `''`. */
  lemma DocumentLevelPath()
    ensures var a := TagRegion(1, 2, "<", "a", 3, false);
            var b := TagRegion(5, 6, "/", "a", 0, false);
            && BuildPath([a, b], Region(8, 8)) == Success([""])
            && Join("/", [""]) == ""
  {
    var a := TagRegion(1, 2, "<", "a", 3, false);
    var b := TagRegion(5, 6, "/", "a", 0, false);
    var sel := Region(8, 8);
    assert IntToString(1) == "1";
    var st1 := PathState(["", "a[1]"], [map["a" := 1], map[]], false, true, 1, Some(3));
    assert Step(Start(), a, sel) == Success(st1) by {
      assert Segment("a", 1) == "a[1]";
      assert Start().path + [Segment("a", 1)] == ["", "a[1]"];
      assert Start().counters[..0] + [map[]["a" := 1], map[]] == [map["a" := 1], map[]];
    }
    var st2 := PathState([""], [map["a" := 1]], false, false, 1, Some(3));
    assert Step(st1, b, sel) == Success(st2) by {
      assert st1.path[..1] == [""];
      assert st1.counters[..1] == [map["a" := 1]];
    }
    assert [a, b][1..] == [b] && [b][1..] == [];
    assert Scan(st1, [b], sel) == Success(st2);
    assert Scan(Start(), [a, b], sel) == Success(st2);
    assert Finish(st2, sel) == Success(st2);
  }

  /** Two stray closing tags before the cursor pop the one entry and then
      pop from an empty list: `buildPath` raises. */
  lemma StrayClosingTagsRaise()
    ensures var a := TagRegion(2, 3, "/", "a", 0, false);
            var b := TagRegion(6, 7, "/", "b", 0, false);
            BuildPath([a, b], Region(9, 9)).Failure?
  {
    var a := TagRegion(2, 3, "/", "a", 0, false);
    var b := TagRegion(6, 7, "/", "b", 0, false);
    var sel := Region(9, 9);
    var s1 := Step(Start(), a, sel);
    assert s1.Success? && s1.value.path == [] && s1.value.counters == [];
    assert Step(s1.value, b, sel).Failure?;
    assert [a, b][1..] == [b];
    assert Scan(s1.value, [b], sel).Failure?;
  }

  // ---------------------------------------------------------------------------
  // isSGML and the updateStatus guard

  /** `isSGML`: the syntax file lies under the XML or HTML package. The
      branch for a view without a syntax setting is not modelled. */
  predicate IsSGML(syntax: string)
  {
    StartsWith(syntax, "Packages/XML/") || StartsWith(syntax, "Packages/HTML/")
  }

  /** `startswith`, character by character. */
  predicate AgreesOn(s: string, prefix: string)
  {
    |prefix| <= |s| && forall i :: 0 <= i < |prefix| ==> s[i] == prefix[i]
  }

  lemma StartsWithPointwise(s: string, prefix: string)
    ensures StartsWith(s, prefix) <==> AgreesOn(s, prefix)
  {
    if AgreesOn(s, prefix) {
      assert s[..|prefix|] == prefix;
    }
  }

  /** A syntax is SGML exactly when its first characters spell one of the two
      package directories; anything longer that starts like an SGML syntax is
      one too. */
  lemma IsSGMLSpec(syntax: string, more: string)
    ensures IsSGML(syntax) <==> AgreesOn(syntax, "Packages/XML/") || AgreesOn(syntax, "Packages/HTML/")
    ensures IsSGML(syntax) ==> IsSGML(syntax + more)
    ensures |syntax| < |"Packages/XML/"| ==> !IsSGML(syntax)
  {
    StartsWithPointwise(syntax, "Packages/XML/");
    StartsWithPointwise(syntax, "Packages/HTML/");
    StartsWithPointwise(syntax + more, "Packages/XML/");
    StartsWithPointwise(syntax + more, "Packages/HTML/");
    if IsSGML(syntax) {
      assert forall i :: 0 <= i < |syntax| ==> (syntax + more)[i] == syntax[i];
    }
  }

  /** Four syntax paths, as illustrations of `IsSGMLSpec`. */
  lemma IsSGMLExamples()
    ensures IsSGML("Packages/XML/XML.sublime-syntax")
    ensures IsSGML("Packages/HTML/HTML.sublime-syntax")
    ensures !IsSGML("Packages/Python/Python.sublime-syntax")
    ensures !IsSGML("Packages/XML")
  {
    assert "Packages/XML/XML.sublime-syntax"[..13] == "Packages/XML/";
    assert "Packages/HTML/HTML.sublime-syntax"[..14] == "Packages/HTML/";
    assert "Packages/Python/Python.sublime-syntax"[..13] != "Packages/XML/" by {
      assert "Packages/Python/Python.sublime-syntax"[9] != "Packages/XML/"[9];
    }
    assert "Packages/Python/Python.sublime-syntax"[..14] != "Packages/HTML/" by {
      assert "Packages/Python/Python.sublime-syntax"[9] != "Packages/HTML/"[9];
    }
  }

  /** The module globals `changeCounter` and `currentXPathRange`. `updateStatus`
      assigns them at different points, so one can be set without the other. */
  datatype StatusCache = StatusCache(changeCounter: Option<int>, range: Option<(int, int)>)

  /** Both globals before the first update. */
  function NoCache(): StatusCache
  {
    StatusCache(None, None)
  }

  /** Both globals set, or neither. */
  predicate Consistent(cache: StatusCache)
  {
    cache.changeCounter.Some? <==> cache.range.Some?
  }

  /** What `updateStatus` leaves: the globals, the status text shown last,
      and the exception it raised, if any. */
  datatype StatusUpdate = StatusUpdate(cache: StatusCache, status: Option<string>, error: Option<string>)

  /** The guard of `updateStatus`, evaluated left to right as Python does:
      nothing counted yet, the buffer changed since, or the selection reaches
      outside the cached range; indexing a range that is still `None` raises. */
  function NeedsRecompute(cache: StatusCache, newCount: int, sel: Region): Result<bool, string>
  {
    match cache.changeCounter
    case None => Success(true)
    case Some(count) =>
      if newCount > count then Success(true)
      else
        match cache.range
        case None => Failure("'NoneType' object is not subscriptable")
        case Some(range) => Success(sel.Begin() < range.0 || sel.End() > range.1)
  }

  /** The status shown for a built path. */
  function StatusText(path: seq<string>): string
  {
    "XPath: " + Join("/", path)
  }

  /** `updateStatus(view)`. The change count is stored before `buildPath` runs
      and the range only after it returns, so when `buildPath` raises (`built`
      is a `Failure`) the new count stays with the old range and the status
      still reads `XPath being calculated...`. */
  function UpdateStatus(cache: StatusCache, newCount: int, sel: Region, built: Result<((int, int), seq<string>), string>)
    : StatusUpdate
  {
    match NeedsRecompute(cache, newCount, sel)
    case Failure(e) => StatusUpdate(cache, None, Some(e))
    case Success(recompute) =>
      if !recompute then StatusUpdate(cache, None, None)
      else
        var counted := cache.(changeCounter := Some(newCount));
        match built
        case Failure(e) => StatusUpdate(counted, Some("XPath being calculated..."), Some(e))
        case Success(b) => StatusUpdate(StatusCache(Some(newCount), Some(b.0)), Some(StatusText(b.1)), None)
  }

  /** With both globals set or neither, the guard never raises; a successful
      build sets both, so the next guard cannot raise either. */
  lemma UpdateStatusKeepsConsistent(cache: StatusCache, newCount: int, sel: Region, built: Result<((int, int), seq<string>), string>)
    requires Consistent(cache)
    ensures NeedsRecompute(cache, newCount, sel).Success?
    ensures built.Success? ==> Consistent(UpdateStatus(cache, newCount, sel, built).cache)
    ensures UpdateStatus(cache, newCount, sel, built).error.Some? ==> built.Failure?
  {
  }

  /** Right after a successful recomputation, the same change count and a
      selection inside the new range recompute nothing and change nothing. */
  lemma UpdateStatusSettles(cache: StatusCache, newCount: int, sel: Region, built: ((int, int), seq<string>),
                            sel': Region, built': Result<((int, int), seq<string>), string>)
    requires NeedsRecompute(cache, newCount, sel) == Success(true)
    requires built.0.0 <= sel'.Begin() && sel'.End() <= built.0.1
    ensures var u := UpdateStatus(cache, newCount, sel, Success(built));
            && u.status == Some(StatusText(built.1)) && u.error.None?
            && UpdateStatus(u.cache, newCount, sel', built') == StatusUpdate(u.cache, None, None)
  {
  }

  /** As written: when the first `buildPath` raises, the count is cached
      without a range, and the next update with an unchanged count raises
      while evaluating its guard, whatever the selection. */
  lemma FailedBuildLeavesStaleCache(newCount: int, sel: Region, e: string, sel': Region,
                                    built': Result<((int, int), seq<string>), string>)
    ensures var u := UpdateStatus(NoCache(), newCount, sel, Failure(e));
            && u.cache == StatusCache(Some(newCount), None) && !Consistent(u.cache)
            && UpdateStatus(u.cache, newCount, sel', built').error.Some?
  {
  }

  /** Corrected: both globals are stored together, once `buildPath` has
      returned. */
  function UpdateStatusAtomic(cache: StatusCache, newCount: int, sel: Region,
                              built: Result<((int, int), seq<string>), string>): StatusUpdate
  {
    match NeedsRecompute(cache, newCount, sel)
    case Failure(e) => StatusUpdate(cache, None, Some(e))
    case Success(recompute) =>
      if !recompute then StatusUpdate(cache, None, None)
      else
        match built
        case Failure(e) => StatusUpdate(cache, Some("XPath being calculated..."), Some(e))
        case Success(b) => StatusUpdate(StatusCache(Some(newCount), Some(b.0)), Some(StatusText(b.1)), None)
  }

  /** The corrected update keeps both globals together whatever `buildPath`
      does, so the guard never raises; a failed build is retried on the next
      update; and with a successful build it agrees with the source. */
  lemma AtomicKeepsConsistent(cache: StatusCache, newCount: int, sel: Region,
                              built: Result<((int, int), seq<string>), string>)
    requires Consistent(cache)
    ensures var u := UpdateStatusAtomic(cache, newCount, sel, built);
            && Consistent(u.cache)
            && NeedsRecompute(u.cache, newCount, sel).Success?
            && (u.error.Some? ==> built.Failure? && u.cache == cache)
            && (built.Failure? && NeedsRecompute(cache, newCount, sel) == Success(true) ==>
                  NeedsRecompute(u.cache, newCount, sel) == Success(true))
            && (built.Success? ==> u == UpdateStatus(cache, newCount, sel, built))
  {
  }

  /** An illustration: the cursor inside `<a><b>` shows `XPath: /a[1]/b[1]`: each opening tag
      adds a numbered segment and the leading empty segment gives the `/`. */
  lemma NestedPathText()
    ensures var a := TagRegion(1, 2, "<", "a", 3, false);
            var b := TagRegion(4, 5, "<", "b", 6, false);
            && BuildPath([a, b], Region(7, 7)) == Success(["", "a[1]", "b[1]"])
            && Join("/", ["", "a[1]", "b[1]"]) == "/a[1]/b[1]"
  {
    var a := TagRegion(1, 2, "<", "a", 3, false);
    var b := TagRegion(4, 5, "<", "b", 6, false);
    var sel := Region(7, 7);
    assert IntToString(1) == "1";
    assert Segment("a", 1) == "a[1]" && Segment("b", 1) == "b[1]";
    var st1 := PathState(["", "a[1]"], [map["a" := 1], map[]], false, true, 1, Some(3));
    assert Step(Start(), a, sel) == Success(st1) by {
      assert Start().path + [Segment("a", 1)] == ["", "a[1]"];
      assert Start().counters[..0] + [map[]["a" := 1], map[]] == [map["a" := 1], map[]];
    }
    var st2 := PathState(["", "a[1]", "b[1]"], [map["a" := 1], map["b" := 1], map[]], false, true, 4, Some(6));
    assert Step(st1, b, sel) == Success(st2) by {
      assert CountOf(st1.counters[1], "b") == 0;
      assert st1.path + [Segment("b", 1)] == ["", "a[1]", "b[1]"];
      assert st1.counters[..1] + [map[]["b" := 1], map[]] == [map["a" := 1], map["b" := 1], map[]];
    }
    assert [a, b][1..] == [b] && [b][1..] == [];
    assert Scan(st1, [b], sel) == Success(st2);
    assert Scan(Start(), [a, b], sel) == Success(st2);
    assert Finish(st2, sel) == Success(st2);
    assert Join("/", ["", "a[1]", "b[1]"]) == "" + "/" + Join("/", ["a[1]", "b[1]"]);
  }
}

=== FILE: lxml_helpers.dfy ===
/** The pure helpers of lxml_parser.py over the builder's nodes: the offset
    range of a tag (`getNodeTagRange`), relative navigation
    (`getRelativeNode`), the namespace map handed to the XPath compiler, and
    the wrapping of XPath results into a list. */
module LxmlHelpers {
  import opened Wrappers
  import opened Positions
  import opened TreeBuilder
  import opened NamespacePrefixes

  // ---------------------------------------------------------------------------
  // getNodeTagRange (lxml_parser.py:230-238)

  /** The `TagPos` a node keeps for `position_type`: comments and processing
      instructions have only `tag_pos`; elements have `open_tag_pos` and
      `close_tag_pos`. `None` where the attribute is missing or unset. */
  function TagPosFor(n: Node, positionType: string): Option<TagPos>
  {
    if !n.kind.ElementKind? then n.tagPos
    else if positionType == "open" then n.openPos
    else if positionType == "close" then n.closePos
    else None
  }

  /** `getNodeTagRange(node, position_type)`: from the start of the tag's
      first span to the end of its last one; `None` where Python raises
      because the position is unset (or the attribute does not exist). */
  function GetNodeTagRange(n: Node, positionType: string): (r: Option<(int, int)>)
    ensures r.Some? <==> TagPosFor(n, positionType).Some?
    ensures r.Some? ==> r.value == (TagPosFor(n, positionType).value.startPos.0, TagPosFor(n, positionType).value.endPos.1)
  {
    match TagPosFor(n, positionType)
    case None => None
    case Some(p) => Some(Range(p))
  }

  /** A comment or processing instruction answers its one tag's range
      whatever the position type; an element answers only `open` and `close`
      (any other type names a missing attribute); and a range reaches from
      the start of the tag's first span to the end of its last, so it covers
      both spans. */
  lemma TagRangeSpec(n: Node, positionType: string)
    ensures !n.kind.ElementKind? ==> GetNodeTagRange(n, positionType) == GetNodeTagRange(n, "open")
    ensures n.kind.ElementKind? && positionType != "open" && positionType != "close" ==>
              GetNodeTagRange(n, positionType).None?
    ensures GetNodeTagRange(n, positionType).Some? ==>
              var p := TagPosFor(n, positionType).value;
              var r := GetNodeTagRange(n, positionType).value;
              p.startPos.0 <= p.startPos.1 && p.endPos.0 <= p.endPos.1 ==>
                && r.0 <= p.startPos.1 && p.endPos.0 <= r.1
                && r.0 == p.startPos.0 && r.1 == p.endPos.1
  {
  }

  /** A self-closing element's open and close ranges coincide; a comment or
      processing instruction answers the same range for either. */
  lemma SelfClosingSameRange(n: Node)
    requires !n.kind.ElementKind? || IsSelfClosing(n.openPos, n.closePos)
    ensures GetNodeTagRange(n, "open") == GetNodeTagRange(n, "close")
  {
    SelfClosingIsEquality(n.openPos, n.closePos);
  }

  /** An element whose ranges differ is not self-closing. */
  lemma DifferentRangesNotSelfClosing(n: Node)
    requires n.kind.ElementKind? && GetNodeTagRange(n, "open") != GetNodeTagRange(n, "close")
    ensures !IsSelfClosing(n.openPos, n.closePos)
  {
    SelfClosingIsEquality(n.openPos, n.closePos);
  }

  /** The element `element_start` creates answers the range of its location
      for `"open"`. */
  lemma StartedElementOpenRange(b: Builder, tag: string, attrib: seq<(string, string)>,
                                nsmap: seq<(Option<string>, string)>, loc: TagPos)
    requires Valid(b) && FlushDefined(b) && !SecondRoot(b)
    ensures var r := ElementStart(b, tag, attrib, nsmap, loc);
            && |b.all| < |r.all|
            && GetNodeTagRange(r.all[|b.all|], "open") == Some((loc.startPos.0, loc.endPos.1))
  {
    ElementStartEffect(b, tag, attrib, nsmap, loc);
  }

  // ---------------------------------------------------------------------------
  // getRelativeNode (lxml_parser.py:240-257)

  /** Siblings share a parent (the top level shares `None`), and document
      order among siblings is creation order: elements append their children
      at the end, and the top level is prolog, root, epilog by creation. */
  function NextFrom(all: seq<Node>, p: Option<nat>, j: nat): (r: Option<nat>)
    requires j <= |all|
    ensures r.Some? ==> j <= r.value < |all| && all[r.value].parent == p
    ensures forall k :: j <= k < |all| && (r.None? || k < r.value) ==> all[k].parent != p
    decreases |all| - j
  {
    if j == |all| then None
    else if all[j].parent == p then Some(j)
    else NextFrom(all, p, j + 1)
  }

  /** The latest node before `j` with parent `p`. */
  function PrevBefore(all: seq<Node>, p: Option<nat>, j: nat): (r: Option<nat>)
    requires j <= |all|
    ensures r.Some? ==> r.value < j && all[r.value].parent == p
    ensures forall k :: 0 <= k < j && (r.None? || k > r.value) ==> all[k].parent != p
  {
    if j == 0 then None
    else if all[j - 1].parent == p then Some(j - 1)
    else PrevBefore(all, p, j - 1)
  }

  /** `next(relative_to.itersiblings(), None)` */
  function NextSibling(all: seq<Node>, x: nat): Option<nat>
    requires x < |all|
  {
    NextFrom(all, all[x].parent, x + 1)
  }

  /** `next(relative_to.itersiblings(preceding=True), None)` */
  function PrevSibling(all: seq<Node>, x: nat): Option<nat>
    requires x < |all|
  {
    PrevBefore(all, all[x].parent, x)
  }

  /** `getRelativeNode(relative_to, direction)`: the next or previous sibling,
      the node itself, or its parent; `None` when there is none, and
      `ValueError` for any other direction. */
  function GetRelativeNode(all: seq<Node>, x: nat, direction: string): (r: Result<Option<nat>, string>)
    requires x < |all|
    ensures r.Failure? <==> direction !in ["next", "prev", "previous", "self", "parent"]
    ensures r.Failure? ==> r.error == "Unknown direction \"" + direction + "\""
  {
    if direction == "next" then Success(NextSibling(all, x))
    else if direction == "prev" || direction == "previous" then Success(PrevSibling(all, x))
    else if direction == "self" then Success(Some(x))
    else if direction == "parent" then Success(all[x].parent)
    else Failure("Unknown direction \"" + direction + "\"")
  }

  /** The next sibling is the nearest later node with the same parent. */
  lemma NextSiblingNearest(all: seq<Node>, x: nat)
    requires x < |all|
    ensures var r := GetRelativeNode(all, x, "next");
            && r.Success?
            && (r.value.Some? ==> x < r.value.value < |all| && all[r.value.value].parent == all[x].parent
                                  && forall k :: x < k < r.value.value ==> all[k].parent != all[x].parent)
            && (r.value.None? ==> forall k :: x < k < |all| ==> all[k].parent != all[x].parent)
  {
  }

  /** Going to the next sibling and back returns to the start, and so does the
      reverse. */
  lemma NextPrevRoundTrip(all: seq<Node>, x: nat)
    requires x < |all|
    ensures NextSibling(all, x).Some? ==>
              var y := NextSibling(all, x).value;
              y < |all| && PrevSibling(all, y) == Some(x)
    ensures PrevSibling(all, x).Some? ==>
              var y := PrevSibling(all, x).value;
              y < |all| && NextSibling(all, y) == Some(x)
  {
    var p := all[x].parent;
    if NextSibling(all, x).Some? {
      var y := NextSibling(all, x).value;
      var q := PrevBefore(all, p, y);
      assert q.Some? && q.value >= x;
    }
    if PrevSibling(all, x).Some? {
      var y := PrevSibling(all, x).value;
      var q := NextFrom(all, p, y + 1);
      assert q.Some? && q.value <= x;
    }
  }

  /** At the top level of a built document the siblings run prolog, root,
      epilog: the root's next sibling is the first epilog node. */
  lemma RootNextSibling(b: Builder)
    requires Valid(b) && b.root.Some?
    ensures var x := b.root.value;
            && x < |b.all|
            && NextSibling(b.all, x) == (if |b.epilog| > 0 then Some(b.epilog[0]) else None)
  {
    var x := b.root.value;
    TopLevelOrder(b);
    var top := b.prolog + [x] + b.epilog;
    assert top[|b.prolog|] == x;
    var n := NextSibling(b.all, x);
    if |b.epilog| > 0 {
      var e := b.epilog[0];
      assert top[|b.prolog| + 1] == e;
      assert x < e && e < |b.all| && b.all[e].parent.None?;
      assert n.Some? && x < n.value <= e;
      assert n.value in top;
      OutsideGap(top, |b.prolog|, n.value);
    }
  }

  /** A member of an increasing list lies outside the gap between two
      neighbouring entries. */
  lemma OutsideGap(top: seq<nat>, m: nat, v: nat)
    requires TreeBuilder.Increasing(top) && m + 1 < |top| && v in top
    ensures v <= top[m] || v >= top[m + 1]
  {
    var j :| 0 <= j < |top| && top[j] == v;
    assert j <= m || j >= m + 1;
  }

  /** ... and its previous sibling is the last prolog node. */
  lemma RootPrevSibling(b: Builder)
    requires Valid(b) && b.root.Some?
    ensures var x := b.root.value;
            && x < |b.all|
            && PrevSibling(b.all, x) == (if |b.prolog| > 0 then Some(b.prolog[|b.prolog| - 1]) else None)
  {
    var x := b.root.value;
    TopLevelOrder(b);
    var top := b.prolog + [x] + b.epilog;
    assert top[|b.prolog|] == x;
    var p := PrevSibling(b.all, x);
    if |b.prolog| > 0 {
      var l := b.prolog[|b.prolog| - 1];
      assert top[|b.prolog| - 1] == l;
      assert b.all[l].parent.None?;
    }
  }

  // ---------------------------------------------------------------------------
  // XPath glue (lxml_parser.py:300-321)

  /** The namespace map handed to the XPath compiler: every prefix whose URI
      is not empty. */
  function NsMap(t: PrefixTable): map<string, string>
  {
    if |t| == 0 then map[]
    else
      var last := t[|t| - 1];
      if last.1.0 != "" then NsMap(t[..|t| - 1])[last.0 := last.1.0] else NsMap(t[..|t| - 1])
  }

  /** `namespaces = None` yields the empty map. */
  function NsMapOf(namespaces: Option<PrefixTable>): map<string, string>
  {
    match namespaces
    case None => map[]
    case Some(t) => NsMap(t)
  }

  /** A prefix is mapped exactly when its URI is non-empty, and to that URI. */
  lemma {:induction false} NsMapSpec(t: PrefixTable)
    requires PrefixesDistinct(t)
    ensures forall k :: k in NsMap(t) <==> exists i :: 0 <= i < |t| && t[i].0 == k && t[i].1.0 != ""
    ensures forall i :: 0 <= i < |t| && t[i].1.0 != "" ==> t[i].0 in NsMap(t) && NsMap(t)[t[i].0] == t[i].1.0
  {
    if |t| > 0 {
      var init := t[..|t| - 1];
      assert PrefixesDistinct(init);
      NsMapSpec(init);
      forall k | k in NsMap(t)
        ensures exists i :: 0 <= i < |t| && t[i].0 == k && t[i].1.0 != ""
      {
        if k in NsMap(init) {
          var i :| 0 <= i < |init| && init[i].0 == k && init[i].1.0 != "";
          assert t[i] == init[i];
        } else {
          assert t[|t| - 1].0 == k && t[|t| - 1].1.0 != "";
        }
      }
      forall i | 0 <= i < |t| && t[i].1.0 != ""
        ensures t[i].0 in NsMap(t) && NsMap(t)[t[i].0] == t[i].1.0
      {
        if i < |t| - 1 {
          assert t[i] == init[i];
        }
      }
    }
  }

  /** What an XPath evaluation returns: a node set as a list, or one value. */
  datatype XPathValue<T> = ListValue(items: seq<T>) | ScalarValue(item: T)

  /** `execute_xpath_query`: evaluate on the context node, or on the tree when
      there is none, and return the result as a list. */
  function ExecuteXPath<C, T>(tree: C, xpath: C -> XPathValue<T>, context: Option<C>): (r: seq<T>)
    ensures var v := xpath(context.GetOr(tree));
            && (v.ListValue? ==> r == v.items)
            && (v.ScalarValue? ==> r == [v.item])
  {
    var v := xpath(context.GetOr(tree));
    match v
    case ListValue(items) => items
    case ScalarValue(item) => [item]
  }

  /** A list result passes through unchanged; a single value becomes a list of
      one, so the result is never empty for a scalar. */
  lemma ExecuteXPathList<C, T>(tree: C, xpath: C -> XPathValue<T>, context: Option<C>)
    ensures var v := xpath(context.GetOr(tree));
            && (v.ScalarValue? ==> |ExecuteXPath(tree, xpath, context)| == 1)
            && (context.None? ==> ExecuteXPath(tree, xpath, context) == ExecuteXPath(tree, xpath, Some(tree)))
  {
  }

  /** `get_results_for_xpath_query`: the compiler (foreign) is a parameter; it
      receives the query and the filtered namespace map. */
  function GetResultsForXPathQuery<C, T>(query: string, tree: C, context: Option<C>, namespaces: Option<PrefixTable>,
                                         compile: (string, map<string, string>) -> (C -> XPathValue<T>)): seq<T>
  {
    ExecuteXPath(tree, compile(query, NsMapOf(namespaces)), context)
  }

  /** The compiled query sees exactly the prefixes with a non-empty URI. */
  lemma QuerySeesNonEmptyPrefixes(t: PrefixTable)
    requires PrefixesDistinct(t)
    ensures forall k :: k in NsMapOf(Some(t)) <==> exists i :: 0 <= i < |t| && t[i].0 == k && t[i].1.0 != ""
  {
    NsMapSpec(t);
  }

  /** `get_results_for_xpath_query`, all in one: the compiler is handed
      exactly the prefixes whose URI is not empty, each with its URI; the
      query runs on the context node, or on the tree without one; and a list
      result comes back unchanged while a single value becomes a list of one. */
  lemma QueryResultsSpec<C, T>(query: string, tree: C, context: Option<C>, namespaces: Option<PrefixTable>,
                               compile: (string, map<string, string>) -> (C -> XPathValue<T>))
    requires namespaces.Some? ==> PrefixesDistinct(namespaces.value)
    ensures var m := NsMapOf(namespaces);
            && (namespaces.None? ==> m == map[])
            && (namespaces.Some? ==>
                  var t := namespaces.value;
                  && (forall k :: k in m <==> exists i :: 0 <= i < |t| && t[i].0 == k && t[i].1.0 != "")
                  && (forall i :: 0 <= i < |t| && t[i].1.0 != "" ==> t[i].0 in m && m[t[i].0] == t[i].1.0))
    ensures var v := compile(query, NsMapOf(namespaces))(context.GetOr(tree));
            var r := GetResultsForXPathQuery(query, tree, context, namespaces, compile);
            && (v.ListValue? ==> r == v.items)
            && (v.ScalarValue? ==> r == [v.item])
            && (context.None? ==> r == GetResultsForXPathQuery(query, tree, Some(tree), namespaces, compile))
  {
    if namespaces.Some? {
      NsMapSpec(namespaces.value);
    }
  }
}

=== FILE: namespace_prefixes.dfy ===
/** `unique_namespace_prefixes` of lxml_parser.py. The builder collects, per
    prefix, every namespace URI the document binds to it. XPath 1.0 cannot
    address the default namespace with an unprefixed name test (section 2.3
    of XPath 1.0), and one prefix may stand for several URIs, so the helper
    hands out one prefix per (prefix, URI) pair: a prefix with one URI keeps
    its name (the default namespace gets a replacement name), and a prefix
    with several URIs gets numbered names that collide with nothing. */
module NamespacePrefixes {
  import opened Wrappers
  import opened Strings
  import TreeBuilder

  /** The ordered dictionary being built: new prefix to (URI, original prefix). */
  type PrefixTable = seq<(string, (string, Option<string>))>

  predicate PrefixesDistinct(t: PrefixTable)
  {
    forall i, j :: 0 <= i < j < |t| ==> t[i].0 != t[j].0
  }

  /** `k in unique.keys()` */
  predicate HasKey(t: PrefixTable, k: string)
  {
    |t| > 0 && (t[|t| - 1].0 == k || HasKey(t[..|t| - 1], k))
  }

  lemma {:induction false} HasKeyIndex(t: PrefixTable, k: string)
    ensures HasKey(t, k) <==> exists i :: 0 <= i < |t| && t[i].0 == k
  {
    if |t| > 0 {
      HasKeyIndex(t[..|t| - 1], k);
      if HasKey(t[..|t| - 1], k) {
        var i :| 0 <= i < |t| - 1 && t[..|t| - 1][i].0 == k;
        assert t[i].0 == k;
      }
      if exists i :: 0 <= i < |t| && t[i].0 == k {
        var i :| 0 <= i < |t| && t[i].0 == k;
        if i < |t| - 1 {
          assert t[..|t| - 1][i].0 == k;
        }
      }
    }
  }

  /** `unique[k]` is `v` */
  predicate Maps(t: PrefixTable, k: string, v: (string, Option<string>))
  {
    exists i :: 0 <= i < |t| && t[i] == (k, v)
  }

  /** `k in namespaces.keys()`: a string equals only a prefix that is a string. */
  predicate IsPrefix(ns: TreeBuilder.Namespaces, k: string)
  {
    |ns| > 0 && (ns[|ns| - 1].0 == Some(k) || IsPrefix(ns[..|ns| - 1], k))
  }

  lemma {:induction false} IsPrefixIndex(ns: TreeBuilder.Namespaces, k: string)
    ensures IsPrefix(ns, k) <==> exists j :: 0 <= j < |ns| && ns[j].0 == Some(k)
  {
    if |ns| > 0 {
      IsPrefixIndex(ns[..|ns| - 1], k);
      if IsPrefix(ns[..|ns| - 1], k) {
        var j :| 0 <= j < |ns| - 1 && ns[..|ns| - 1][j].0 == Some(k);
        assert ns[j].0 == Some(k);
      }
      if exists j :: 0 <= j < |ns| && ns[j].0 == Some(k) {
        var j :| 0 <= j < |ns| && ns[j].0 == Some(k);
        if j < |ns| - 1 {
          assert ns[..|ns| - 1][j].0 == Some(k);
        }
      }
    }
  }

  /** The condition the suffix search loops on. */
  predicate Taken(t: PrefixTable, ns: TreeBuilder.Namespaces, k: string)
  {
    HasKey(t, k) || IsPrefix(ns, k)
  }

  /** `key or replaceNoneWith`: both `None` and `''` are falsy. */
  function BaseName(key: Option<string>, replaceNoneWith: string): string
  {
    if key.None? || key.value == "" then replaceNoneWith else key.value
  }

  /** `(key or replaceNoneWith) + str(index)` */
  function Numbered(base: string, index: int): string
    decreases |base|
  {
    if |base| == 0 then IntToString(index) else [base[0]] + Numbered(base[1..], index)
  }

  lemma {:induction false} NumberedIs(base: string, index: int)
    ensures Numbered(base, index) == base + IntToString(index)
    decreases |base|
  {
    if |base| > 0 {
      NumberedIs(base[1..], index);
      var d := IntToString(index);
      var tail := base[1..] + d;
      assert Numbered(base, index) == [base[0]] + tail;
      forall k | 0 <= k < |base| + |d|
        ensures ([base[0]] + tail)[k] == (base + d)[k]
      {
        if 0 < k < |base| {
          assert tail[k - 1] == base[k];
        } else if k >= |base| {
          assert tail[k - 1] == d[k - |base|];
        }
      }
    }
  }

  /** `unique[k] = v` on an ordered dictionary: an existing key keeps its
      place and takes the new value, a new key goes to the end. */
  function Put(t: PrefixTable, k: string, v: (string, Option<string>)): (r: PrefixTable)
  {
    if HasKey(t, k) then seq(|t|, p requires 0 <= p < |t| => if t[p].0 == k then (k, v) else t[p])
    else t + [(k, v)]
  }

  /** Assignment stores the value, keeps every other key's entry, and keeps
      the keys distinct. */
  lemma PutSpec(t: PrefixTable, k: string, v: (string, Option<string>))
    ensures Maps(Put(t, k, v), k, v)
    ensures forall k', v' :: k' != k && Maps(t, k', v') ==> Maps(Put(t, k, v), k', v')
    ensures PrefixesDistinct(t) ==> PrefixesDistinct(Put(t, k, v))
    ensures |Put(t, k, v)| >= |t| && forall p :: 0 <= p < |t| ==> Put(t, k, v)[p].0 == t[p].0
  {
    var r := Put(t, k, v);
    HasKeyIndex(t, k);
    if HasKey(t, k) {
      var i :| 0 <= i < |t| && t[i].0 == k;
      assert r[i] == (k, v);
      forall k', v' | k' != k && Maps(t, k', v')
        ensures Maps(r, k', v')
      {
        var p :| 0 <= p < |t| && t[p] == (k', v');
        assert r[p] == (k', v');
      }
    } else {
      assert r[|t|] == (k, v);
      forall k', v' | k' != k && Maps(t, k', v')
        ensures Maps(r, k', v')
      {
        var p :| 0 <= p < |t| && t[p] == (k', v');
        assert r[p] == (k', v');
      }
    }
  }

  // ---------------------------------------------------------------------------
  // The suffix search

  function MaxTableKey(t: PrefixTable): (m: nat)
    ensures forall i :: 0 <= i < |t| ==> |t[i].0| <= m
  {
    if |t| == 0 then 0
    else
      var m := MaxTableKey(t[..|t| - 1]);
      if |t[|t| - 1].0| > m then |t[|t| - 1].0| else m
  }

  function MaxPrefix(ns: TreeBuilder.Namespaces): (m: nat)
    ensures forall j :: 0 <= j < |ns| && ns[j].0.Some? ==> |ns[j].0.value| <= m
  {
    if |ns| == 0 then 0
    else
      var m := MaxPrefix(ns[..|ns| - 1]);
      var last := ns[|ns| - 1].0;
      if last.Some? && |last.value| > m then |last.value| else m
  }

  /** No taken key is longer than this many characters ... */
  function MaxTaken(t: PrefixTable, ns: TreeBuilder.Namespaces): nat
  {
    MaxTableKey(t) + MaxPrefix(ns)
  }

  /** ... so every index from `10^MaxTaken` on gives a free name. */
  lemma TakenBelow(t: PrefixTable, ns: TreeBuilder.Namespaces, base: string, j: int)
    requires Taken(t, ns, Numbered(base, j))
    ensures j < Pow10(MaxTaken(t, ns))
  {
    var k := Numbered(base, j);
    NumberedIs(base, j);
    assert |k| <= MaxTaken(t, ns) by {
      HasKeyIndex(t, k);
      IsPrefixIndex(ns, k);
      if HasKey(t, k) {
        var i :| 0 <= i < |t| && t[i].0 == k;
      } else {
        var i :| 0 <= i < |ns| && ns[i].0 == Some(k);
      }
    }
    if j >= 0 {
      NatToStringBound(j);
      Pow10Monotone(|NatToString(j)|, MaxTaken(t, ns));
    }
  }

  /** The first index from `j` on whose numbered name is taken by neither the
      table nor the original prefixes. */
  function NextFree(t: PrefixTable, ns: TreeBuilder.Namespaces, base: string, j: int): (r: int)
    ensures r >= j
    decreases Pow10(MaxTaken(t, ns)) - j
  {
    if !Taken(t, ns, Numbered(base, j)) then j
    else
      assert j < Pow10(MaxTaken(t, ns)) by { TakenBelow(t, ns, base, j); }
      NextFree(t, ns, base, j + 1)
  }

  /** The name the search settles on is free. */
  lemma {:induction false} NextFreeIsFree(t: PrefixTable, ns: TreeBuilder.Namespaces, base: string, j: int)
    ensures !Taken(t, ns, Numbered(base, NextFree(t, ns, base, j)))
    decreases Pow10(MaxTaken(t, ns)) - j
  {
    if Taken(t, ns, Numbered(base, j)) {
      assert j < Pow10(MaxTaken(t, ns)) by { TakenBelow(t, ns, base, j); }
      NextFreeIsFree(t, ns, base, j + 1);
    }
  }

  /** The search stops at the first free name: every index it passes over
      names a taken key. */
  lemma {:induction false} NextFreeIsFirst(t: PrefixTable, ns: TreeBuilder.Namespaces, base: string, j: int, k: int)
    requires j <= k < NextFree(t, ns, base, j)
    ensures Taken(t, ns, Numbered(base, k))
    decreases Pow10(MaxTaken(t, ns)) - j
  {
    if k > j {
      assert j < Pow10(MaxTaken(t, ns)) by { TakenBelow(t, ns, base, j); }
      NextFreeIsFirst(t, ns, base, j + 1, k);
    }
  }

  /** The loop over the URIs of a prefix with several: each URI gets the next
      free numbered name after the previous one's. The name is free, so the
      assignment appends. */
  function AssignMany(t: PrefixTable, ns: TreeBuilder.Namespaces, base: string, key: Option<string>,
                      items: seq<string>, index: int): PrefixTable
    decreases |items|
  {
    if |items| == 0 then t
    else
      var j := NextFree(t, ns, base, index + 1);
      AssignMany(t + [(Numbered(base, j), (items[0], key))], ns, base, key, items[1..], j)
  }

  /** The indices that loop settles on, in order. */
  function Suffixes(t: PrefixTable, ns: TreeBuilder.Namespaces, base: string, key: Option<string>,
                    items: seq<string>, index: int): (js: seq<int>)
    ensures |js| == |items|
    decreases |items|
  {
    if |items| == 0 then []
    else
      var j := NextFree(t, ns, base, index + 1);
      [j] + Suffixes(t + [(Numbered(base, j), (items[0], key))], ns, base, key, items[1..], j)
  }

  /** One entry per URI is appended, in order, named by its suffix. */
  lemma {:induction false} AssignManyShape(t: PrefixTable, ns: TreeBuilder.Namespaces, base: string,
                                           key: Option<string>, items: seq<string>, index: int)
    ensures var r := AssignMany(t, ns, base, key, items, index);
            var js := Suffixes(t, ns, base, key, items, index);
            && |r| == |t| + |items| && r[..|t|] == t
            && forall m :: 0 <= m < |items| ==> r[|t| + m] == (Numbered(base, js[m]), (items[m], key))
    decreases |items|
  {
    if |items| > 0 {
      var j := NextFree(t, ns, base, index + 1);
      var t' := t + [(Numbered(base, j), (items[0], key))];
      AssignManyShape(t', ns, base, key, items[1..], j);
      var r := AssignMany(t, ns, base, key, items, index);
      var js := Suffixes(t, ns, base, key, items, index);
      var rest := Suffixes(t', ns, base, key, items[1..], j);
      assert r == AssignMany(t', ns, base, key, items[1..], j);
      assert js == [j] + rest;
      assert r[..|t'|] == t';
      assert r[..|t|] == t'[..|t|];
      forall m | 0 <= m < |items|
        ensures r[|t| + m] == (Numbered(base, js[m]), (items[m], key))
      {
        if m == 0 {
          assert r[|t|] == t'[|t|];
        } else {
          assert r[|t| + m] == r[|t'| + (m - 1)];
          assert items[1..][m - 1] == items[m];
          assert js[m] == rest[m - 1];
        }
      }
    }
  }

  predicate Above(js: seq<int>, index: int)
  {
    forall m :: 0 <= m < |js| ==> js[m] > index
  }

  predicate Increasing(js: seq<int>)
  {
    forall m, m' :: 0 <= m < m' < |js| ==> js[m] < js[m']
  }

  /** The suffixes strictly increase, all after `index`. */
  lemma {:induction false} SuffixesIncrease(t: PrefixTable, ns: TreeBuilder.Namespaces, base: string,
                                            key: Option<string>, items: seq<string>, index: int)
    ensures Above(Suffixes(t, ns, base, key, items, index), index)
    ensures Increasing(Suffixes(t, ns, base, key, items, index))
    decreases |items|
  {
    if |items| > 0 {
      var j := NextFree(t, ns, base, index + 1);
      var t' := t + [(Numbered(base, j), (items[0], key))];
      SuffixesIncrease(t', ns, base, key, items[1..], j);
      var js := Suffixes(t, ns, base, key, items, index);
      var rest := Suffixes(t', ns, base, key, items[1..], j);
      assert js == [j] + rest;
      assert j > index;
      forall m | 0 <= m < |js|
        ensures js[m] > index
      {
        if m > 0 {
          assert js[m] == rest[m - 1];
        }
      }
      forall m, m' | 0 <= m < m' < |js|
        ensures js[m] < js[m']
      {
        assert js[m'] == rest[m' - 1];
        if m > 0 {
          assert js[m] == rest[m - 1];
        }
      }
    }
  }

  /** Each numbered name is neither an original prefix nor a key chosen
      before it. */
  lemma {:induction false} SuffixesFresh(t: PrefixTable, ns: TreeBuilder.Namespaces, base: string,
                                         key: Option<string>, items: seq<string>, index: int)
    ensures var r := AssignMany(t, ns, base, key, items, index);
            var js := Suffixes(t, ns, base, key, items, index);
            && |r| == |t| + |items|
            && forall m :: 0 <= m < |items| ==>
                 !IsPrefix(ns, Numbered(base, js[m])) && !HasKey(r[..|t| + m], Numbered(base, js[m]))
    decreases |items|
  {
    AssignManyShape(t, ns, base, key, items, index);
    if |items| > 0 {
      var j := NextFree(t, ns, base, index + 1);
      var t' := t + [(Numbered(base, j), (items[0], key))];
      SuffixesFresh(t', ns, base, key, items[1..], j);
      AssignManyShape(t', ns, base, key, items[1..], j);
      NextFreeIsFree(t, ns, base, index + 1);
      var r := AssignMany(t, ns, base, key, items, index);
      var js := Suffixes(t, ns, base, key, items, index);
      var rest := Suffixes(t', ns, base, key, items[1..], j);
      assert r == AssignMany(t', ns, base, key, items[1..], j);
      assert js == [j] + rest;
      forall m | 0 <= m < |items|
        ensures !IsPrefix(ns, Numbered(base, js[m])) && !HasKey(r[..|t| + m], Numbered(base, js[m]))
      {
        if m == 0 {
          assert r[..|t|] == t;
        } else {
          assert js[m] == rest[m - 1];
          assert r[..|t| + m] == r[..|t'| + (m - 1)];
        }
      }
    }
  }

  /** The appended names keep the table's keys distinct. */
  lemma AssignManyDistinct(t: PrefixTable, ns: TreeBuilder.Namespaces, base: string,
                           key: Option<string>, items: seq<string>, index: int)
    requires PrefixesDistinct(t)
    ensures PrefixesDistinct(AssignMany(t, ns, base, key, items, index))
  {
    var r := AssignMany(t, ns, base, key, items, index);
    var js := Suffixes(t, ns, base, key, items, index);
    AssignManyShape(t, ns, base, key, items, index);
    SuffixesFresh(t, ns, base, key, items, index);
    forall p, q | 0 <= p < q < |r|
      ensures r[p].0 != r[q].0
    {
      if q >= |t| {
        var m := q - |t|;
        var k := Numbered(base, js[m]);
        assert r[q].0 == k;
        assert !HasKey(r[..|t| + m], k);
        HasKeyIndex(r[..|t| + m], k);
        assert r[..|t| + m][p] == r[p];
      } else {
        assert r[p] == t[p] && r[q] == t[q];
      }
    }
  }

  // ---------------------------------------------------------------------------
  // The whole function, as written

  /** The body of the loop for the `i`-th prefix. */
  function Step(t: PrefixTable, ns: TreeBuilder.Namespaces, i: nat, replaceNoneWith: string, start: int): PrefixTable
    requires i < |ns|
  {
    var key := ns[i].0;
    var uris := ns[i].1;
    if |uris| == 1 then Put(t, BaseName(key, replaceNoneWith), (uris[0], key))
    else AssignMany(t, ns, BaseName(key, replaceNoneWith), key, uris, start - 1)
  }

  /** The table after the first `n` prefixes. */
  function UpTo(ns: TreeBuilder.Namespaces, replaceNoneWith: string, start: int, n: nat): PrefixTable
    requires n <= |ns|
  {
    if n == 0 then [] else Step(UpTo(ns, replaceNoneWith, start, n - 1), ns, n - 1, replaceNoneWith, start)
  }

  function Unique(ns: TreeBuilder.Namespaces, replaceNoneWith: string, start: int): PrefixTable
  {
    UpTo(ns, replaceNoneWith, start, |ns|)
  }

  /** The `while True` search: try the next index until its name is taken
      by neither the table nor the original prefixes. */
  method FindFree(t: PrefixTable, ns: TreeBuilder.Namespaces, base: string, from: int) returns (j: int)
    ensures j == NextFree(t, ns, base, from)
  {
    j := from;
    while Taken(t, ns, Numbered(base, j))
      invariant j >= from
      invariant NextFree(t, ns, base, j) == NextFree(t, ns, base, from)
      decreases Pow10(MaxTaken(t, ns)) - j
    {
      TakenBelow(t, ns, base, j);
      j := j + 1;
    }
  }

  /** The loop over the URIs of a prefix with several. */
  method AssignEach(t: PrefixTable, ns: TreeBuilder.Namespaces, base: string, key: Option<string>,
                    uris: seq<string>, start: int) returns (r: PrefixTable)
    ensures r == AssignMany(t, ns, base, key, uris, start - 1)
  {
    r := t;
    var index := start - 1;
    var m := 0;
    while m < |uris|
      invariant 0 <= m <= |uris|
      invariant AssignMany(r, ns, base, key, uris[m..], index) == AssignMany(t, ns, base, key, uris, start - 1)
    {
      var j := FindFree(r, ns, base, index + 1);
      assert uris[m..][1..] == uris[m + 1..];
      r := r + [(Numbered(base, j), (uris[m], key))];
      index := j;
      m := m + 1;
    }
  }

  /** `unique_namespace_prefixes(namespaces, replaceNoneWith, start)`: one
      pass over the prefixes in document order. */
  method UniqueNamespacePrefixes(ns: TreeBuilder.Namespaces, replaceNoneWith: string, start: int)
    returns (r: PrefixTable)
    ensures r == Unique(ns, replaceNoneWith, start)
  {
    r := [];
    var i := 0;
    while i < |ns|
      invariant 0 <= i <= |ns|
      invariant r == UpTo(ns, replaceNoneWith, start, i)
    {
      r := AssignPrefix(r, ns, i, replaceNoneWith, start);
      i := i + 1;
    }
  }

  /** The body of the loop over the prefixes. */
  method AssignPrefix(t: PrefixTable, ns: TreeBuilder.Namespaces, i: nat, replaceNoneWith: string, start: int)
    returns (r: PrefixTable)
    requires i < |ns|
    ensures r == Step(t, ns, i, replaceNoneWith, start)
  {
    var key := ns[i].0;
    var uris := ns[i].1;
    if |uris| == 1 {
      r := Put(t, BaseName(key, replaceNoneWith), (uris[0], key));
    } else {
      r := AssignEach(t, ns, BaseName(key, replaceNoneWith), key, uris, start);
    }
  }

  /** Every step keeps the keys already chosen, in place. */
  /** `b` holds the keys of `a` at the same positions, and maybe more after them. */
  predicate KeysExtend(a: PrefixTable, b: PrefixTable)
  {
    |a| <= |b| && forall p :: 0 <= p < |a| ==> b[p].0 == a[p].0
  }

  lemma StepKeepsKeys(t: PrefixTable, ns: TreeBuilder.Namespaces, i: nat, replaceNoneWith: string, start: int)
    requires i < |ns|
    ensures KeysExtend(t, Step(t, ns, i, replaceNoneWith, start))
  {
    var key := ns[i].0;
    if |ns[i].1| == 1 {
      PutSpec(t, BaseName(key, replaceNoneWith), (ns[i].1[0], key));
    } else {
      AssignManyShape(t, ns, BaseName(key, replaceNoneWith), key, ns[i].1, start - 1);
    }
  }

  lemma StepDistinct(t: PrefixTable, ns: TreeBuilder.Namespaces, i: nat, replaceNoneWith: string, start: int)
    requires i < |ns| && PrefixesDistinct(t)
    ensures PrefixesDistinct(Step(t, ns, i, replaceNoneWith, start))
  {
    var key := ns[i].0;
    if |ns[i].1| == 1 {
      PutSpec(t, BaseName(key, replaceNoneWith), (ns[i].1[0], key));
    } else {
      AssignManyDistinct(t, ns, BaseName(key, replaceNoneWith), key, ns[i].1, start - 1);
    }
  }

  /** The result is a dictionary: its keys are distinct. */
  lemma {:induction false} UniqueDistinct(ns: TreeBuilder.Namespaces, replaceNoneWith: string, start: int, n: nat)
    requires n <= |ns|
    ensures PrefixesDistinct(UpTo(ns, replaceNoneWith, start, n))
  {
    if n > 0 {
      UniqueDistinct(ns, replaceNoneWith, start, n - 1);
      StepDistinct(UpTo(ns, replaceNoneWith, start, n - 1), ns, n - 1, replaceNoneWith, start);
    }
  }

  /** A later step keeps an entry unless it is a one-URI prefix assigning the
      same name. */
  lemma StepKeepsEntry(t: PrefixTable, ns: TreeBuilder.Namespaces, i: nat, replaceNoneWith: string, start: int,
                       k: string, v: (string, Option<string>))
    requires i < |ns| && Maps(t, k, v)
    requires |ns[i].1| == 1 ==> BaseName(ns[i].0, replaceNoneWith) != k
    ensures Maps(Step(t, ns, i, replaceNoneWith, start), k, v)
  {
    var key := ns[i].0;
    if |ns[i].1| == 1 {
      PutSpec(t, BaseName(key, replaceNoneWith), (ns[i].1[0], key));
    } else {
      var r := Step(t, ns, i, replaceNoneWith, start);
      AssignManyShape(t, ns, BaseName(key, replaceNoneWith), key, ns[i].1, start - 1);
      var p :| 0 <= p < |t| && t[p] == (k, v);
      assert r[p] == r[..|t|][p];
    }
  }

  lemma {:induction false} EntrySurvives(ns: TreeBuilder.Namespaces, replaceNoneWith: string, start: int,
                                         i: nat, n: nat, k: string, v: (string, Option<string>))
    requires i < n <= |ns| && Maps(UpTo(ns, replaceNoneWith, start, i + 1), k, v)
    requires forall j :: i < j < |ns| && |ns[j].1| == 1 ==> BaseName(ns[j].0, replaceNoneWith) != k
    ensures Maps(UpTo(ns, replaceNoneWith, start, n), k, v)
  {
    if n > i + 1 {
      EntrySurvives(ns, replaceNoneWith, start, i, n - 1, k, v);
      StepKeepsEntry(UpTo(ns, replaceNoneWith, start, n - 1), ns, n - 1, replaceNoneWith, start, k, v);
    }
  }

  /** A prefix with one URI keeps its name (`None` and `''` become
      `replaceNoneWith`), unless a later one-URI prefix claims the same name. */
  lemma SingleKeepsName(ns: TreeBuilder.Namespaces, replaceNoneWith: string, start: int, i: nat)
    requires i < |ns| && |ns[i].1| == 1
    requires forall j :: i < j < |ns| && |ns[j].1| == 1 ==>
               BaseName(ns[j].0, replaceNoneWith) != BaseName(ns[i].0, replaceNoneWith)
    ensures Maps(Unique(ns, replaceNoneWith, start), BaseName(ns[i].0, replaceNoneWith), (ns[i].1[0], ns[i].0))
  {
    var k := BaseName(ns[i].0, replaceNoneWith);
    PutSpec(UpTo(ns, replaceNoneWith, start, i), k, (ns[i].1[0], ns[i].0));
    EntrySurvives(ns, replaceNoneWith, start, i, |ns|, k, (ns[i].1[0], ns[i].0));
  }

  lemma KeySurvives(ns: TreeBuilder.Namespaces, replaceNoneWith: string, start: int, i: nat, n: nat, p: nat)
    requires i <= n <= |ns| && p < |UpTo(ns, replaceNoneWith, start, i)|
    ensures p < |UpTo(ns, replaceNoneWith, start, n)|
    ensures UpTo(ns, replaceNoneWith, start, n)[p].0 == UpTo(ns, replaceNoneWith, start, i)[p].0
  {
    UpToKeysExtend(ns, replaceNoneWith, start, i, n);
  }

  lemma KeysExtendTransitive(a: PrefixTable, b: PrefixTable, c: PrefixTable)
    requires KeysExtend(a, b) && KeysExtend(b, c)
    ensures KeysExtend(a, c)
  {
    forall p | 0 <= p < |a|
      ensures c[p].0 == a[p].0
    {
      assert c[p].0 == b[p].0;
    }
  }

  /** Later prefixes only append keys or overwrite values. */
  lemma {:induction false} UpToKeysExtend(ns: TreeBuilder.Namespaces, replaceNoneWith: string, start: int,
                                          i: nat, n: nat)
    requires i <= n <= |ns|
    ensures KeysExtend(UpTo(ns, replaceNoneWith, start, i), UpTo(ns, replaceNoneWith, start, n))
    decreases n - i
  {
    if n > i {
      UpToKeysExtend(ns, replaceNoneWith, start, i, n - 1);
      var before := UpTo(ns, replaceNoneWith, start, n - 1);
      assert UpTo(ns, replaceNoneWith, start, n) == Step(before, ns, n - 1, replaceNoneWith, start);
      StepKeepsKeys(before, ns, n - 1, replaceNoneWith, start);
      KeysExtendTransitive(UpTo(ns, replaceNoneWith, start, i), before, UpTo(ns, replaceNoneWith, start, n));
    }
  }

  lemma KeyAtIndex(t: PrefixTable, p: nat)
    requires p < |t|
    ensures HasKey(t, t[p].0)
  {
    HasKeyIndex(t, t[p].0);
  }

  /** A prefix with several URIs gets one numbered name per URI, with
      strictly increasing suffixes from `start` on; no numbered name is an
      original prefix or a key chosen before it, and every one of them is a
      key of the result. */
  lemma SharedPrefixNumbered(ns: TreeBuilder.Namespaces, replaceNoneWith: string, start: int, i: nat)
    requires i < |ns| && |ns[i].1| != 1
    ensures var t := UpTo(ns, replaceNoneWith, start, i);
            var base := BaseName(ns[i].0, replaceNoneWith);
            var js := Suffixes(t, ns, base, ns[i].0, ns[i].1, start - 1);
            var r := UpTo(ns, replaceNoneWith, start, i + 1);
            && |js| == |ns[i].1| && |r| == |t| + |js|
            && (forall m :: 0 <= m < |js| ==> js[m] >= start)
            && (forall m, m' :: 0 <= m < m' < |js| ==> js[m] < js[m'])
            && (forall m :: 0 <= m < |js| ==> r[|t| + m] == (Numbered(base, js[m]), (ns[i].1[m], ns[i].0)))
            && (forall m :: 0 <= m < |js| ==>
                  !IsPrefix(ns, Numbered(base, js[m])) && !HasKey(r[..|t| + m], Numbered(base, js[m])))
  {
    var t := UpTo(ns, replaceNoneWith, start, i);
    var base := BaseName(ns[i].0, replaceNoneWith);
    var js := Suffixes(t, ns, base, ns[i].0, ns[i].1, start - 1);
    var r := UpTo(ns, replaceNoneWith, start, i + 1);
    UpToShared(ns, replaceNoneWith, start, i);
    AssignManyFacts(t, ns, base, ns[i].0, ns[i].1, start - 1);
  }

  lemma UpToShared(ns: TreeBuilder.Namespaces, replaceNoneWith: string, start: int, i: nat)
    requires i < |ns| && |ns[i].1| != 1
    ensures UpTo(ns, replaceNoneWith, start, i + 1)
            == AssignMany(UpTo(ns, replaceNoneWith, start, i), ns, BaseName(ns[i].0, replaceNoneWith),
                          ns[i].0, ns[i].1, start - 1)
  {
  }

  lemma AssignManyFacts(t: PrefixTable, ns: TreeBuilder.Namespaces, base: string,
                        key: Option<string>, items: seq<string>, index: int)
    ensures var r := AssignMany(t, ns, base, key, items, index);
            var js := Suffixes(t, ns, base, key, items, index);
            && |js| == |items| && |r| == |t| + |js|
            && (forall m :: 0 <= m < |js| ==> js[m] > index)
            && (forall m, m' :: 0 <= m < m' < |js| ==> js[m] < js[m'])
            && (forall m :: 0 <= m < |js| ==> r[|t| + m] == (Numbered(base, js[m]), (items[m], key)))
            && (forall m :: 0 <= m < |js| ==>
                  !IsPrefix(ns, Numbered(base, js[m])) && !HasKey(r[..|t| + m], Numbered(base, js[m])))
  {
    AssignManyShape(t, ns, base, key, items, index);
    SuffixesIncrease(t, ns, base, key, items, index);
    SuffixesFresh(t, ns, base, key, items, index);
    assert Above(Suffixes(t, ns, base, key, items, index), index);
  }

  /** Every numbered name a shared prefix receives is still a key of the final table. */
  lemma SharedNamesKept(ns: TreeBuilder.Namespaces, replaceNoneWith: string, start: int, i: nat)
    requires i < |ns| && |ns[i].1| != 1
    ensures var t := UpTo(ns, replaceNoneWith, start, i);
            var base := BaseName(ns[i].0, replaceNoneWith);
            var js := Suffixes(t, ns, base, ns[i].0, ns[i].1, start - 1);
            forall m :: 0 <= m < |js| ==> HasKey(Unique(ns, replaceNoneWith, start), Numbered(base, js[m]))
  {
    var t := UpTo(ns, replaceNoneWith, start, i);
    var base := BaseName(ns[i].0, replaceNoneWith);
    var js := Suffixes(t, ns, base, ns[i].0, ns[i].1, start - 1);
    var r := UpTo(ns, replaceNoneWith, start, i + 1);
    var u := Unique(ns, replaceNoneWith, start);
    UpToShared(ns, replaceNoneWith, start, i);
    AssignManyFacts(t, ns, base, ns[i].0, ns[i].1, start - 1);
    UpToKeysExtend(ns, replaceNoneWith, start, i + 1, |ns|);
    forall m | 0 <= m < |js|
      ensures HasKey(u, Numbered(base, js[m]))
    {
      assert u[|t| + m].0 == r[|t| + m].0;
      KeyAtIndex(u, |t| + m);
    }
  }

  // ---------------------------------------------------------------------------
  // A URI that is lost

  /** The default namespace and a prefix spelled like its replacement name:
      the second one-URI assignment overwrites the first. */
  lemma DefaultCollisionLosesUri()
    ensures var ns := [(None, ["urn:a"]), (Some("default"), ["urn:b"])];
            Unique(ns, "default", 1) == [("default", ("urn:b", Some("default")))]
  {
    var ns: TreeBuilder.Namespaces := [(None, ["urn:a"]), (Some("default"), ["urn:b"])];
    var t1 := UpTo(ns, "default", 1, 1);
    assert t1 == [("default", ("urn:a", None))];
    assert HasKey(t1, "default") by {
      assert t1[0].0 == "default";
    }
  }

  /** The intended behaviour: a one-URI prefix whose name is already a key, or
      whose replacement name is some original prefix, is numbered like a shared
      prefix instead of overwriting. */
  predicate NameFree(t: PrefixTable, ns: TreeBuilder.Namespaces, key: Option<string>, name: string)
  {
    !HasKey(t, name) && (key == Some(name) || !IsPrefix(ns, name))
  }

  function StepKeepingAll(t: PrefixTable, ns: TreeBuilder.Namespaces, i: nat, replaceNoneWith: string, start: int)
    : PrefixTable
    requires i < |ns|
  {
    var key := ns[i].0;
    var uris := ns[i].1;
    var name := BaseName(key, replaceNoneWith);
    if |uris| == 1 && NameFree(t, ns, key, name) then t + [(name, (uris[0], key))]
    else AssignMany(t, ns, name, key, uris, start - 1)
  }

  function UpToKeepingAll(ns: TreeBuilder.Namespaces, replaceNoneWith: string, start: int, n: nat): PrefixTable
    requires n <= |ns|
  {
    if n == 0 then []
    else StepKeepingAll(UpToKeepingAll(ns, replaceNoneWith, start, n - 1), ns, n - 1, replaceNoneWith, start)
  }

  function UniqueKeepingAll(ns: TreeBuilder.Namespaces, replaceNoneWith: string, start: int): PrefixTable
  {
    UpToKeepingAll(ns, replaceNoneWith, start, |ns|)
  }

  /** The number of (prefix, URI) pairs. */
  function TotalUris(ns: TreeBuilder.Namespaces): nat
  {
    if |ns| == 0 then 0 else TotalUris(ns[..|ns| - 1]) + |ns[|ns| - 1].1|
  }

  /** The corrected step appends exactly one entry per URI of the prefix and
      keeps the keys distinct. */
  lemma StepKeepingAllAppends(t: PrefixTable, ns: TreeBuilder.Namespaces, i: nat, replaceNoneWith: string, start: int)
    requires i < |ns| && PrefixesDistinct(t)
    ensures var r := StepKeepingAll(t, ns, i, replaceNoneWith, start);
            && |r| == |t| + |ns[i].1| && r[..|t|] == t && PrefixesDistinct(r)
            && forall m :: 0 <= m < |ns[i].1| ==> r[|t| + m].1 == (ns[i].1[m], ns[i].0)
  {
    var key := ns[i].0;
    var name := BaseName(key, replaceNoneWith);
    var r := StepKeepingAll(t, ns, i, replaceNoneWith, start);
    if |ns[i].1| == 1 && NameFree(t, ns, key, name) {
      HasKeyIndex(t, name);
      assert r[..|t|] == t;
      forall p, q | 0 <= p < q < |r|
        ensures r[p].0 != r[q].0
      {
        if q == |t| {
          assert r[p] == t[p];
        }
      }
    } else {
      AssignManyShape(t, ns, name, key, ns[i].1, start - 1);
      AssignManyDistinct(t, ns, name, key, ns[i].1, start - 1);
    }
  }

  lemma {:induction false} KeepingAllPrefix(ns: TreeBuilder.Namespaces, replaceNoneWith: string, start: int, n: nat)
    requires n <= |ns|
    ensures var r := UpToKeepingAll(ns, replaceNoneWith, start, n);
            && PrefixesDistinct(r) && |r| == TotalUris(ns[..n])
  {
    if n > 0 {
      KeepingAllPrefix(ns, replaceNoneWith, start, n - 1);
      StepKeepingAllAppends(UpToKeepingAll(ns, replaceNoneWith, start, n - 1), ns, n - 1, replaceNoneWith, start);
      assert ns[..n][..n - 1] == ns[..n - 1];
    }
  }

  lemma {:induction false} KeepingAllGrows(ns: TreeBuilder.Namespaces, replaceNoneWith: string, start: int,
                                           i: nat, n: nat)
    requires i <= n <= |ns|
    ensures var a := UpToKeepingAll(ns, replaceNoneWith, start, i);
            var b := UpToKeepingAll(ns, replaceNoneWith, start, n);
            |a| <= |b| && b[..|a|] == a
  {
    if n > i {
      KeepingAllGrows(ns, replaceNoneWith, start, i, n - 1);
      KeepingAllPrefix(ns, replaceNoneWith, start, n - 1);
      StepKeepingAllAppends(UpToKeepingAll(ns, replaceNoneWith, start, n - 1), ns, n - 1, replaceNoneWith, start);
    }
  }

  /** Corrected: the keys are distinct, there is exactly one entry per
      (prefix, URI) pair, and every pair has its entry. */
  lemma KeepingAllKeepsEveryUri(ns: TreeBuilder.Namespaces, replaceNoneWith: string, start: int)
    ensures var r := UniqueKeepingAll(ns, replaceNoneWith, start);
            && PrefixesDistinct(r) && |r| == TotalUris(ns)
            && forall i, m :: 0 <= i < |ns| && 0 <= m < |ns[i].1| ==>
                 exists p :: 0 <= p < |r| && r[p].1 == (ns[i].1[m], ns[i].0)
  {
    var r := UniqueKeepingAll(ns, replaceNoneWith, start);
    KeepingAllPrefix(ns, replaceNoneWith, start, |ns|);
    assert ns[..|ns|] == ns;
    forall i, m | 0 <= i < |ns| && 0 <= m < |ns[i].1|
      ensures exists p :: 0 <= p < |r| && r[p].1 == (ns[i].1[m], ns[i].0)
    {
      var t := UpToKeepingAll(ns, replaceNoneWith, start, i);
      KeepingAllPrefix(ns, replaceNoneWith, start, i);
      StepKeepingAllAppends(t, ns, i, replaceNoneWith, start);
      KeepingAllGrows(ns, replaceNoneWith, start, i + 1, |ns|);
      var a := UpToKeepingAll(ns, replaceNoneWith, start, i + 1);
      assert r[|t| + m] == a[|t| + m];
    }
  }

  /** Where the original keeps every pair (each one-URI name is new and, when
      replaced, is no original prefix), the correction agrees with it. */
  lemma KeepingAllAgrees(ns: TreeBuilder.Namespaces, replaceNoneWith: string, start: int, n: nat)
    requires n <= |ns|
    requires forall i :: 0 <= i < n && |ns[i].1| == 1 ==>
               NameFree(UpTo(ns, replaceNoneWith, start, i), ns, ns[i].0, BaseName(ns[i].0, replaceNoneWith))
    ensures UpToKeepingAll(ns, replaceNoneWith, start, n) == UpTo(ns, replaceNoneWith, start, n)
  {
    if n > 0 {
      KeepingAllAgrees(ns, replaceNoneWith, start, n - 1);
    }
  }
}

=== FILE: node_locator.dfy ===
/** Finding the nodes under a sorted list of selections (sublime_lxml.py:21-97).

    A node is an element with the regions of its open and close tags and its
    children; the host's text-point conversion is not modelled, so the
    regions are the parser's character offsets. The selections, the host's
    `Region.intersects` and the `relevance` policy travel together as a
    `Search`: `AsWritten` is the code, `KeepLooking` the correction of the
    early stop at sublime_lxml.py:51. */
module NodeLocator {
  import opened Wrappers
  import opened Regions

  datatype LNode = LNode(open: Region, close: Region, children: seq<LNode>)

  /** One item of `getNodePositions`: the node the span belongs to, its
      start and end, and whether the span needs no further descent. */
  datatype NodeSpan = NodeSpan(node: LNode, start: int, end: int, isFinal: bool)

  // ---------------------------------------------------------------------------
  // getNodePositions (sublime_lxml.py:21-33)

  /** The spans from offset `pos` on, for the remaining children `cs` of `n`:
      a gap up to the next child's open tag, the child itself, and a last gap
      up to the end of `n`'s close tag. */
  function SpansFrom(n: LNode, cs: seq<LNode>, pos: int): seq<NodeSpan>
  {
    if |cs| == 0 then [NodeSpan(n, pos, n.close.End(), true)]
    else
      var c := cs[0];
      [NodeSpan(n, pos, c.open.Begin(), true), NodeSpan(c, c.open.Begin(), c.close.End(), |c.children| == 0)]
      + SpansFrom(n, cs[1..], c.close.End())
  }

  function GetNodePositions(n: LNode): seq<NodeSpan>
  {
    SpansFrom(n, n.children, n.open.Begin())
  }

  /** Contiguous spans from `pos` to the end of the close tag, gaps at even
      places (owned by `n`, final) and the children at odd places (final
      exactly when they have no children). */
  lemma {:induction false} SpansFromShape(n: LNode, cs: seq<LNode>, pos: int)
    ensures var r := SpansFrom(n, cs, pos);
            && |r| == 2 * |cs| + 1
            && r[0].start == pos && r[|r| - 1].end == n.close.End()
            && (forall i :: 0 <= i < |r| - 1 ==> r[i].end == r[i + 1].start)
            && (forall m :: 0 <= m <= |cs| ==> r[2 * m].node == n && r[2 * m].isFinal)
            && (forall m :: 0 <= m < |cs| ==>
                  r[2 * m + 1] == NodeSpan(cs[m], cs[m].open.Begin(), cs[m].close.End(), |cs[m].children| == 0))
  {
    if |cs| > 0 {
      var c := cs[0];
      var rest := SpansFrom(n, cs[1..], c.close.End());
      SpansFromShape(n, cs[1..], c.close.End());
      var r := SpansFrom(n, cs, pos);
      assert r == [NodeSpan(n, pos, c.open.Begin(), true), NodeSpan(c, c.open.Begin(), c.close.End(), |c.children| == 0)]
                  + rest;
      assert forall i :: 2 <= i < |r| ==> r[i] == rest[i - 2];
      forall m | 1 <= m <= |cs|
        ensures r[2 * m].node == n && r[2 * m].isFinal
      {
        assert r[2 * m] == rest[2 * (m - 1)];
      }
      forall m | 1 <= m < |cs|
        ensures r[2 * m + 1] == NodeSpan(cs[m], cs[m].open.Begin(), cs[m].close.End(), |cs[m].children| == 0)
      {
        assert r[2 * m + 1] == rest[2 * (m - 1) + 1];
        assert cs[1..][m - 1] == cs[m];
      }
    }
  }

  /** `getNodePositions` yields 2k+1 contiguous spans for k children, from the
      start of the open tag to the end of the close tag; the gaps are the
      node's own final spans and the child spans are final exactly when the
      child has no children. */
  lemma NodePositionsShape(n: LNode)
    ensures var r := GetNodePositions(n);
            && |r| == 2 * |n.children| + 1
            && r[0].start == n.open.Begin() && r[|r| - 1].end == n.close.End()
            && (forall i :: 0 <= i < |r| - 1 ==> r[i].end == r[i + 1].start)
            && (forall m :: 0 <= m <= |n.children| ==> r[2 * m].node == n && r[2 * m].isFinal)
            && (forall m :: 0 <= m < |n.children| ==>
                  r[2 * m + 1].node == n.children[m] && r[2 * m + 1].start == n.children[m].open.Begin()
                  && r[2 * m + 1].end == n.children[m].close.End()
                  && (r[2 * m + 1].isFinal <==> |n.children[m].children| == 0))
  {
    SpansFromShape(n, n.children, n.open.Begin());
  }

  /** A span that is not final belongs to one of the node's children. */
  lemma NonFinalIsChild(n: LNode, i: nat)
    requires i < |GetNodePositions(n)|
    ensures !GetNodePositions(n)[i].isFinal ==>
              i % 2 == 1 && (i - 1) / 2 < |n.children| && GetNodePositions(n)[i].node == n.children[(i - 1) / 2]
  {
    NodePositionsShape(n);
    if i % 2 == 0 {
      assert i == 2 * (i / 2);
    } else {
      assert i == 2 * ((i - 1) / 2) + 1;
    }
  }

  /** The span `getMatches` compares with the node itself, and so searches
      with `include_beginning`, is exactly a gap: a child is never its parent. */
  lemma OwnSpansAreGaps(n: LNode, i: nat)
    requires i < |GetNodePositions(n)|
    ensures GetNodePositions(n)[i].node == n <==> i % 2 == 0
  {
    NodePositionsShape(n);
    if i % 2 == 0 {
      assert i == 2 * (i / 2);
    } else {
      var m := (i - 1) / 2;
      assert i == 2 * m + 1;
      assert n.children[m] < n;
    }
  }

  // ---------------------------------------------------------------------------
  // regionIntersects (sublime_lxml.py:35-36)

  /** How `relevance` treats misses before its first match. As written, a
      miss at `start_index + 2` or later ends the search empty; the
      correction keeps looking until the first match or `max_index`. */
  datatype Policy = AsWritten | KeepLooking

  /** The selections, in document order and not overlapping, the host's
      `Region.intersects`, and which `relevance` the search runs. */
  datatype Search = Search(positions: seq<Region>, intersects: (Region, Region) -> bool, policy: Policy)

  /** True when the regions intersect, or when `includeBeginning` is set, the
      inner region is empty and the outer one contains its position. */
  predicate RegionIntersects(intersects: (Region, Region) -> bool, outer: Region, inner: Region,
                             includeBeginning: bool)
  {
    intersects(outer, inner) || (includeBeginning && inner.Empty() && outer.Contains(inner.Begin()))
  }

  /** `includeBeginning` only ever adds an empty region at a position inside
      the outer one; a non-empty region matches exactly when it intersects. */
  lemma RegionIntersectsCases(intersects: (Region, Region) -> bool, outer: Region, inner: Region,
                              includeBeginning: bool)
    ensures !includeBeginning || !inner.Empty() ==>
              (RegionIntersects(intersects, outer, inner, includeBeginning) <==> intersects(outer, inner))
    ensures RegionIntersects(intersects, outer, inner, false) ==> RegionIntersects(intersects, outer, inner, true)
    ensures inner.Empty() && outer.Contains(inner.a) ==> RegionIntersects(intersects, outer, inner, true)
  {
  }

  /** Whether selection `index` matches `span`. */
  predicate Matches(s: Search, span: Region, index: int, includeBeginning: bool)
    requires 0 <= index < |s.positions|
  {
    RegionIntersects(s.intersects, span, s.positions[index], includeBeginning)
  }

  // ---------------------------------------------------------------------------
  // relevance and matchSpan (sublime_lxml.py:42-61)

  /** `r` is the consecutive indices `start`, `start + 1`, ... and every one
      of them matches. */
  predicate IsRun(s: Search, span: Region, start: int, r: seq<int>, includeBeginning: bool)
  {
    forall k :: 0 <= k < |r| ==>
      r[k] == start + k && 0 <= start + k < |s.positions| && Matches(s, span, start + k, includeBeginning)
  }

  /** The matches from `index` on, once a match has been found: the loop goes
      on while selections match and stops at the first that does not. */
  function RunFrom(s: Search, span: Region, index: int, maxIndex: int, includeBeginning: bool): (r: seq<int>)
    requires 0 <= index <= maxIndex + 1 && maxIndex < |s.positions|
    ensures index + |r| <= maxIndex + 1
    ensures IsRun(s, span, index, r, includeBeginning)
    ensures index + |r| <= maxIndex ==> !Matches(s, span, index + |r|, includeBeginning)
    decreases maxIndex + 1 - index
  {
    if index > maxIndex || !Matches(s, span, index, includeBeginning) then []
    else
      var rest := RunFrom(s, span, index + 1, maxIndex, includeBeginning);
      PrependMatch(s, span, index, rest, includeBeginning);
      [index] + rest
  }

  /** A match followed by a run of matches from the next index is a run. */
  lemma PrependMatch(s: Search, span: Region, index: int, rest: seq<int>, includeBeginning: bool)
    requires 0 <= index && index + 1 + |rest| <= |s.positions| && Matches(s, span, index, includeBeginning)
    requires IsRun(s, span, index + 1, rest, includeBeginning)
    ensures ([index] + rest)[0] == index
    ensures IsRun(s, span, index, [index] + rest, includeBeginning)
  {
    var r := [index] + rest;
    forall k | 0 <= k < |r|
      ensures r[k] == index + k && 0 <= index + k < |s.positions| && Matches(s, span, index + k, includeBeginning)
    {
      if k == 0 {
        assert r[k] == index;
      } else {
        var m := k - 1;
        assert r[k] == rest[m] && index + 1 + m == index + k;
        assert rest[m] == index + 1 + m && Matches(s, span, index + 1 + m, includeBeginning);
      }
    }
  }

  /** A run starting at a match holds that match. */
  lemma RunFromStartsAtMatch(s: Search, span: Region, index: int, maxIndex: int, includeBeginning: bool)
    requires 0 <= index <= maxIndex && maxIndex < |s.positions| && Matches(s, span, index, includeBeginning)
    ensures |RunFrom(s, span, index, maxIndex, includeBeginning)| > 0
  {
  }

  /** What the search from `index` promises about its result `r`: one
      contiguous run of matches inside `[index, maxIndex]`, with no match
      skipped before it and the first miss after it ending it; or no match
      where one could start. As written, the run starts at `index` or no later
      than `startIndex + 2`, and only up to there is a match ruled out. */
  predicate SearchOk(s: Search, span: Region, index: int, startIndex: int, maxIndex: int,
                     includeBeginning: bool, r: seq<int>)
    requires 0 <= index && maxIndex < |s.positions|
  {
    && (forall k :: 0 <= k < |r| ==> index <= r[k] <= maxIndex)
    && (forall k :: 0 <= k < |r| ==> r[k] == r[0] + k && Matches(s, span, r[k], includeBeginning))
    && (|r| > 0 && s.policy.AsWritten? ==> r[0] <= startIndex + 2 || r[0] == index)
    && (|r| > 0 ==> forall j :: index <= j < r[0] ==> !Matches(s, span, j, includeBeginning))
    && (|r| > 0 && r[0] + |r| <= maxIndex ==> !Matches(s, span, r[0] + |r|, includeBeginning))
    && (|r| == 0 ==>
          forall j :: index <= j <= maxIndex && (j <= startIndex + 2 || s.policy.KeepLooking?) ==>
                        !Matches(s, span, j, includeBeginning))
  }

  /** A match at `index` starts the run there. */
  lemma SearchHit(s: Search, span: Region, index: int, startIndex: int, maxIndex: int, includeBeginning: bool)
    requires 0 <= index <= maxIndex && maxIndex < |s.positions| && Matches(s, span, index, includeBeginning)
    ensures SearchOk(s, span, index, startIndex, maxIndex, includeBeginning, RunFrom(s, span, index, maxIndex, includeBeginning))
  {
    RunFromStartsAtMatch(s, span, index, maxIndex, includeBeginning);
  }

  /** A miss the search moves past (at `startIndex` or `startIndex + 1`, or
      anywhere when it keeps looking) in front of what the search from the
      next index found. */
  lemma SearchMiss(s: Search, span: Region, index: int, startIndex: int, maxIndex: int, includeBeginning: bool,
                   r: seq<int>)
    requires 0 <= index <= maxIndex && maxIndex < |s.positions|
    requires index <= startIndex + 1 || s.policy.KeepLooking?
    requires !Matches(s, span, index, includeBeginning)
    requires SearchOk(s, span, index + 1, startIndex, maxIndex, includeBeginning, r)
    ensures SearchOk(s, span, index, startIndex, maxIndex, includeBeginning, r)
  {
  }

  /** As written, a miss beyond `startIndex + 1` ends the search empty. */
  lemma SearchStop(s: Search, span: Region, index: int, startIndex: int, maxIndex: int, includeBeginning: bool)
    requires 0 <= startIndex + 1 < index <= maxIndex && maxIndex < |s.positions| && s.policy.AsWritten?
    requires !Matches(s, span, index, includeBeginning)
    ensures SearchOk(s, span, index, startIndex, maxIndex, includeBeginning, [])
  {
  }

  /** The loop before any match: a miss at `startIndex` or `startIndex + 1`
      moves on; as written, a miss further on stops the search. */
  function SearchFrom(s: Search, span: Region, index: int, startIndex: int, maxIndex: int,
                      includeBeginning: bool): (r: seq<int>)
    requires 0 <= startIndex <= index && maxIndex < |s.positions|
    ensures SearchOk(s, span, index, startIndex, maxIndex, includeBeginning, r)
    decreases maxIndex + 1 - index
  {
    if index > maxIndex then []
    else if Matches(s, span, index, includeBeginning) then
      SearchHit(s, span, index, startIndex, maxIndex, includeBeginning);
      RunFrom(s, span, index, maxIndex, includeBeginning)
    else if index > startIndex + 1 && s.policy.AsWritten? then
      SearchStop(s, span, index, startIndex, maxIndex, includeBeginning);
      []
    else
      var r := SearchFrom(s, span, index + 1, startIndex, maxIndex, includeBeginning);
      SearchMiss(s, span, index, startIndex, maxIndex, includeBeginning, r);
      r
  }

  /** `relevance(span, start_index, max_index, include_beginning)`: one
      contiguous increasing run of matching indices inside
      `[startIndex, maxIndex]`, with no match skipped before it and the first
      miss after it ending it. As written it starts no later than
      `startIndex + 2` and is empty when nothing matches up to there; when the
      search keeps looking it is empty only when nothing matches at all. */
  function Relevance(s: Search, span: Region, startIndex: int, maxIndex: int, includeBeginning: bool)
    : (r: seq<int>)
    requires 0 <= startIndex && maxIndex < |s.positions|
    ensures forall k :: 0 <= k < |r| ==> startIndex <= r[k] <= maxIndex
    ensures forall k :: 0 <= k < |r| ==> r[k] == r[0] + k && Matches(s, span, r[k], includeBeginning)
    ensures |r| > 0 && s.policy.AsWritten? ==> r[0] <= startIndex + 2
    ensures |r| > 0 ==> forall j :: startIndex <= j < r[0] ==> !Matches(s, span, j, includeBeginning)
    ensures |r| > 0 && r[0] + |r| <= maxIndex ==> !Matches(s, span, r[0] + |r|, includeBeginning)
    ensures |r| == 0 ==>
              forall j :: startIndex <= j <= maxIndex && (j <= startIndex + 2 || s.policy.KeepLooking?) ==>
                            !Matches(s, span, j, includeBeginning)
  {
    SearchFrom(s, span, startIndex, startIndex, maxIndex, includeBeginning)
  }

  /** With the correction, no matching selection is passed over: the run
      starts at or before any match, and holds it when every selection from
      the run's start up to it matches too. */
  lemma KeepLookingFindsMatch(s: Search, span: Region, startIndex: int, maxIndex: int, includeBeginning: bool,
                              j: int)
    requires s.policy.KeepLooking? && 0 <= startIndex <= j <= maxIndex < |s.positions|
    requires Matches(s, span, j, includeBeginning)
    ensures var r := Relevance(s, span, startIndex, maxIndex, includeBeginning);
            && |r| > 0 && r[0] <= j
            && ((forall k :: r[0] <= k <= j ==> Matches(s, span, k, includeBeginning)) ==> j in r)
  {
    var r := Relevance(s, span, startIndex, maxIndex, includeBeginning);
    if forall k :: r[0] <= k <= j ==> Matches(s, span, k, includeBeginning) {
      assert r[j - r[0]] == j;
    }
  }

  /** The run from `index` depends on the selections and `intersects` only. */
  lemma {:induction false} RunFromIgnoresPolicy(s: Search, t: Search, span: Region, index: int, maxIndex: int,
                                                includeBeginning: bool)
    requires s.positions == t.positions && s.intersects == t.intersects
    requires 0 <= index <= maxIndex + 1 && maxIndex < |s.positions|
    ensures RunFrom(s, span, index, maxIndex, includeBeginning) == RunFrom(t, span, index, maxIndex, includeBeginning)
    decreases maxIndex + 1 - index
  {
    if index <= maxIndex && Matches(s, span, index, includeBeginning) {
      RunFromIgnoresPolicy(s, t, span, index + 1, maxIndex, includeBeginning);
    }
  }

  /** The correction changes only the searches the code gives up on: where
      the search as written finds a run, the corrected one finds the same. */
  lemma {:induction false} SearchPoliciesAgree(s: Search, t: Search, span: Region, index: int, startIndex: int,
                                               maxIndex: int, includeBeginning: bool)
    requires s.positions == t.positions && s.intersects == t.intersects
    requires s.policy.AsWritten? && t.policy.KeepLooking?
    requires 0 <= startIndex <= index && maxIndex < |s.positions|
    ensures var a := SearchFrom(s, span, index, startIndex, maxIndex, includeBeginning);
            a == [] || a == SearchFrom(t, span, index, startIndex, maxIndex, includeBeginning)
    decreases maxIndex + 1 - index
  {
    if index <= maxIndex {
      if Matches(s, span, index, includeBeginning) {
        RunFromIgnoresPolicy(s, t, span, index, maxIndex, includeBeginning);
      } else if index <= startIndex + 1 {
        SearchPoliciesAgree(s, t, span, index + 1, startIndex, maxIndex, includeBeginning);
      }
    }
  }

  /** `relevance` as written agrees with the correction whenever it finds
      anything, and finds nothing when the correction finds nothing. */
  lemma RelevancePoliciesAgree(s: Search, t: Search, span: Region, startIndex: int, maxIndex: int,
                               includeBeginning: bool)
    requires s.positions == t.positions && s.intersects == t.intersects
    requires s.policy.AsWritten? && t.policy.KeepLooking?
    requires 0 <= startIndex && maxIndex < |s.positions|
    ensures var a := Relevance(s, span, startIndex, maxIndex, includeBeginning);
            var c := Relevance(t, span, startIndex, maxIndex, includeBeginning);
            && (|a| > 0 ==> a == c)
            && (c == [] ==> a == [])
  {
    SearchPoliciesAgree(s, t, span, startIndex, startIndex, maxIndex, includeBeginning);
  }

  /** What `matchSpan` returns: the matches, then the first and last of them,
      or the bounds it was given when there are none. */
  datatype SpanMatch = SpanMatch(matches: seq<int>, first: int, last: int)

  function MatchSpan(s: Search, span: Region, startIndex: int, maxIndex: int, includeBeginning: bool)
    : (r: SpanMatch)
    requires 0 <= startIndex && maxIndex < |s.positions|
    ensures |r.matches| > 0 ==> r.first == r.matches[0] && r.last == r.matches[|r.matches| - 1]
    ensures |r.matches| == 0 ==> r.first == startIndex && r.last == maxIndex
    ensures |r.matches| > 0 ==> startIndex <= r.first <= r.last <= maxIndex && r.last == r.first + |r.matches| - 1
    ensures forall k :: 0 <= k < |r.matches| ==>
              r.matches[k] == r.first + k && 0 <= r.matches[k] < |s.positions|
              && Matches(s, span, r.matches[k], includeBeginning)
    ensures forall j :: j in r.matches <==> |r.matches| > 0 && r.first <= j <= r.last
  {
    var ms := Relevance(s, span, startIndex, maxIndex, includeBeginning);
    if |ms| > 0 then
      RunMembership(ms);
      SpanMatch(ms, ms[0], ms[|ms| - 1])
    else SpanMatch(ms, startIndex, maxIndex)
  }

  /** A run of consecutive numbers holds exactly the numbers between its ends. */
  lemma RunMembership(ms: seq<int>)
    requires |ms| > 0 && forall k :: 0 <= k < |ms| ==> ms[k] == ms[0] + k
    ensures forall j :: j in ms <==> ms[0] <= j <= ms[|ms| - 1]
  {
    forall j | ms[0] <= j <= ms[|ms| - 1]
      ensures j in ms
    {
      assert ms[j - ms[0]] == j;
    }
  }

  // ---------------------------------------------------------------------------
  // getMatches (sublime_lxml.py:63-82)

  /** An entry of `final_matches`: the node, the selections it holds, the
      span they matched and whether that span was the node's own. */
  datatype FinalMatch = FinalMatch(node: LNode, matches: seq<int>, start: int, end: int, ownSpan: bool)

  /** An entry holds a non-empty run of consecutive selections, each of which
      matches the entry's span. */
  predicate EntrySound(s: Search, e: FinalMatch)
  {
    && |e.matches| > 0
    && (forall k :: 0 <= k < |e.matches| ==> e.matches[k] == e.matches[0] + k)
    && (forall k :: 0 <= k < |e.matches| ==>
          0 <= e.matches[k] < |s.positions| && Matches(s, Region(e.start, e.end), e.matches[k], e.ownSpan))
  }

  function First(e: FinalMatch): int
    requires |e.matches| > 0
  {
    e.matches[0]
  }

  function Last(e: FinalMatch): int
    requires |e.matches| > 0
  {
    e.matches[|e.matches| - 1]
  }

  /** Sound entries whose selections lie in `[lo, hi]`, in document order: an
      entry starts no earlier than the previous one ends. */
  predicate Chain(s: Search, es: seq<FinalMatch>, lo: int, hi: int)
  {
    && (forall k :: 0 <= k < |es| ==> EntrySound(s, es[k]) && lo <= First(es[k]) && Last(es[k]) <= hi)
    && (forall k :: 0 <= k < |es| - 1 ==> Last(es[k]) <= First(es[k + 1]))
  }

  lemma ChainAppend(s: Search, a: seq<FinalMatch>, b: seq<FinalMatch>, lo: int, mid: int, hi: int)
    requires lo <= mid <= hi && Chain(s, a, lo, mid) && Chain(s, b, mid, hi)
    ensures Chain(s, a + b, lo, hi)
  {
    var ab := a + b;
    forall k | 0 <= k < |ab|
      ensures EntrySound(s, ab[k]) && lo <= First(ab[k]) && Last(ab[k]) <= hi
    {
      if k < |a| {
        assert ab[k] == a[k];
      } else {
        assert ab[k] == b[k - |a|];
      }
    }
    forall k | 0 <= k < |ab| - 1
      ensures Last(ab[k]) <= First(ab[k + 1])
    {
      if k + 1 < |a| {
        assert ab[k] == a[k] && ab[k + 1] == a[k + 1];
      } else if k + 1 == |a| {
        assert ab[k] == a[k] && ab[k + 1] == b[0];
      } else {
        assert ab[k] == b[k - |a|] && ab[k + 1] == b[k + 1 - |a|];
      }
    }
  }

  lemma ChainWiden(s: Search, es: seq<FinalMatch>, lo: int, hi: int, lo': int, hi': int)
    requires Chain(s, es, lo, hi) && lo' <= lo && hi <= hi'
    ensures Chain(s, es, lo', hi')
  {
  }

  /** The largest index a search from `next` up to `maxIndex` can return. */
  function Top(next: int, maxIndex: int): int
  {
    if next <= maxIndex then maxIndex else next
  }

  /** The entry for a final span whose selections `m` matched. */
  lemma FinalEntryChain(s: Search, sp: NodeSpan, own: bool, m: SpanMatch, next: int)
    requires |m.matches| > 0 && next <= m.first && m.last == m.first + |m.matches| - 1
    requires forall k :: 0 <= k < |m.matches| ==>
               m.matches[k] == m.first + k && 0 <= m.matches[k] < |s.positions|
               && Matches(s, Region(sp.start, sp.end), m.matches[k], own)
    ensures Chain(s, [FinalMatch(sp.node, m.matches, sp.start, sp.end, own)], next, m.last)
  {
  }

  /** The matches inside `node`, starting the search at selection `next`:
      the next index to search and the entries found, in order. */
  function GetMatches(s: Search, node: LNode, next: int, maxIndex: int): (r: (int, seq<FinalMatch>))
    requires 0 <= next && maxIndex < |s.positions|
    ensures next <= r.0 <= Top(next, maxIndex)
    ensures Chain(s, r.1, next, r.0)
    decreases node, 1, 0, 0
  {
    SpanLoop(s, node, 0, next, maxIndex, false)
  }

  /** The loop over `getNodePositions(node)` from span `i` on.
      `foundLast` records that a match reached `maxIndex`; after that, the
      first span without a match ends the loop. */
  function SpanLoop(s: Search, node: LNode, i: nat, next: int, maxIndex: int, foundLast: bool)
    : (r: (int, seq<FinalMatch>))
    requires 0 <= next && maxIndex < |s.positions|
    requires i <= |GetNodePositions(node)|
    ensures next <= r.0 <= Top(next, maxIndex)
    ensures Chain(s, r.1, next, r.0)
    decreases node, 0, |GetNodePositions(node)| - i, 1
  {
    var spans := GetNodePositions(node);
    if i == |spans| then (next, [])
    else
      var sp := spans[i];
      var m := MatchSpan(s, Region(sp.start, sp.end), next, maxIndex, sp.node == node);
      if |m.matches| > 0 then MatchedSpan(s, node, i, next, maxIndex, foundLast || m.last == maxIndex, m)
      else if foundLast then (next, [])
      else SpanLoop(s, node, i + 1, next, maxIndex, foundLast)
  }

  /** Span `i` matched the selections `m`: a final span records an entry and
      the search goes on from its last selection; a child span that is not
      final is searched recursively over the matched range, and the search
      goes on from where that one stopped. */
  function MatchedSpan(s: Search, node: LNode, i: nat, next: int, maxIndex: int, found: bool, m: SpanMatch)
    : (r: (int, seq<FinalMatch>))
    requires 0 <= next && maxIndex < |s.positions|
    requires i < |GetNodePositions(node)|
    requires m == MatchSpan(s, Region(GetNodePositions(node)[i].start, GetNodePositions(node)[i].end), next, maxIndex,
                            GetNodePositions(node)[i].node == node)
    requires |m.matches| > 0
    ensures next <= r.0 <= Top(next, maxIndex)
    ensures Chain(s, r.1, next, r.0)
    decreases node, 0, |GetNodePositions(node)| - i, 0
  {
    var sp := GetNodePositions(node)[i];
    if sp.isFinal then
      var rest := SpanLoop(s, node, i + 1, m.last, maxIndex, found);
      FinalEntryChain(s, sp, sp.node == node, m, next);
      ChainAppend(s, [FinalMatch(sp.node, m.matches, sp.start, sp.end, sp.node == node)], rest.1, next, m.last, rest.0);
      (rest.0, [FinalMatch(sp.node, m.matches, sp.start, sp.end, sp.node == node)] + rest.1)
    else
      NonFinalIsChild(node, i);
      var child := GetMatches(s, sp.node, m.first, m.last);
      var rest := SpanLoop(s, node, i + 1, child.0, maxIndex, found);
      ChainWiden(s, child.1, m.first, child.0, next, child.0);
      ChainAppend(s, child.1, rest.1, next, child.0, rest.0);
      (rest.0, child.1 + rest.1)
  }

  // ---------------------------------------------------------------------------
  // getNodesAtPositions (sublime_lxml.py:84-97)

  /** The loop over the remaining roots. With more than one root in all
      (`multi`), a root is searched only when its covering region matches
      some selection, and then only over the selections it matched. */
  function RootsFrom(s: Search, roots: seq<Option<LNode>>, start: int, multi: bool)
    : (r: (int, seq<FinalMatch>))
    requires 0 <= start
    ensures start <= r.0 <= Top(start, |s.positions| - 1)
    ensures Chain(s, r.1, start, r.0)
  {
    if |roots| == 0 then (start, [])
    else
      match roots[0]
      case None => RootsFrom(s, roots[1..], start, multi)
      case Some(root) =>
        var last := |s.positions| - 1;
        if !multi then
          var g := GetMatches(s, root, start, last);
          var rest := RootsFrom(s, roots[1..], g.0, multi);
          ChainAppend(s, g.1, rest.1, start, g.0, rest.0);
          (rest.0, g.1 + rest.1)
        else
          var m := MatchSpan(s, root.open.Cover(root.close), start, last, true);
          if |m.matches| > 0 then
            var g := GetMatches(s, root, m.first, m.last);
            var rest := RootsFrom(s, roots[1..], g.0, multi);
            ChainWiden(s, g.1, m.first, g.0, start, g.0);
            ChainAppend(s, g.1, rest.1, start, g.0, rest.0);
            (rest.0, g.1 + rest.1)
          else RootsFrom(s, roots[1..], m.first, multi)
  }

  /** `getNodesAtPositions(view, roots, positions)`: every entry holds a
      consecutive run of selections matching its span, and the entries come
      in selection order. */
  function GetNodesAtPositions(s: Search, roots: seq<Option<LNode>>): (r: seq<FinalMatch>)
    ensures Chain(s, r, 0, |s.positions|)
  {
    var res := RootsFrom(s, roots, 0, |roots| > 1);
    ChainWiden(s, res.1, 0, res.0, 0, |s.positions|);
    res.1
  }

  /** The roots that are not `None`, in order. */
  function Present(roots: seq<Option<LNode>>): (r: seq<Option<LNode>>)
    ensures |r| <= |roots|
    ensures forall k :: 0 <= k < |r| ==> r[k].Some?
  {
    if |roots| == 0 then []
    else if roots[0].None? then Present(roots[1..])
    else [roots[0]] + Present(roots[1..])
  }

  /** `None` roots are skipped: the search over the roots finds what it
      finds over the present roots alone (whether the covering region is
      checked still depends on how many roots were given). */
  lemma {:induction false} NoneRootsSkipped(s: Search, roots: seq<Option<LNode>>, start: int, multi: bool)
    requires 0 <= start
    ensures RootsFrom(s, roots, start, multi) == RootsFrom(s, Present(roots), start, multi)
  {
    if |roots| > 0 {
      forall st | 0 <= st
        ensures RootsFrom(s, roots[1..], st, multi) == RootsFrom(s, Present(roots[1..]), st, multi)
      {
        NoneRootsSkipped(s, roots[1..], st, multi);
      }
      if roots[0].Some? {
        var p := Present(roots);
        assert p == [roots[0]] + Present(roots[1..]);
        assert p[1..] == Present(roots[1..]);
      }
    }
  }

  /** With a single tree the covering region is not checked: the search is
      `getMatches` on the root over every selection. */
  lemma SingleRootSearchedWhole(s: Search, root: LNode)
    ensures GetNodesAtPositions(s, [Some(root)]) == GetMatches(s, root, 0, |s.positions| - 1).1
  {
    var g := GetMatches(s, root, 0, |s.positions| - 1);
    assert RootsFrom(s, [Some(root)][1..], g.0, false) == (g.0, []);
  }

  /** A root whose covering region matches no selection contributes nothing
      when there are several trees. */
  lemma UnmatchedRootSkipped(s: Search, roots: seq<Option<LNode>>, start: int)
    requires |roots| > 0 && 0 <= start && roots[0].Some?
    requires |MatchSpan(s, roots[0].value.open.Cover(roots[0].value.close), start, |s.positions| - 1, true).matches| == 0
    ensures RootsFrom(s, roots, start, true) == RootsFrom(s, roots[1..], start, true)
  {
  }

  /** `intersects` as an overlap that shares a point strictly inside both
      regions. */
  function Overlaps(x: Region, y: Region): bool
  {
    x.Begin() < y.End() && y.Begin() < x.End()
  }

  /** As written, selections at 1, 2 and 3 in front of a tree spanning 10 to
      23 hide a fourth selection at 15 inside it: the search over the tree
      gives up at the third selection and nothing is found. */
  lemma EarlyCursorsHideTree()
    ensures var root := LNode(Region(10, 12), Region(20, 23), []);
            var s := Search([Region(1, 1), Region(2, 2), Region(3, 3), Region(15, 15)], Overlaps, AsWritten);
            && Overlaps(root.open.Cover(root.close), s.positions[3])
            && RegionIntersects(s.intersects, Region(root.open.Begin(), root.close.End()), s.positions[3], true)
            && GetNodesAtPositions(s, [Some(root)]) == []
  {
    var root := LNode(Region(10, 12), Region(20, 23), []);
    var s := Search([Region(1, 1), Region(2, 2), Region(3, 3), Region(15, 15)], Overlaps, AsWritten);
    var span := Region(10, 23);
    assert GetNodePositions(root) == [NodeSpan(root, 10, 23, true)];
    assert !Matches(s, span, 0, true) && !Matches(s, span, 1, true) && !Matches(s, span, 2, true);
    assert SearchFrom(s, span, 0, 0, 3, true) == [];
    SingleRootSearchedWhole(s, root);
  }

  /** With the correction, the same selections and tree relate the fourth
      selection to the tree. */
  lemma KeepLookingFindsLateCursor()
    ensures var root := LNode(Region(10, 12), Region(20, 23), []);
            var s := Search([Region(1, 1), Region(2, 2), Region(3, 3), Region(15, 15)], Overlaps, KeepLooking);
            GetNodesAtPositions(s, [Some(root)]) == [FinalMatch(root, [3], 10, 23, true)]
  {
    var root := LNode(Region(10, 12), Region(20, 23), []);
    var s := Search([Region(1, 1), Region(2, 2), Region(3, 3), Region(15, 15)], Overlaps, KeepLooking);
    var span := Region(10, 23);
    assert GetNodePositions(root) == [NodeSpan(root, 10, 23, true)];
    assert !Matches(s, span, 0, true) && !Matches(s, span, 1, true) && !Matches(s, span, 2, true);
    assert Matches(s, span, 3, true);
    assert RunFrom(s, span, 3, 3, true) == [3];
    assert SearchFrom(s, span, 0, 0, 3, true) == [3];
    assert SpanLoop(s, root, 1, 3, 3, true) == (3, []);
    SingleRootSearchedWhole(s, root);
  }

  /** With the correction, a tree without children yields nothing exactly
      when no selection meets it. */
  lemma KeepLookingLeafRootComplete(s: Search, root: LNode)
    requires s.policy.KeepLooking? && |root.children| == 0
    ensures GetNodesAtPositions(s, [Some(root)]) == [] <==>
              forall j :: 0 <= j < |s.positions| ==>
                !Matches(s, Region(root.open.Begin(), root.close.End()), j, true)
  {
    var span := Region(root.open.Begin(), root.close.End());
    var last := |s.positions| - 1;
    assert GetNodePositions(root) == [NodeSpan(root, root.open.Begin(), root.close.End(), true)];
    SingleRootSearchedWhole(s, root);
    var m := MatchSpan(s, span, 0, last, true);
    var g := SpanLoop(s, root, 0, 0, last, false);
    assert GetNodesAtPositions(s, [Some(root)]) == g.1;
    assert |GetNodePositions(root)| == 1 && GetNodePositions(root)[0].node == root;
    if |m.matches| > 0 {
      assert Matches(s, span, m.matches[0], true);
      var rest := SpanLoop(s, root, 1, m.last, last, m.last == last);
      assert g == MatchedSpan(s, root, 0, 0, last, m.last == last, m);
      assert g.1 == [FinalMatch(root, m.matches, span.a, span.b, true)] + rest.1;
    } else {
      assert g == SpanLoop(s, root, 1, 0, last, false);
    }
  }
}

=== FILE: node_regions.dfy ===
/** The regions `get_regions_of_nodes` yields for XPath results
    (sublime_lxml.py:99-132): the tag name in the open or close tag, both
    names, the content between the tags, or the entire element.

    The tag ranges come from `getNodeTagRange` and are taken as regions of
    character offsets: the host's text-point conversion is not modelled, and
    `getNodeTagRegion` as written, which indexes those integers as pairs and
    so always raises, is replaced by that intended conversion.
    `getTagName(node)[2]`, the prefixed name that lxml's `QName` works out, is
    a parameter. */
module NodeRegions {
  import opened Wrappers
  import opened Positions
  import opened Regions
  import opened TreeBuilder
  import opened LxmlHelpers

  /** An XPath result: an element (or comment or processing instruction)
      by its id, a string result with the node it came from, or any other
      value (a number, a boolean, a string built by a function). */
  datatype XPathItem = NodeItem(id: nat) | StringItem(parent: Option<nat>) | OtherItem

  /** The node a result stands for: a string stands for its parent, other
      values for nothing. */
  function Target(item: XPathItem): Option<nat>
  {
    match item
    case NodeItem(id) => Some(id)
    case StringItem(parent) => parent
    case OtherItem => None
  }

  predicate IdsValid(all: seq<Node>, items: seq<XPathItem>)
  {
    forall k :: 0 <= k < |items| ==> Target(items[k]).Some? ==> Target(items[k]).value < |all|
  }

  /** The open and close tag regions of a node, or `None` when either
      position is unknown (a node that is not part of the parsed document). */
  function TagRegions(n: Node): (r: Option<(Region, Region)>)
    ensures r.Some? <==> GetNodeTagRange(n, "open").Some? && GetNodeTagRange(n, "close").Some?
    ensures r.Some? ==>
              && r.value.0 == Region(GetNodeTagRange(n, "open").value.0, GetNodeTagRange(n, "open").value.1)
              && r.value.1 == Region(GetNodeTagRange(n, "close").value.0, GetNodeTagRange(n, "close").value.1)
  {
    match (GetNodeTagRange(n, "open"), GetNodeTagRange(n, "close"))
    case (Some(o), Some(c)) => Some((Region(o.0, o.1), Region(c.0, c.1)))
    case _ => None
  }

  /** Where a node is located, in terms of what the builder recorded: an
      element needs both its open and its close position, a comment or
      processing instruction its one tag position; for a self-closing element
      and for a leaf the two regions are the same. */
  lemma TagRegionsSpec(n: Node)
    ensures n.kind.ElementKind? ==> (TagRegions(n).Some? <==> n.openPos.Some? && n.closePos.Some?)
    ensures !n.kind.ElementKind? ==> (TagRegions(n).Some? <==> n.tagPos.Some?)
    ensures TagRegions(n).Some? && (!n.kind.ElementKind? || IsSelfClosing(n.openPos, n.closePos)) ==>
              TagRegions(n).value.0 == TagRegions(n).value.1
    ensures TagRegions(n).Some? ==>
              var p := if n.kind.ElementKind? then n.openPos.value else n.tagPos.value;
              TagRegions(n).value.0 == Region(p.startPos.0, p.endPos.1)
  {
    if !n.kind.ElementKind? || IsSelfClosing(n.openPos, n.closePos) {
      SelfClosingSameRange(n);
    }
  }

  predicate IsNameType(positionType: string)
  {
    positionType == "open" || positionType == "close" || positionType == "names"
  }

  /** The name right after `<` in the open tag. */
  function OpenName(openR: Region, tag: string): Region
  {
    Region(openR.Begin() + 1, openR.Begin() + 1 + |tag|)
  }

  /** The name right after `</` in the close tag. */
  function CloseName(closeR: Region, tag: string): Region
  {
    Region(closeR.Begin() + 2, closeR.Begin() + 2 + |tag|)
  }

  /** The regions of one located node. The name types need the prefixed name,
      which lxml cannot work out for a comment or processing instruction:
      that raises, and the whole iteration fails. A self-closing element has
      no close tag, so its close name is the open one. */
  function NodeRegion(n: Node, openR: Region, closeR: Region, positionType: string, tag: string)
    : (r: Result<seq<Region>, string>)
    ensures r.Failure? <==> IsNameType(positionType) && !n.kind.ElementKind?
  {
    if IsNameType(positionType) then
      if !n.kind.ElementKind? then Failure("Invalid input tag")
      else
        var selfClosing := IsSelfClosing(n.openPos, n.closePos);
        var first := if positionType == "open" || positionType == "names" || selfClosing then [OpenName(openR, tag)] else [];
        var second := if (positionType == "close" || positionType == "names") && !selfClosing then [CloseName(closeR, tag)] else [];
        Success(first + second)
    else if positionType == "content" then Success([Region(openR.End(), closeR.Begin())])
    else if positionType == "entire" then Success([Region(openR.Begin(), closeR.End())])
    else Success([])
  }

  /** `NodeRegion` as the code is written: it calls `isTagSelfClosing`, which
      is defined nowhere (the element method is `is_self_closing`), so the
      call raises `NameError`. Every name type but `open` reaches that call
      for an element, since `open` short-circuits both `or` and `and`; for
      `names` the open name is yielded first, but a raising generator leaves
      `list()` nothing. The error is latent: as written `getNodeTagRegion`
      indexes the integer offsets (sublime_lxml.py:9) and raises first, and
      the bare `except` skips the node. */
  function NodeRegionAsWritten(n: Node, openR: Region, closeR: Region, positionType: string, tag: string)
    : Result<seq<Region>, string>
  {
    if IsNameType(positionType) && n.kind.ElementKind? && positionType != "open" then
      Failure("name 'isTagSelfClosing' is not defined")
    else NodeRegion(n, openR, closeR, positionType, tag)
  }

  /** As written, `close` and `names` fail on every element, self-closing or
      not, where the helper with `is_self_closing` gives one or two names; the
      other position types are unaffected. */
  lemma UndefinedHelperRaises(n: Node, openR: Region, closeR: Region, tag: string)
    requires n.kind.ElementKind?
    ensures NodeRegionAsWritten(n, openR, closeR, "close", tag).Failure?
    ensures NodeRegionAsWritten(n, openR, closeR, "names", tag).Failure?
    ensures NodeRegion(n, openR, closeR, "close", tag).Success?
    ensures NodeRegion(n, openR, closeR, "names", tag).Success?
    ensures forall positionType :: positionType != "close" && positionType != "names" ==>
              NodeRegionAsWritten(n, openR, closeR, positionType, tag) == NodeRegion(n, openR, closeR, positionType, tag)
  {
  }

  /** The ids of the results whose node can be located, in order. */
  function Located(all: seq<Node>, items: seq<XPathItem>): (ids: seq<nat>)
    requires IdsValid(all, items)
    ensures forall k :: 0 <= k < |ids| ==> ids[k] < |all| && TagRegions(all[ids[k]]).Some?
  {
    if |items| == 0 then []
    else
      var rest := Located(all, items[1..]);
      match Target(items[0])
      case None => rest
      case Some(id) => if TagRegions(all[id]).Some? then [id] + rest else rest
  }

  /** `list(get_regions_of_nodes(view, nodes, position_type))`; `Failure`
      where Python raises. */
  function GetRegionsOfNodes(all: seq<Node>, items: seq<XPathItem>, positionType: string,
                             qualifiedName: Node -> string): Result<seq<Region>, string>
    requires IdsValid(all, items)
  {
    if |items| == 0 then Success([])
    else
      match Target(items[0])
      case None => GetRegionsOfNodes(all, items[1..], positionType, qualifiedName)
      case Some(id) =>
        match TagRegions(all[id])
        case None => GetRegionsOfNodes(all, items[1..], positionType, qualifiedName)
        case Some(rs) =>
          var here :- NodeRegion(all[id], rs.0, rs.1, positionType, qualifiedName(all[id]));
          var rest :- GetRegionsOfNodes(all, items[1..], positionType, qualifiedName);
          Success(here + rest)
  }

  /** The regions of the located nodes, in order. */
  function RegionsOf(all: seq<Node>, ids: seq<nat>, positionType: string, qualifiedName: Node -> string)
    : Result<seq<Region>, string>
    requires forall k :: 0 <= k < |ids| ==> ids[k] < |all| && TagRegions(all[ids[k]]).Some?
  {
    if |ids| == 0 then Success([])
    else
      var rs := TagRegions(all[ids[0]]).value;
      var here :- NodeRegion(all[ids[0]], rs.0, rs.1, positionType, qualifiedName(all[ids[0]]));
      var rest :- RegionsOf(all, ids[1..], positionType, qualifiedName);
      Success(here + rest)
  }

  /** Filtering comes first: strings stand for their parent, other values
      and nodes whose position is unknown are skipped, and only then are
      regions worked out. */
  lemma {:induction false} FilterThenRegions(all: seq<Node>, items: seq<XPathItem>, positionType: string,
                                             qualifiedName: Node -> string)
    requires IdsValid(all, items)
    ensures GetRegionsOfNodes(all, items, positionType, qualifiedName)
            == RegionsOf(all, Located(all, items), positionType, qualifiedName)
  {
    if |items| > 0 {
      assert IdsValid(all, items[1..]) by {
        forall k | 0 <= k < |items[1..]|
          ensures Target(items[1..][k]).Some? ==> Target(items[1..][k]).value < |all|
        {
          assert items[1..][k] == items[k + 1];
        }
      }
      FilterThenRegions(all, items[1..], positionType, qualifiedName);
      var rest := Located(all, items[1..]);
      match Target(items[0])
      case None =>
      case Some(id) =>
        if TagRegions(all[id]).Some? {
          assert Located(all, items) == [id] + rest;
          assert Located(all, items)[1..] == rest;
        }
    }
  }

  /** The iteration fails exactly when a name is asked of a located node that
      is not an element. */
  lemma {:induction false} RegionsFailure(all: seq<Node>, ids: seq<nat>, positionType: string,
                                          qualifiedName: Node -> string)
    requires forall k :: 0 <= k < |ids| ==> ids[k] < |all| && TagRegions(all[ids[k]]).Some?
    ensures RegionsOf(all, ids, positionType, qualifiedName).Failure? <==>
              IsNameType(positionType) && exists k :: 0 <= k < |ids| && !all[ids[k]].kind.ElementKind?
  {
    if |ids| > 0 {
      RegionsFailure(all, ids[1..], positionType, qualifiedName);
      if IsNameType(positionType) && all[ids[0]].kind.ElementKind? {
        if exists k :: 0 <= k < |ids| && !all[ids[k]].kind.ElementKind? {
          var k :| 0 <= k < |ids| && !all[ids[k]].kind.ElementKind?;
          assert ids[1..][k - 1] == ids[k];
        }
        if exists k :: 0 <= k < |ids[1..]| && !all[ids[1..][k]].kind.ElementKind? {
          var k :| 0 <= k < |ids[1..]| && !all[ids[1..][k]].kind.ElementKind?;
          assert ids[k + 1] == ids[1..][k];
        }
      }
    }
  }

  /** The one region of a located node for `open`, `close`, `content` and
      `entire`: the tag name after `<`, the tag name after `</` (the open one
      for a self-closing element), the text between the tags, or the whole
      element from `<` to `>`. A name region is as long as the prefixed name. */
  function SingleRegion(n: Node, openR: Region, closeR: Region, positionType: string, tag: string): Region
  {
    if positionType == "open" || (positionType == "close" && IsSelfClosing(n.openPos, n.closePos)) then OpenName(openR, tag)
    else if positionType == "close" then CloseName(closeR, tag)
    else if positionType == "content" then Region(openR.End(), closeR.Begin())
    else Region(openR.Begin(), closeR.End())
  }

  predicate SingleType(positionType: string)
  {
    positionType == "open" || positionType == "close" || positionType == "content" || positionType == "entire"
  }

  /** Apart from `names`, every located node gives exactly one region, in the
      order of the results. */
  lemma {:induction false} OneRegionEach(all: seq<Node>, ids: seq<nat>, positionType: string,
                                         qualifiedName: Node -> string)
    requires forall k :: 0 <= k < |ids| ==> ids[k] < |all| && TagRegions(all[ids[k]]).Some?
    requires SingleType(positionType)
    ensures var r := RegionsOf(all, ids, positionType, qualifiedName);
            r.Success? ==>
              && |r.value| == |ids|
              && forall k :: 0 <= k < |ids| ==>
                   r.value[k] == SingleRegion(all[ids[k]], TagRegions(all[ids[k]]).value.0,
                                              TagRegions(all[ids[k]]).value.1, positionType, qualifiedName(all[ids[k]]))
  {
    if |ids| > 0 {
      OneRegionEach(all, ids[1..], positionType, qualifiedName);
      var r := RegionsOf(all, ids, positionType, qualifiedName);
      if r.Success? {
        var rs := TagRegions(all[ids[0]]).value;
        var here := NodeRegion(all[ids[0]], rs.0, rs.1, positionType, qualifiedName(all[ids[0]]));
        var rest := RegionsOf(all, ids[1..], positionType, qualifiedName);
        assert r.value == here.value + rest.value;
        assert |here.value| == 1;
        forall k | 0 <= k < |ids|
          ensures r.value[k] == SingleRegion(all[ids[k]], TagRegions(all[ids[k]]).value.0,
                                             TagRegions(all[ids[k]]).value.1, positionType, qualifiedName(all[ids[k]]))
        {
          if k > 0 {
            assert r.value[k] == rest.value[k - 1] && ids[k] == ids[1..][k - 1];
          }
        }
      }
    }
  }

  /** For `names`, a self-closing element gives its one name and any other
      element gives the open name then the close name. */
  lemma NamesRegions(n: Node, openR: Region, closeR: Region, tag: string)
    requires n.kind.ElementKind?
    ensures var r := NodeRegion(n, openR, closeR, "names", tag);
            && r.Success?
            && (IsSelfClosing(n.openPos, n.closePos) ==> r.value == [OpenName(openR, tag)])
            && (!IsSelfClosing(n.openPos, n.closePos) ==> r.value == [OpenName(openR, tag), CloseName(closeR, tag)])
  {
  }

  /** A name region starts one character (`<`) or two (`</`) into its tag and
      is exactly as long as the prefixed name. */
  lemma NameRegionsFit(openR: Region, closeR: Region, tag: string)
    ensures OpenName(openR, tag).Begin() == openR.Begin() + 1
    ensures OpenName(openR, tag).End() - OpenName(openR, tag).Begin() == |tag|
    ensures CloseName(closeR, tag).Begin() == closeR.Begin() + 2
    ensures CloseName(closeR, tag).End() - CloseName(closeR, tag).Begin() == |tag|
  {
  }
}

=== FILE: parser.dfy ===
/** `LocationAwareXMLParser` with the tree builder as its target: the span
    tracker supplies each callback's location, and `close` hands back the
    builder's document and resets both parts (lxml_parser.py:52-100, 206-227). */
module LocationParser {
  import opened Wrappers
  import opened Positions
  import SpanTracker
  import TreeBuilder

  datatype Parser = Parser(tracker: SpanTracker.Tracker, builder: TreeBuilder.Builder)

  /** `__init__(position_offset)`. */
  function Init(positionOffset: int): Parser
  {
    Parser(SpanTracker.Init(positionOffset), TreeBuilder.Empty())
  }

  predicate Valid(p: Parser)
  {
    SpanTracker.Valid(p.tracker) && TreeBuilder.Valid(p.builder)
  }

  lemma InitValid(positionOffset: int)
    ensures Valid(Init(positionOffset))
  {
    TreeBuilder.EmptyValid();
  }

  /** The index `getLocation` is called with: the span of the latest token for
      character data, and by default the span three back. */
  function LocationIndex(ev: TreeBuilder.Event): int
  {
    if ev.Data? then -1 else -3
  }

  /** A `Target` callback: compute the location from the spans recorded so
      far, then run the builder. */
  function Deliver(b: TreeBuilder.Builder, positions: seq<Span>, ev: TreeBuilder.Event): (r: Result<TreeBuilder.Builder, TreeBuilder.BuildError>)
    requires TreeBuilder.Valid(b)
    ensures r.Success? ==> TreeBuilder.Valid(r.value)
  {
    match SpanTracker.GetLocation(positions, LocationIndex(ev))
    case None => Failure(TreeBuilder.IndexError)
    case Some(loc) => TreeBuilder.Apply(b, ev, loc)
  }

  /** Several callbacks against the same recorded spans. */
  function DeliverAll(b: TreeBuilder.Builder, positions: seq<Span>, evs: seq<TreeBuilder.Event>): (r: Result<TreeBuilder.Builder, TreeBuilder.BuildError>)
    requires TreeBuilder.Valid(b)
    ensures r.Success? ==> TreeBuilder.Valid(r.value)
    decreases |evs|
  {
    if |evs| == 0 then Success(b)
    else
      match DeliverAll(b, positions, evs[..|evs| - 1])
      case Failure(e) => Failure(e)
      case Success(m) => Deliver(m, positions, evs[|evs| - 1])
  }

  /** `feed(chunk)`; the callbacks lxml makes meanwhile are delivered with
      `Deliver`. */
  function Feed(p: Parser, chunk: string): Parser
  {
    p.(tracker := SpanTracker.Feed(p.tracker, chunk))
  }

  /** What `document_end` returns: the root's id, the namespaces, every node. */
  type Document = (Option<nat>, TreeBuilder.Namespaces, seq<TreeBuilder.Node>)

  /** `close()`: record the final span, deliver the callbacks that the final
      `_feed` and the foreign parser's `close` produce against it, collect the
      document and reset. */
  function Close(p: Parser, evs: seq<TreeBuilder.Event>): Result<(Document, Parser), TreeBuilder.BuildError>
    requires Valid(p)
  {
    var (positions, t) := SpanTracker.Close(p.tracker);
    match DeliverAll(p.builder, positions, evs)
    case Failure(e) => Failure(e)
    case Success(b) => Success((TreeBuilder.DocumentEnd(b), Parser(t, TreeBuilder.Empty())))
  }

  /** After `close` the parser is as `__init__` left it, apart from the
      foreign parser's history: offset back at the initial one, no remainder,
      no spans, and an empty builder, so it can parse another document. */
  lemma CloseResets(p: Parser, evs: seq<TreeBuilder.Event>)
    requires Valid(p) && Close(p, evs).Success?
    ensures var q := Close(p, evs).value.1;
            && Valid(q)
            && q.tracker.initial == p.tracker.initial
            && q == Init(p.tracker.initial).(tracker := q.tracker)
            && q.tracker == SpanTracker.Init(p.tracker.initial).(log := p.tracker.log + [p.tracker.remainder])
  {
    TreeBuilder.EmptyValid();
  }

  /** Tag callbacks need three recorded spans and character data one; with
      fewer, `getLocation` raises `IndexError`. */
  lemma DeliverNeedsSpans(b: TreeBuilder.Builder, positions: seq<Span>, ev: TreeBuilder.Event)
    requires TreeBuilder.Valid(b)
    ensures |positions| < (if ev.Data? then 1 else 3) ==> Deliver(b, positions, ev) == Failure(TreeBuilder.IndexError)
  {
  }

  /** The open-tag position an element receives spans from the start of the
      third-latest recorded span to the end of the latest. */
  lemma StartLocation(b: TreeBuilder.Builder, positions: seq<Span>, ev: TreeBuilder.Event)
    requires TreeBuilder.Valid(b) && ev.Start? && Deliver(b, positions, ev).Success?
    ensures var r := Deliver(b, positions, ev).value;
            var n := |positions|;
            && n >= 3
            && |r.all| == |b.all| + 1
            && r.all[|b.all|].openPos == Some(TagPos(positions[n - 3], positions[n - 1]))
  {
    var loc := SpanTracker.GetLocation(positions, -3).value;
    TreeBuilder.ApplyFrame(b, ev, loc);
  }

  /** `should_stop` is asked before each chunk: the chunks fed are those
      before the first call that answers true. */
  function FedCount(chunks: seq<string>, shouldStop: nat -> bool, from: nat): (n: nat)
    requires from <= |chunks|
    ensures from <= n <= |chunks|
    ensures forall k :: from <= k < n ==> !shouldStop(k)
    ensures n < |chunks| ==> shouldStop(n)
    decreases |chunks| - from
  {
    if from == |chunks| || shouldStop(from) then from else FedCount(chunks, shouldStop, from + 1)
  }
}

=== FILE: positions.dfy ===
/** Source positions recorded by the parser: offset pairs and the `TagPos`
    record that joins the first and last pair of a tag. */
module Positions {
  import opened Wrappers

  /** A `(start, end)` pair of character offsets. */
  type Span = (int, int)

  /** `TagPos(start, end)`: the span a tag starts in and the span it ends in. */
  datatype TagPos = TagPos(startPos: Span, endPos: Span)

  /** Equality of two `TagPos` objects as the equality mixin defines it: same
      class and equal attribute dictionaries, i.e. field by field. */
  predicate TagPosEqual(a: TagPos, b: TagPos)
  {
    a.startPos == b.startPos && a.endPos == b.endPos
  }

  /** `==` between two attributes that may hold `None` or a `TagPos`: `None`
      equals only `None`, and a `TagPos` never equals `None`. */
  predicate SamePos(a: Option<TagPos>, b: Option<TagPos>)
  {
    match (a, b)
    case (None, None) => true
    case (Some(x), Some(y)) => TagPosEqual(x, y)
    case _ => false
  }

  /** `is_self_closing`: the open and close tag positions compare equal. */
  predicate IsSelfClosing(openPos: Option<TagPos>, closePos: Option<TagPos>)
  {
    SamePos(openPos, closePos)
  }

  /** The field-wise equality of the mixin is exactly structural equality of
      the records, so self-closing means the two attributes are the same value. */
  lemma SelfClosingIsEquality(openPos: Option<TagPos>, closePos: Option<TagPos>)
    ensures IsSelfClosing(openPos, closePos) <==> openPos == closePos
  {
  }

  /** The offset range a `TagPos` covers: from the start of its first span to
      the end of its last span. */
  function Range(p: TagPos): (r: (int, int))
  {
    (p.startPos.0, p.endPos.1)
  }
}

=== FILE: regions.dfy ===
/** The editor's `Region(a, b)`: a pair of character offsets whose ends may
    come in either order. Only the members the plugin uses are defined here;
    `intersects` is the host's and stays a parameter wherever it is used. */
module Regions {

  function Min(x: int, y: int): int
  {
    if x <= y then x else y
  }

  function Max(x: int, y: int): int
  {
    if x <= y then y else x
  }

  datatype Region = Region(a: int, b: int)
  {
    function Begin(): int
    {
      Min(a, b)
    }

    function End(): int
    {
      Max(a, b)
    }

    predicate Empty()
    {
      a == b
    }

    /** `region.contains(point)`: the point lies between the ends, both included. */
    predicate Contains(x: int)
    {
      Begin() <= x <= End()
    }

    /** `region.cover(other)`: the smallest region holding both. */
    function Cover(other: Region): (c: Region)
      ensures c.Begin() <= c.End()
      ensures forall x :: Contains(x) || other.Contains(x) ==> c.Contains(x)
      ensures c.Begin() == Begin() || c.Begin() == other.Begin()
      ensures c.End() == End() || c.End() == other.End()
    {
      Region(Min(Begin(), other.Begin()), Max(End(), other.End()))
    }
  }
}

=== FILE: request_input.dfy ===
/** The input-panel command that reports what is typed, after a short delay
    in live mode (`RequestInputCommand`, sublime_input.py:12-78).

    The host's timer is explicit: scheduling `compare_to_previous` appends a
    timer to `scheduled`, and the host firing a timer removes it and runs the
    comparison. `process_current_input`, the hook subclasses override, is a
    log of the values it was called with. */
module RequestInput {
  import opened Wrappers

  /** A command argument as the host passes it. */
  datatype ArgValue = NoneArg | BoolArg(b: bool) | IntArg(i: int) | StrArg(s: string)

  type Args = map<string, ArgValue>

  /** Python truthiness of an argument value. */
  predicate Truthy(v: ArgValue)
  {
    match v
    case NoneArg => false
    case BoolArg(b) => b
    case IntArg(i) => i != 0
    case StrArg(s) => s != ""
  }

  /** `get_value_from_args(key, default)`: the argument when it is given and
      not `None`, otherwise the default. */
  function GetValueFromArgs(args: Args, key: string, default: ArgValue): (v: ArgValue)
    ensures key in args && args[key] != NoneArg ==> v == args[key]
    ensures key !in args || args[key] == NoneArg ==> v == default
  {
    if key in args && args[key] != NoneArg then args[key] else default
  }

  /** A timer the command asked the host for: its delay and whether it runs
      on the asynchronous queue. */
  datatype Timer = Timer(delay: ArgValue, async: bool)

  /** The command's fields, the host's outstanding timers and the values
      processed so far. */
  datatype InputState = InputState(panelOpen: bool, pending: Option<string>, current: Option<string>,
                                   liveMode: ArgValue, timeoutActive: bool, args: Args,
                                   scheduled: seq<Timer>, processed: seq<Option<string>>)

  /** `run(**args)`: reset the panel, both values and the timer flag, then
      read the arguments and show the panel. Timers already handed to the
      host stay outstanding. */
  function Run(st: InputState, args: Args): (r: InputState)
    ensures r.panelOpen && r.pending.None? && r.current.None? && !r.timeoutActive
    ensures r.args == args && r.liveMode == GetValueFromArgs(args, "live_mode", BoolArg(true))
    ensures r.scheduled == st.scheduled && r.processed == st.processed
  {
    InputState(true, None, None, GetValueFromArgs(args, "live_mode", BoolArg(true)), false, args,
               st.scheduled, st.processed)
  }

  /** `compare_to_previous`: clear the timer flag, and process the pending
      value when it differs from the current one. */
  function CompareToPrevious(st: InputState): (r: InputState)
    ensures !r.timeoutActive && r.current == st.pending && r.pending == st.pending
    ensures st.pending != st.current ==> r.processed == st.processed + [st.pending]
    ensures st.pending == st.current ==> r.processed == st.processed
    ensures r.scheduled == st.scheduled && r.panelOpen == st.panelOpen
  {
    var st1 := st.(timeoutActive := false);
    if st1.pending != st1.current then st1.(current := st1.pending, processed := st1.processed + [st1.pending])
    else st1
  }

  /** `input_changed(value)`: remember the value; in live mode, ask for one
      timer unless one is active, with no delay for the first input. */
  function InputChanged(st: InputState, value: string): (r: InputState)
    ensures r.pending == Some(value) && r.current == st.current && r.processed == st.processed
    ensures !Truthy(st.liveMode) || st.timeoutActive ==> r.scheduled == st.scheduled
    ensures Truthy(st.liveMode) && !st.timeoutActive ==>
              && r.timeoutActive
              && |r.scheduled| == |st.scheduled| + 1 && r.scheduled[..|st.scheduled|] == st.scheduled
              && (st.current.None? ==> r.scheduled[|st.scheduled|].delay == IntArg(0))
  {
    var st1 := st.(pending := Some(value));
    if Truthy(st1.liveMode) then
      var delay := if st1.current.None? then IntArg(0) else GetValueFromArgs(st1.args, "delay", IntArg(0));
      if !st1.timeoutActive then
        var async := Truthy(GetValueFromArgs(st1.args, "async", BoolArg(true)));
        st1.(timeoutActive := true, scheduled := st1.scheduled + [Timer(delay, async)])
      else st1
    else st1
  }

  /** The host runs timer `i`: it is no longer outstanding and
      `compare_to_previous` runs. */
  function Fire(st: InputState, i: nat): (r: InputState)
    requires i < |st.scheduled|
    ensures r.scheduled == st.scheduled[..i] + st.scheduled[i + 1..]
    ensures !r.timeoutActive && r.current == st.pending
    ensures r.processed == st.processed + (if st.pending != st.current then [st.pending] else [])
  {
    CompareToPrevious(st.(scheduled := st.scheduled[..i] + st.scheduled[i + 1..]))
  }

  /** `input_cancelled`: the panel is gone. */
  function InputCancelled(st: InputState): (r: InputState)
    ensures !r.panelOpen && r == st.(panelOpen := false)
  {
    st.(panelOpen := false)
  }

  /** `input_done(value)`: the panel is gone and the value is processed unless
      it was the last one processed. */
  function InputDone(st: InputState, value: string): (r: InputState)
    ensures !r.panelOpen && r.current == Some(value) && !r.timeoutActive
    ensures Some(value) != st.current ==> r.processed == st.processed + [Some(value)]
    ensures Some(value) == st.current ==> r.processed == st.processed
  {
    CompareToPrevious(st.(panelOpen := false, pending := Some(value)))
  }

  // ---------------------------------------------------------------------------
  // Properties

  /** An immediate second comparison processes nothing. */
  lemma CompareTwice(st: InputState)
    ensures CompareToPrevious(CompareToPrevious(st)) == CompareToPrevious(st)
  {
  }

  /** What the panel can do between two states: type, or fire a timer. */
  datatype LiveEvent = Changed(value: string) | Fired(index: nat)

  /** The events applied in order; a `Fired` with no such timer is ignored. */
  function Apply(st: InputState, events: seq<LiveEvent>): InputState
    decreases |events|
  {
    if |events| == 0 then st
    else
      var e := events[|events| - 1];
      var before := Apply(st, events[..|events| - 1]);
      match e
      case Changed(v) => InputChanged(before, v)
      case Fired(i) => if i < |before.scheduled| then Fire(before, i) else before
  }

  /** An explicit `None` argument is the same as no argument at all, and
      other keys never matter. */
  lemma ExplicitNoneIsAbsent(args: Args, key: string, other: string, v: ArgValue, default: ArgValue)
    ensures GetValueFromArgs(args[key := NoneArg], key, default) == default
    ensures GetValueFromArgs(args[key := NoneArg], key, default) == GetValueFromArgs(args - {key}, key, default)
    ensures other != key ==> GetValueFromArgs(args[other := v], key, default) == GetValueFromArgs(args, key, default)
  {
  }

  /** At most one timer is outstanding, and exactly when the flag says one is. */
  predicate OneTimer(st: InputState)
  {
    |st.scheduled| <= 1 && (st.timeoutActive <==> |st.scheduled| == 1)
  }

  /** Typing and firing keep at most one timer outstanding. */
  lemma {:induction false} AtMostOneTimer(st: InputState, events: seq<LiveEvent>)
    requires OneTimer(st)
    ensures OneTimer(Apply(st, events))
    decreases |events|
  {
    if |events| > 0 {
      AtMostOneTimer(st, events[..|events| - 1]);
    }
  }

  /** A set flag always stands for an outstanding timer, whatever happens. */
  lemma FlagHasTimer(st: InputState, value: string, i: nat, args: Args)
    requires st.timeoutActive ==> |st.scheduled| >= 1
    ensures var r := InputChanged(st, value); r.timeoutActive ==> |r.scheduled| >= 1
    ensures i < |st.scheduled| ==> !Fire(st, i).timeoutActive
    ensures !Run(st, args).timeoutActive && !InputDone(st, value).timeoutActive
  {
  }

  /** Outside live mode nothing is ever scheduled. */
  lemma {:induction false} NoTimersOutsideLiveMode(st: InputState, events: seq<LiveEvent>)
    requires !Truthy(st.liveMode)
    ensures |Apply(st, events).scheduled| <= |st.scheduled|
    ensures !Truthy(Apply(st, events).liveMode)
    decreases |events|
  {
    if |events| > 0 {
      NoTimersOutsideLiveMode(st, events[..|events| - 1]);
    }
  }

  /** A timer processes the value typed last, not the one typed when it was
      scheduled: after typing `first`, then `last`, the one timer processes
      `last`. */
  lemma FiringProcessesLatest(st: InputState, first: string, last: string)
    requires OneTimer(st) && !st.timeoutActive && Truthy(st.liveMode) && st.current != Some(last)
    ensures var typed := Apply(st, [Changed(first), Changed(last)]);
            && |typed.scheduled| == 1
            && var fired := Fire(typed, 0);
               fired.processed == st.processed + [Some(last)] && fired.current == Some(last)
  {
    var once := [Changed(first)];
    var events := [Changed(first), Changed(last)];
    assert Apply(st, once) == InputChanged(st, first) by {
      assert once[..0] == [];
    }
    assert Apply(st, events) == InputChanged(InputChanged(st, first), last) by {
      assert events[..1] == once;
    }
  }

  /** `run` starts afresh: what was typed before is forgotten, a timer still
      outstanding from earlier processes nothing when it fires, and in live
      mode the first input is scheduled with no delay. */
  lemma RunStartsAfresh(st: InputState, st': InputState, args: Args, i: nat, value: string)
    requires st'.scheduled == st.scheduled && st'.processed == st.processed
    ensures Run(st', args) == Run(st, args)
    ensures i < |st.scheduled| ==> Fire(Run(st, args), i).processed == st.processed
    ensures var typed := InputChanged(Run(st, args), value);
            Truthy(Run(st, args).liveMode) ==>
              && |typed.scheduled| == |st.scheduled| + 1
              && typed.scheduled[|st.scheduled|].delay == IntArg(0)
  {
  }

  /** Cancelling forgets only the panel: nothing is processed, the timers
      stay as they were, and a timer still outstanding fires exactly as it
      would have. */
  lemma CancelKeepsTimers(st: InputState, i: nat)
    ensures InputCancelled(st).processed == st.processed
    ensures OneTimer(st) ==> OneTimer(InputCancelled(st))
    ensures i < |st.scheduled| ==> Fire(InputCancelled(st), i).processed == Fire(st, i).processed
  {
  }

  /** `input_done` clears the flag through `compare_to_previous` but leaves
      an outstanding timer with the host, so the one-timer correspondence of
      `AtMostOneTimer` ends here; the stray timer then processes nothing. */
  lemma DoneLeavesStrayTimer(st: InputState, value: string, i: nat)
    requires st.timeoutActive && |st.scheduled| == 1
    ensures var d := InputDone(st, value);
            && |d.scheduled| == 1 && !d.timeoutActive && !OneTimer(d)
            && (i < |d.scheduled| ==> Fire(d, i).processed == d.processed)
  {
  }
}

=== FILE: scopes.dfy ===
/** `get_scopes(view, start_at_position, stop_at_position)`
    (sublime_helper.py:1-14): the runs of equal scope names over a range of
    positions, in order. The host's `view.scope_name` is a parameter. */
module Scopes {
  import opened Wrappers

  /** A run: the scope name, the first position and the last position. */
  type Run = (string, int, int)

  /** The runs lie end to end from `start` to `stop - 1`. */
  predicate Tiles(runs: seq<Run>, start: int, stop: int)
  {
    && (start >= stop ==> runs == [])
    && (start < stop ==> |runs| > 0 && runs[0].1 == start && runs[|runs| - 1].2 == stop - 1)
    && (forall k :: 0 <= k < |runs| - 1 ==> runs[k + 1].1 == runs[k].2 + 1)
    && (forall k :: 0 <= k < |runs| ==> runs[k].1 <= runs[k].2)
  }

  /** Every position of a run has the run's scope name. */
  predicate Constant(scopeName: int -> string, runs: seq<Run>)
  {
    forall k, p :: 0 <= k < |runs| && runs[k].1 <= p <= runs[k].2 ==> scopeName(p) == runs[k].0
  }

  /** Neighbouring runs have different scope names, so no run could be longer. */
  predicate Maximal(runs: seq<Run>)
  {
    forall k :: 0 <= k < |runs| - 1 ==> runs[k].0 != runs[k + 1].0
  }

  /** The loop keeps the runs registered so far and the open run `current`,
      which ends just before `pos`. */
  predicate Progress(scopeName: int -> string, runs: seq<Run>, current: Option<Run>, start: int, pos: int)
  {
    && (current.None? ==> runs == [] && pos == start)
    && (current.Some? ==>
          && current.value.2 == pos - 1 && current.value.1 <= current.value.2
          && (forall p :: current.value.1 <= p <= current.value.2 ==> scopeName(p) == current.value.0)
          && (|runs| == 0 ==> current.value.1 == start)
          && (|runs| > 0 ==> runs[0].1 == start && current.value.1 == runs[|runs| - 1].2 + 1
                              && current.value.0 != runs[|runs| - 1].0))
    && (forall k :: 0 <= k < |runs| - 1 ==> runs[k + 1].1 == runs[k].2 + 1)
    && (forall k :: 0 <= k < |runs| ==> runs[k].1 <= runs[k].2)
    && Constant(scopeName, runs)
    && Maximal(runs)
  }

  lemma FirstRun(scopeName: int -> string, start: int)
    ensures Progress(scopeName, [], Some((scopeName(start), start, start)), start, start + 1)
  {
  }

  lemma ExtendRun(scopeName: int -> string, runs: seq<Run>, c: Run, start: int, pos: int)
    requires Progress(scopeName, runs, Some(c), start, pos) && scopeName(pos) == c.0
    ensures Progress(scopeName, runs, Some((c.0, c.1, pos)), start, pos + 1)
  {
  }

  lemma NewRun(scopeName: int -> string, runs: seq<Run>, c: Run, start: int, pos: int)
    requires Progress(scopeName, runs, Some(c), start, pos) && scopeName(pos) != c.0
    ensures Progress(scopeName, runs + [c], Some((scopeName(pos), pos, pos)), start, pos + 1)
  {
    CloseRuns(scopeName, runs, c, start, pos);
  }

  lemma CloseRuns(scopeName: int -> string, runs: seq<Run>, c: Run, start: int, stop: int)
    requires Progress(scopeName, runs, Some(c), start, stop)
    ensures var rs := runs + [c];
            && (|rs| > 0 && rs[0].1 == start && rs[|rs| - 1].2 == stop - 1)
            && (forall k :: 0 <= k < |rs| - 1 ==> rs[k + 1].1 == rs[k].2 + 1)
            && (forall k :: 0 <= k < |rs| ==> rs[k].1 <= rs[k].2)
            && Constant(scopeName, rs) && Maximal(rs)
  {
    var rs := runs + [c];
    assert forall k :: 0 <= k < |runs| ==> rs[k] == runs[k];
    assert Constant(scopeName, rs) by {
      forall k, p | 0 <= k < |rs| && rs[k].1 <= p <= rs[k].2
        ensures scopeName(p) == rs[k].0
      {
        if k < |runs| {
          assert rs[k] == runs[k];
        }
      }
    }
  }

  /** One turn of the loop: the scope name at `pos` opens the first run,
      extends the open run, or closes it and opens the next. */
  method Advance(scopeName: int -> string, runs: seq<Run>, current: Option<Run>, start: int, pos: int)
    returns (runs': seq<Run>, current': Option<Run>)
    requires Progress(scopeName, runs, current, start, pos)
    ensures Progress(scopeName, runs', current', start, pos + 1)
  {
    var scope := scopeName(pos);
    if current.None? {
      FirstRun(scopeName, start);
      runs', current' := runs, Some((scope, pos, pos));
    } else if current.value.0 == scope {
      ExtendRun(scopeName, runs, current.value, start, pos);
      runs', current' := runs, Some((current.value.0, current.value.1, pos));
    } else {
      NewRun(scopeName, runs, current.value, start, pos);
      runs', current' := runs + [current.value], Some((scope, pos, pos));
    }
  }

  method GetScopes(scopeName: int -> string, start: int, stop: int) returns (runs: seq<Run>)
    ensures Tiles(runs, start, stop)
    ensures Constant(scopeName, runs)
    ensures Maximal(runs)
  {
    var current: Option<Run> := None;
    runs := [];
    var pos := start;
    while pos < stop
      invariant start < stop ==> start <= pos <= stop
      invariant start >= stop ==> pos == start && current.None?
      invariant Progress(scopeName, runs, current, start, pos)
      decreases stop - pos
    {
      runs, current := Advance(scopeName, runs, current, start, pos);
      pos := pos + 1;
    }
    if current.Some? {
      CloseRuns(scopeName, runs, current.value, start, stop);
      runs := runs + [current.value];
    }
  }

  /** No run reaches past `stop - 1`. */
  lemma {:induction false} RunsBelowStop(runs: seq<Run>, start: int, stop: int, k: nat)
    requires Tiles(runs, start, stop) && k < |runs|
    ensures runs[k].2 <= stop - 1
    decreases |runs| - k
  {
    if k < |runs| - 1 {
      RunsBelowStop(runs, start, stop, k + 1);
    }
  }

  predicate ValidRuns(scopeName: int -> string, runs: seq<Run>, start: int, stop: int)
  {
    Tiles(runs, start, stop) && Constant(scopeName, runs) && Maximal(runs)
  }

  /** A run that stops before `stop - 1` is followed by a position with a
      different scope name. */
  lemma RunEndsAtChange(scopeName: int -> string, runs: seq<Run>, start: int, stop: int, k: nat)
    requires ValidRuns(scopeName, runs, start, stop) && k < |runs|
    ensures runs[k].2 < stop - 1 ==> scopeName(runs[k].2 + 1) != runs[k].0
  {
    if k < |runs| - 1 {
      assert runs[k + 1].1 == runs[k].2 + 1 && runs[k + 1].1 <= runs[k + 1].2;
    }
  }

  /** Two valid run lists that agree on where run `k` starts agree on run `k`. */
  lemma SameRunAt(scopeName: int -> string, a: seq<Run>, b: seq<Run>, start: int, stop: int, k: nat)
    requires ValidRuns(scopeName, a, start, stop) && ValidRuns(scopeName, b, start, stop)
    requires k < |a| && k < |b| && a[k].1 == b[k].1
    ensures a[k] == b[k]
  {
    RunsBelowStop(a, start, stop, k);
    RunsBelowStop(b, start, stop, k);
    RunEndsAtChange(scopeName, a, start, stop, k);
    RunEndsAtChange(scopeName, b, start, stop, k);
    assert scopeName(a[k].1) == a[k].0 && scopeName(b[k].1) == b[k].0;
    assert a[k].1 <= a[k].2 + 1 && b[k].1 <= b[k].2 + 1;
  }

  lemma {:induction false} AgreeUpTo(scopeName: int -> string, a: seq<Run>, b: seq<Run>, start: int, stop: int, k: nat)
    requires ValidRuns(scopeName, a, start, stop) && ValidRuns(scopeName, b, start, stop)
    requires k < |a| && k < |b|
    ensures a[k] == b[k]
  {
    if k > 0 {
      AgreeUpTo(scopeName, a, b, start, stop, k - 1);
    }
    SameRunAt(scopeName, a, b, start, stop, k);
  }

  /** The three properties pin the runs down: any two lists that tile the
      range, are constant on each run and maximal are the same list, so the
      contract of `GetScopes` determines its result. */
  lemma RunsDetermined(scopeName: int -> string, a: seq<Run>, b: seq<Run>, start: int, stop: int)
    requires ValidRuns(scopeName, a, start, stop) && ValidRuns(scopeName, b, start, stop)
    ensures a == b
  {
    forall k | 0 <= k < |a| && k < |b|
      ensures a[k] == b[k]
    {
      AgreeUpTo(scopeName, a, b, start, stop, k);
    }
    if |a| < |b| {
      RunsBelowStop(b, start, stop, |a|);
      assert false;
    }
    if |b| < |a| {
      RunsBelowStop(a, start, stop, |b|);
      assert false;
    }
  }
}

=== FILE: span_tracker.dfy ===
/** The span tracker of `LocationAwareXMLParser` (lxml_parser.py:49-100).

    `feed` scans the carried-over remainder plus the new chunk for the control
    tokens `<![CDATA[`, `]]>`, `<` and `>` (the CDATA delimiters of section 2.7
    of XML 1.0 and the tag brackets), records for each match the span of the
    text before it and the span of the token itself, hands both pieces to the
    foreign XML parser, and keeps the unmatched tail for the next call. The
    foreign parser is modelled only by the log of strings handed to it. */
module SpanTracker {
  import opened Wrappers
  import opened Strings
  import opened Positions

  const CdataOpen: string := "<![CDATA["
  const CdataClose: string := "]]>"

  /** One of the four strings the split expression matches. */
  predicate IsToken(w: string)
  {
    w == CdataOpen || w == CdataClose || w == "<" || w == ">"
  }

  /** No tag bracket anywhere in `s`. */
  predicate NoAngle(s: string)
  {
    forall i :: 0 <= i < |s| ==> s[i] != '<' && s[i] != '>'
  }

  predicate HasAt(text: string, j: nat, w: string)
  {
    j + |w| <= |text| && text[j..j + |w|] == w
  }

  /** The length of the match of `<!\[CDATA\[|\]\]>|[<>]` starting exactly at
      `j`, trying the alternatives in the order written; 0 when none matches. */
  function TokenAt(text: string, j: nat): (n: nat)
    requires j < |text|
    ensures n > 0 ==> j + n <= |text| && IsToken(text[j..j + n])
    ensures n == 0 ==> text[j] != '<' && text[j] != '>'
  {
    if HasAt(text, j, CdataOpen) then |CdataOpen|
    else if HasAt(text, j, CdataClose) then |CdataClose|
    else if text[j] == '<' || text[j] == '>' then 1
    else 0
  }

  /** The leftmost match at or after `from`, as `(start, end)`. */
  function NextToken(text: string, from: nat): (r: Option<(nat, nat)>)
    requires from <= |text|
    ensures r.Some? ==> from <= r.value.0 < r.value.1 <= |text|
                        && TokenAt(text, r.value.0) == r.value.1 - r.value.0
    decreases |text| - from
  {
    if from == |text| then None
    else if TokenAt(text, from) > 0 then Some((from, from + TokenAt(text, from)))
    else NextToken(text, from + 1)
  }

  lemma MatchIsToken(text: string, s: nat, e: nat)
    requires s < e <= |text| && TokenAt(text, s) == e - s
    ensures IsToken(text[s..e])
  {
    var n := TokenAt(text, s);
    assert s + n == e;
  }

  /** Leftmost: no bracket lies between `from` and the match, or anywhere after
      `from` when there is no match. */
  lemma {:induction false} NextTokenIsLeftmost(text: string, from: nat)
    requires from <= |text|
    ensures var r := NextToken(text, from);
            && (r.Some? ==> NoAngle(text[from..r.value.0]))
            && (r.None? ==> NoAngle(text[from..]))
    decreases |text| - from
  {
    if from < |text| && TokenAt(text, from) == 0 {
      NextTokenIsLeftmost(text, from + 1);
      var r := NextToken(text, from + 1);
      assert NextToken(text, from) == r;
      if r.Some? {
        NoAngleStep(text, from, r.value.0);
      } else {
        assert text[from + 1..] == text[from + 1..|text|];
        NoAngleStep(text, from, |text|);
        assert text[from..] == text[from..|text|];
      }
    }
  }

  lemma NoAngleStep(text: string, from: nat, end: nat)
    requires from < end <= |text| && text[from] != '<' && text[from] != '>'
    requires NoAngle(text[from + 1..end])
    ensures NoAngle(text[from..end])
  {
    var w := text[from..end];
    forall i | 0 <= i < |w|
      ensures w[i] != '<' && w[i] != '>'
    {
      if i > 0 {
        assert w[i] == text[from + 1..end][i - 1];
      }
    }
  }

  /** The spans `ps` run without gap from offset `from` to offset `to`. */
  predicate Tiles(ps: seq<Span>, from: int, to: int)
  {
    && (|ps| == 0 ==> from == to)
    && (|ps| > 0 ==> ps[0].0 == from && ps[|ps| - 1].1 == to)
    && (forall i, j {:trigger ps[i], ps[j]} :: 0 <= i < |ps| && 0 <= j < |ps| && j == i + 1 ==> ps[i].1 == ps[j].0)
  }

  /** Span `k` is exactly as long as string `k`. */
  predicate Fits(ps: seq<Span>, ws: seq<string>)
  {
    |ps| == |ws| && forall k :: 0 <= k < |ps| ==> ps[k].1 - ps[k].0 == |ws[k]|
  }

  /** The text before each match contains no bracket and every match is a token:
      pieces alternate between text (even index) and token (odd index). */
  predicate Alternates(ws: seq<string>)
  {
    && |ws| % 2 == 0
    && (forall k :: 0 <= k < |ws| && k % 2 == 0 ==> NoAngle(ws[k]))
    && (forall k :: 0 <= k < |ws| && k % 2 == 1 ==> IsToken(ws[k]))
  }

  lemma TilesAppend(a: seq<Span>, b: seq<Span>, x: int, y: int, z: int)
    requires Tiles(a, x, y) && Tiles(b, y, z)
    ensures Tiles(a + b, x, z)
  {
    var c := a + b;
    forall i, j | 0 <= i && j == i + 1 && j < |c|
      ensures c[i].1 == c[j].0
    {
      if j < |a| {
        assert c[i] == a[i] && c[j] == a[j];
      } else if j == |a| {
        assert c[i] == a[i] && c[j] == b[0];
      } else {
        assert c[i] == b[i - |a|] && c[j] == b[j - |a|];
      }
    }
  }

  lemma TilesPair(a: int, b: int, c: int)
    ensures Tiles([(a, b), (b, c)], a, c)
  {
  }

  lemma FitsPair(a: int, b: int, c: int, x: string, y: string)
    requires |x| == b - a && |y| == c - b
    ensures Fits([(a, b), (b, c)], [x, y])
  {
  }

  lemma ConcatPair(a: string, b: string, rest: seq<string>)
    ensures Concat([a, b] + rest) == a + b + Concat(rest)
  {
    ConcatAppend([a, b], rest);
    assert [a, b][..1] == [a];
    assert [a][..0] == [];
    assert Concat([a]) == a;
    assert Concat([a, b]) == a + b;
  }

  lemma AlternatesCons(gap: string, tok: string, rest: seq<string>)
    requires NoAngle(gap) && IsToken(tok) && Alternates(rest)
    ensures Alternates([gap, tok] + rest)
  {
    var ws := [gap, tok] + rest;
    forall k | 2 <= k < |ws|
      ensures ws[k] == rest[k - 2] && k % 2 == (k - 2) % 2
    {
    }
  }

  lemma FitsAppend(a: seq<Span>, wa: seq<string>, b: seq<Span>, wb: seq<string>)
    requires Fits(a, wa) && Fits(b, wb)
    ensures Fits(a + b, wa + wb)
  {
    var c := a + b;
    var w := wa + wb;
    forall k | |a| <= k < |c|
      ensures c[k].1 - c[k].0 == |w[k]|
    {
      assert c[k] == b[k - |a|] && w[k] == wb[k - |a|];
    }
  }

  lemma AlternatesAppend(a: seq<string>, b: seq<string>)
    requires Alternates(a) && Alternates(b)
    ensures Alternates(a + b)
  {
    var c := a + b;
    forall k | |a| <= k < |c|
      ensures c[k] == b[k - |a|] && k % 2 == (k - |a|) % 2
    {
    }
  }

  lemma SplitWhole(s: string, i: nat)
    requires i <= |s|
    ensures s[0..i] + s[i..] == s
  {
  }

  lemma Assoc(a: string, b: string, c: string)
    ensures (a + b) + c == a + (b + c)
  {
  }

  lemma SliceSplit(s: string, i: nat, j: nat, k: nat)
    requires i <= j <= k <= |s|
    ensures s[i..k] == s[i..j] + s[j..k]
  {
  }

  lemma NoAngleConcat(a: string, b: string)
    requires NoAngle(a) && NoAngle(b)
    ensures NoAngle(a + b)
  {
    var c := a + b;
    forall i | 0 <= i < |c|
      ensures c[i] != '<' && c[i] != '>'
    {
      if i < |a| {
        assert c[i] == a[i];
      } else {
        assert c[i] == b[i - |a|];
      }
    }
  }

  /** The scan loop of `feed`: `search` is where `finditer` looks next and `co`
      is `chunk_offset`, the end of the previous match. Returns the spans
      recorded, the strings handed to the parser, and the final `chunk_offset`. */
  function Scan(offset: int, text: string, search: nat, co: nat): (r: (seq<Span>, seq<string>, nat))
    requires co <= search <= |text|
    ensures co <= r.2 <= |text| && |r.0| == |r.1|
    decreases |text| - search
  {
    match NextToken(text, search)
    case None => ([], [], co)
    case Some((s, e)) =>
      var rest := Scan(offset, text, e, e);
      ([(offset + co, offset + s), (offset + s, offset + e)] + rest.0, [text[co..s], text[s..e]] + rest.1, rest.2)
  }

  /** The spans of one scan run without gap from the first `chunk_offset` to the
      last one, each as long as the string handed to the parser for it. */
  lemma ScanTiles(offset: int, text: string, search: nat, co: nat)
    requires co <= search <= |text|
    ensures var r := Scan(offset, text, search, co);
            Tiles(r.0, offset + co, offset + r.2) && Fits(r.0, r.1)
  {
    ScanTilesOnly(offset, text, search, co);
    ScanFits(offset, text, search, co);
  }

  lemma {:induction false} ScanTilesOnly(offset: int, text: string, search: nat, co: nat)
    requires co <= search <= |text|
    ensures var r := Scan(offset, text, search, co);
            Tiles(r.0, offset + co, offset + r.2)
    decreases |text| - search
  {
    match NextToken(text, search)
    case None =>
    case Some((s, e)) =>
      ScanTilesOnly(offset, text, e, e);
      var rest := Scan(offset, text, e, e);
      TilesPair(offset + co, offset + s, offset + e);
      TilesAppend([(offset + co, offset + s), (offset + s, offset + e)], rest.0, offset + co, offset + e, offset + rest.2);
  }

  lemma {:induction false} ScanFits(offset: int, text: string, search: nat, co: nat)
    requires co <= search <= |text|
    ensures var r := Scan(offset, text, search, co);
            Fits(r.0, r.1)
    decreases |text| - search
  {
    match NextToken(text, search)
    case None =>
    case Some((s, e)) =>
      ScanFits(offset, text, e, e);
      var rest := Scan(offset, text, e, e);
      var spans := [(offset + co, offset + s), (offset + s, offset + e)];
      var pieces := [text[co..s], text[s..e]];
      assert Scan(offset, text, search, co) == (spans + rest.0, pieces + rest.1, rest.2);
      FitsPair(offset + co, offset + s, offset + e, text[co..s], text[s..e]);
      FitsAppend(spans, pieces, rest.0, rest.1);
  }

  /** The strings one scan hands to the parser concatenate to the text it
      consumed. */
  lemma {:induction false} ScanText(offset: int, text: string, search: nat, co: nat)
    requires co <= search <= |text|
    ensures var r := Scan(offset, text, search, co);
            Concat(r.1) == text[co..r.2]
    decreases |text| - search
  {
    match NextToken(text, search)
    case None =>
    case Some((s, e)) =>
      ScanText(offset, text, e, e);
      var rest := Scan(offset, text, e, e);
      ConcatPair(text[co..s], text[s..e], rest.1);
      SliceSplit(text, co, s, e);
      SliceSplit(text, co, e, rest.2);
  }

  /** Provided the carried-over text has no bracket, a scan hands text and token
      alternately to the parser and leaves a tail without brackets. */
  lemma {:induction false} ScanAlternates(offset: int, text: string, search: nat, co: nat)
    requires co <= search <= |text|
    requires NoAngle(text[co..search])
    ensures var r := Scan(offset, text, search, co);
            Alternates(r.1) && NoAngle(text[r.2..])
    decreases |text| - search
  {
    match NextToken(text, search)
    case None =>
      assert Scan(offset, text, search, co) == ([], [], co);
      NextTokenIsLeftmost(text, search);
      assert text[search..] == text[search..|text|];
      NoAngleConcat(text[co..search], text[search..|text|]);
      SliceSplit(text, co, search, |text|);
      assert text[co..] == text[co..|text|];
    case Some((s, e)) =>
      NextTokenIsLeftmost(text, search);
      assert NoAngle(text[e..e]);
      ScanAlternates(offset, text, e, e);
      var rest := Scan(offset, text, e, e);
      assert Scan(offset, text, search, co).1 == [text[co..s], text[s..e]] + rest.1;
      MatchIsToken(text, s, e);
      NoAngleConcat(text[co..search], text[search..s]);
      SliceSplit(text, co, search, s);
      AlternatesCons(text[co..s], text[s..e], rest.1);
  }

  /** The tracker's state: `_initial_position_offset`, `_position_offset`,
      `_remainder`, `_positions`, and the log of strings handed to the foreign
      parser through `_feed` (which `_reset` does not clear: the foreign parser
      object lives as long as the tracker). */
  datatype Tracker = Tracker(initial: int, offset: int, remainder: string, positions: seq<Span>, log: seq<string>)

  /** The strings handed to the parser since the last reset, one per span. */
  function Recent(t: Tracker): seq<string>
    requires |t.positions| <= |t.log|
  {
    t.log[|t.log| - |t.positions|..]
  }

  /** What every tracker reachable by `__init__`, `feed` and `close` satisfies. */
  predicate Valid(t: Tracker)
  {
    && |t.positions| <= |t.log|
    && Tiles(t.positions, t.initial, t.offset)
    && Fits(t.positions, Recent(t))
    && Alternates(Recent(t))
    && NoAngle(t.remainder)
  }

  /** The state `_reset` leaves: offset back at the initial offset, nothing
      carried over and no spans recorded. */
  predicate Fresh(t: Tracker)
  {
    t.offset == t.initial && t.remainder == "" && t.positions == []
  }

  /** `__init__(position_offset)`: a new tracker whose parser has seen nothing. */
  function Init(positionOffset: int): (t: Tracker)
    ensures Fresh(t) && Valid(t) && t.initial == positionOffset && t.log == []
  {
    Tracker(positionOffset, positionOffset, "", [], [])
  }

  /** The matches `feed(chunk)` records: the scan of the remainder plus the
      chunk, searching from the end of the old remainder. */
  function FeedScan(t: Tracker, chunk: string): (s: (seq<Span>, seq<string>, nat))
    ensures s.2 <= |t.remainder| + |chunk| && |s.0| == |s.1|
  {
    Scan(t.offset, t.remainder + chunk, |t.remainder|, 0)
  }

  /** `feed(chunk)`: every character goes either into a recorded span or into
      the remainder, so `_position_offset + len(_remainder)` grows by exactly
      the chunk's length; spans and parser log only grow, in step. */
  function Feed(t: Tracker, chunk: string): (r: Tracker)
    ensures r.initial == t.initial
    ensures r.offset + |r.remainder| == t.offset + |t.remainder| + |chunk|
    ensures r.offset >= t.offset
    ensures r.positions == t.positions + FeedScan(t, chunk).0
    ensures r.log == t.log + FeedScan(t, chunk).1
  {
    var s := FeedScan(t, chunk);
    Tracker(t.initial, t.offset + s.2, (t.remainder + chunk)[s.2..], t.positions + s.0, t.log + s.1)
  }

  /** What `feed` hands to the parser, followed by the new remainder, is the
      old remainder followed by the chunk. */
  lemma FeedText(t: Tracker, chunk: string)
    requires |t.positions| <= |t.log|
    ensures var r := Feed(t, chunk);
            Concat(Recent(r)) + r.remainder == Concat(Recent(t)) + t.remainder + chunk
  {
    var text := t.remainder + chunk;
    var s := FeedScan(t, chunk);
    var r := Feed(t, chunk);
    assert r.remainder == text[s.2..];
    ScanText(t.offset, text, |t.remainder|, 0);
    assert Concat(s.1) == text[0..s.2];
    RecentExtends(t, r, s.0, s.1);
    ConcatAppend(Recent(t), s.1);
    SplitWhole(text, s.2);
    var a := Concat(Recent(t));
    Assoc(a, text[0..s.2], r.remainder);
    Assoc(a, t.remainder, chunk);
  }

  lemma FeedKeepsTiles(t: Tracker, chunk: string)
    requires Tiles(t.positions, t.initial, t.offset)
    ensures var r := Feed(t, chunk);
            Tiles(r.positions, r.initial, r.offset)
  {
    var s := FeedScan(t, chunk);
    ScanTiles(t.offset, t.remainder + chunk, |t.remainder|, 0);
    TilesAppend(t.positions, s.0, t.initial, t.offset, t.offset + s.2);
  }

  lemma FeedKeepsFits(t: Tracker, chunk: string)
    requires |t.positions| <= |t.log| && Fits(t.positions, Recent(t))
    ensures var r := Feed(t, chunk);
            |r.positions| <= |r.log| && Fits(r.positions, Recent(r))
  {
    var s := FeedScan(t, chunk);
    var r := Feed(t, chunk);
    ScanTiles(t.offset, t.remainder + chunk, |t.remainder|, 0);
    RecentExtends(t, r, s.0, s.1);
    FitsAppend(t.positions, Recent(t), s.0, s.1);
  }

  lemma FeedKeepsAlternates(t: Tracker, chunk: string)
    requires |t.positions| <= |t.log| && Alternates(Recent(t)) && NoAngle(t.remainder)
    ensures var r := Feed(t, chunk);
            |r.positions| <= |r.log| && Alternates(Recent(r)) && NoAngle(r.remainder)
  {
    var s := FeedScan(t, chunk);
    var r := Feed(t, chunk);
    PrefixOfAppend(t.remainder, chunk);
    ScanAlternates(t.offset, t.remainder + chunk, |t.remainder|, 0);
    RecentExtends(t, r, s.0, s.1);
    AlternatesAppend(Recent(t), s.1);
  }

  /** `feed` keeps the tracker's invariant: contiguous spans from the initial
      offset, text and token pieces alternating, and no bracket left in the
      remainder. */
  lemma FeedKeepsValid(t: Tracker, chunk: string)
    requires Valid(t)
    ensures Valid(Feed(t, chunk))
  {
    FeedKeepsTiles(t, chunk);
    FeedKeepsFits(t, chunk);
    FeedKeepsAlternates(t, chunk);
  }

  lemma PrefixOfAppend(a: string, b: string)
    ensures (a + b)[0..|a|] == a
  {
  }

  lemma RecentExtends(t: Tracker, r: Tracker, ps: seq<Span>, ws: seq<string>)
    requires |t.positions| <= |t.log| && |ps| == |ws|
    requires r.positions == t.positions + ps && r.log == t.log + ws
    ensures |r.positions| <= |r.log| && Recent(r) == Recent(t) + ws
  {
  }

  /** `close()`: one final span over the remainder, the remainder handed to the
      parser, then `_reset`. Returns the complete span list of the document
      together with the reset tracker. */
  function Close(t: Tracker): (r: (seq<Span>, Tracker))
    ensures Fresh(r.1) && r.1.initial == t.initial
    ensures r.1.log == t.log + [t.remainder]
    ensures r.0 == t.positions + [(t.offset, t.offset + |t.remainder|)]
    ensures Valid(r.1)
  {
    (t.positions + [(t.offset, t.offset + |t.remainder|)], Tracker(t.initial, t.initial, "", [], t.log + [t.remainder]))
  }

  /** The final span of `close` continues the recorded ones without gap. */
  lemma CloseTiles(t: Tracker)
    requires Valid(t)
    ensures Tiles(Close(t).0, t.initial, t.offset + |t.remainder|)
    ensures Fits(Close(t).0, Recent(t) + [t.remainder])
  {
    var last := (t.offset, t.offset + |t.remainder|);
    TilesAppend(t.positions, [last], t.initial, t.offset, t.offset + |t.remainder|);
  }

  /** A sequence of `feed` calls. */
  function FeedAll(t: Tracker, chunks: seq<string>): (r: Tracker)
    ensures r.initial == t.initial
    ensures |r.log| - |t.log| == |r.positions| - |t.positions| >= 0
    decreases |chunks|
  {
    if |chunks| == 0 then t else Feed(FeedAll(t, chunks[..|chunks| - 1]), chunks[|chunks| - 1])
  }

  lemma {:induction false} FeedAllKeepsValid(t: Tracker, chunks: seq<string>)
    requires Valid(t)
    ensures Valid(FeedAll(t, chunks))
    decreases |chunks|
  {
    if |chunks| > 0 {
      FeedAllKeepsValid(t, chunks[..|chunks| - 1]);
      FeedKeepsValid(FeedAll(t, chunks[..|chunks| - 1]), chunks[|chunks| - 1]);
    }
  }

  lemma {:induction false} FeedAllText(t: Tracker, chunks: seq<string>)
    requires |t.positions| <= |t.log|
    ensures var r := FeedAll(t, chunks);
            && |r.positions| <= |r.log|
            && Concat(Recent(r)) + r.remainder == Concat(Recent(t)) + t.remainder + Concat(chunks)
    decreases |chunks|
  {
    if |chunks| > 0 {
      var init := chunks[..|chunks| - 1];
      var c := chunks[|chunks| - 1];
      FeedAllText(t, init);
      var p := FeedAll(t, init);
      FeedText(p, c);
      Assoc(Concat(Recent(t)) + t.remainder, Concat(init), c);
    }
  }

  lemma {:induction false} FeedAllLog(t: Tracker, chunks: seq<string>)
    ensures var r := FeedAll(t, chunks);
            r.log[..|t.log|] == t.log && r.positions[..|t.positions|] == t.positions
    decreases |chunks|
  {
    if |chunks| > 0 {
      var init := chunks[..|chunks| - 1];
      FeedAllLog(t, init);
      var p := FeedAll(t, init);
      var r := Feed(p, chunks[|chunks| - 1]);
      PrefixOfPrefix(p.log, FeedScan(p, chunks[|chunks| - 1]).1, t.log);
      PrefixOfPrefix(p.positions, FeedScan(p, chunks[|chunks| - 1]).0, t.positions);
    }
  }

  lemma PrefixOfPrefix<T>(a: seq<T>, b: seq<T>, c: seq<T>)
    requires |c| <= |a| && a[..|c|] == c
    ensures (a + b)[..|c|] == c
  {
    assert (a + b)[..|c|] == a[..|c|];
  }

  /** Conservation over any number of `feed` calls from a fresh tracker:
      `_position_offset + len(_remainder)` is the initial offset plus the number
      of characters fed, and the strings handed to the parser since the reset,
      followed by the remainder, are exactly the chunks fed. */
  lemma FeedAllConserves(t: Tracker, chunks: seq<string>)
    requires Fresh(t) && Valid(t)
    ensures var r := FeedAll(t, chunks);
            && Valid(r)
            && r.offset + |r.remainder| == t.initial + |Concat(chunks)|
            && Concat(Recent(r)) + r.remainder == Concat(chunks)
            && r.log[..|t.log|] == t.log
            && Recent(r) == r.log[|t.log|..]
  {
    var r := FeedAll(t, chunks);
    FeedAllKeepsValid(t, chunks);
    FeedAllText(t, chunks);
    FeedAllLog(t, chunks);
    assert Recent(t) == [];
    TiledLength(r.positions, Recent(r), r.initial, r.offset);
  }

  /** The concatenation of the strings up to span `k` is as long as the
      distance from the first offset to where span `k` starts. */
  lemma {:induction false} TiledLength(ps: seq<Span>, ws: seq<string>, from: int, to: int)
    requires Tiles(ps, from, to) && Fits(ps, ws)
    ensures |Concat(ws)| == to - from
    decreases |ws|
  {
    if |ws| > 0 {
      var n := |ws| - 1;
      assert Tiles(ps[..n], from, ps[n].0);
      TiledLength(ps[..n], ws[..n], from, ps[n].0);
    }
  }

  /** Every recorded span locates, inside the concatenated text, exactly the
      string that was handed to the parser for it. */
  lemma {:induction false} SpansLocateText(ps: seq<Span>, ws: seq<string>, from: int, to: int, k: nat)
    requires Tiles(ps, from, to) && Fits(ps, ws) && k < |ps|
    ensures 0 <= ps[k].0 - from <= ps[k].1 - from <= |Concat(ws)|
    ensures Concat(ws)[ps[k].0 - from..ps[k].1 - from] == ws[k]
    decreases |ws|
  {
    var n := |ws| - 1;
    assert Tiles(ps[..n], from, ps[n].0);
    TiledLength(ps[..n], ws[..n], from, ps[n].0);
    TiledLength(ps, ws, from, to);
    if k < n {
      SpansLocateText(ps[..n], ws[..n], from, ps[n].0, k);
      assert Concat(ws) == Concat(ws[..n]) + ws[n];
    }
  }

  /** Each span, taken relative to `from`, cuts string `k` out of `text`. */
  predicate Locates(ps: seq<Span>, ws: seq<string>, from: int, text: string)
    requires |ps| == |ws|
  {
    forall k :: 0 <= k < |ps| ==>
      0 <= ps[k].0 - from <= ps[k].1 - from <= |text|
      && text[ps[k].0 - from..ps[k].1 - from] == ws[k]
  }

  /** Every span of a tiling, at once. */
  lemma SpansLocateAll(ps: seq<Span>, ws: seq<string>, from: int, to: int)
    requires Tiles(ps, from, to) && Fits(ps, ws)
    ensures Locates(ps, ws, from, Concat(ws))
  {
    forall k | 0 <= k < |ps|
      ensures 0 <= ps[k].0 - from <= ps[k].1 - from <= |Concat(ws)|
      ensures Concat(ws)[ps[k].0 - from..ps[k].1 - from] == ws[k]
    {
      SpansLocateText(ps, ws, from, to, k);
    }
  }

  lemma ConcatSingle(w: string)
    ensures Concat([w]) == w
  {
    assert [w][..0] == [];
  }

  /** What `close` hands to the parser, after the strings since the reset, is
      the remainder; together they are the chunks fed. */
  lemma {:induction false} ClosePieces(t: Tracker, chunks: seq<string>)
    requires Fresh(t) && Valid(t)
    ensures var r := FeedAll(t, chunks);
            var c := Close(r);
            && |c.1.log| >= |t.log|
            && c.1.log[|t.log|..] == Recent(r) + [r.remainder]
            && c.1.log[..|t.log|] == t.log
            && Concat(Recent(r) + [r.remainder]) == Concat(chunks)
            && Tiles(c.0, t.initial, t.initial + |Concat(chunks)|)
            && Fits(c.0, Recent(r) + [r.remainder])
  {
    FeedAllConserves(t, chunks);
    var r := FeedAll(t, chunks);
    CloseTiles(r);
    ConcatAppend(Recent(r), [r.remainder]);
    ConcatSingle(r.remainder);
    LogAfterClose(r.log, r.remainder, t.log);
  }

  lemma LogAfterClose(log: seq<string>, rem: string, prefix: seq<string>)
    requires |prefix| <= |log| && log[..|prefix|] == prefix
    ensures (log + [rem])[..|prefix|] == prefix
    ensures (log + [rem])[|prefix|..] == log[|prefix|..] + [rem]
  {
    assert (log + [rem])[..|prefix|] == log[..|prefix|];
  }

  /** A whole document: feeding the chunks and closing yields spans that tile
      the document from the initial offset to the initial offset plus its
      length, each locating exactly the piece handed to the parser; the pieces
      concatenate to exactly the chunks fed; and the tracker is fresh again. */
  lemma {:induction false} DocumentSpans(t: Tracker, chunks: seq<string>)
    requires Fresh(t) && Valid(t)
    ensures var c := Close(FeedAll(t, chunks));
            && |c.1.log| >= |t.log|
            && var pieces := c.1.log[|t.log|..];
            && Fresh(c.1) && Valid(c.1) && c.1.initial == t.initial
            && c.1.log[..|t.log|] == t.log
            && Concat(pieces) == Concat(chunks)
            && Tiles(c.0, t.initial, t.initial + |Concat(chunks)|)
            && Fits(c.0, pieces)
            && Locates(c.0, pieces, t.initial, Concat(chunks))
  {
    var r := FeedAll(t, chunks);
    var c := Close(r);
    FeedAllKeepsValid(t, chunks);
    ClosePieces(t, chunks);
    var pieces := Recent(r) + [r.remainder];
    assert c.1.log[|t.log|..] == pieces;
    SpansLocateAll(c.0, pieces, t.initial, t.initial + |Concat(chunks)|);
  }

  /** `getLocation(index)`: a `TagPos` from `_positions[index]` to
      `_positions[-1]`, with Python's negative indexing; `None` where Python
      raises `IndexError`. */
  function GetLocation(positions: seq<Span>, index: int): (r: Option<TagPos>)
    ensures r.Some? <==> -|positions| <= index < |positions|
    ensures r.Some? ==> r.value.endPos == positions[|positions| - 1]
                        && r.value.startPos == positions[if index < 0 then |positions| + index else index]
  {
    if -|positions| <= index < |positions| then
      var i := if index < 0 then |positions| + index else index;
      Some(TagPos(positions[i], positions[|positions| - 1]))
    else None
  }

  /** The default location (`index = -3`) taken after a `feed` starts at a
      control token and ends at the latest control token, and covers exactly
      those two tokens and the text between them. */
  lemma DefaultLocationFramesTokens(t: Tracker)
    requires Valid(t) && |t.positions| >= 3
    ensures var n := |t.positions|;
            var rec := Recent(t);
            var loc := GetLocation(t.positions, -3);
            && loc.Some?
            && IsToken(rec[n - 3]) && NoAngle(rec[n - 2]) && IsToken(rec[n - 1])
            && Range(loc.value).1 - Range(loc.value).0 == |rec[n - 3] + rec[n - 2] + rec[n - 1]|
  {
    var n := |t.positions|;
    assert (n - 3) % 2 == 1 && (n - 2) % 2 == 0 && (n - 1) % 2 == 1;
  }

  /** The location handed with character data (`index = -1`) is the latest
      recorded span, which after a `feed` is a control token. */
  lemma DataLocationIsToken(t: Tracker)
    requires Valid(t) && |t.positions| >= 1
    ensures var n := |t.positions|;
            var loc := GetLocation(t.positions, -1);
            && loc.Some? && loc.value.startPos == loc.value.endPos == t.positions[n - 1]
            && IsToken(Recent(t)[n - 1])
  {
    assert (|t.positions| - 1) % 2 == 1;
  }
}

=== FILE: strings.dfy ===
/** Python string primitives the model relies on: concatenation of a list of
    strings, `str()` of an integer, `str.startswith`, `str.strip` with Python's
    whitespace set, and `str.join`. */
module Strings {

  /** `''.join(ws)` */
  function Concat(ws: seq<string>): string
  {
    if |ws| == 0 then "" else Concat(ws[..|ws| - 1]) + ws[|ws| - 1]
  }

  lemma {:induction false} ConcatAppend(a: seq<string>, b: seq<string>)
    ensures Concat(a + b) == Concat(a) + Concat(b)
    decreases |b|
  {
    if |b| == 0 {
      assert a + b == a;
    } else {
      var init := b[..|b| - 1];
      var last := b[|b| - 1];
      assert (a + b)[..|a + b| - 1] == a + init;
      assert (a + b)[|a + b| - 1] == last;
      ConcatAppend(a, init);
      AppendAssociative(Concat(a), Concat(init), last);
    }
  }

  lemma AppendAssociative(x: string, y: string, z: string)
    ensures (x + y) + z == x + (y + z)
  {
  }

  /** The total length of a list of strings. */
  function TotalLength(ws: seq<string>): nat
  {
    if |ws| == 0 then 0 else TotalLength(ws[..|ws| - 1]) + |ws[|ws| - 1]|
  }

  lemma {:induction false} ConcatLength(ws: seq<string>)
    ensures |Concat(ws)| == TotalLength(ws)
  {
    if |ws| > 0 {
      ConcatLength(ws[..|ws| - 1]);
    }
  }

  // ---------------------------------------------------------------------------
  // Decimal rendering, as Python's str() of an int

  predicate IsDigit(c: char)
  {
    '0' <= c <= '9'
  }

  function DigitChar(d: nat): (c: char)
    requires d < 10
    ensures IsDigit(c)
  {
    ('0' as int + d) as char
  }

  function DigitValue(c: char): nat
  {
    if IsDigit(c) then (c as int - '0' as int) as nat else 0
  }

  lemma DigitRoundTrip(d: nat)
    requires d < 10
    ensures DigitValue(DigitChar(d)) == d
  {
  }

  /** The decimal digits of `n`, most significant first, without leading zeros. */
  function NatToString(n: nat): (s: string)
    ensures |s| > 0
    ensures forall i :: 0 <= i < |s| ==> IsDigit(s[i])
  {
    if n < 10 then [DigitChar(n)] else NatToString(n / 10) + [DigitChar(n % 10)]
  }

  /** Reads a string of decimal digits back into a number. */
  function ParseDigits(s: string): nat
  {
    if |s| == 0 then 0 else ParseDigits(s[..|s| - 1]) * 10 + DigitValue(s[|s| - 1])
  }

  /** Reading back the decimal rendering gives the number again. */
  lemma {:induction false} ParseNatToString(n: nat)
    ensures ParseDigits(NatToString(n)) == n
  {
    if n < 10 {
      DigitRoundTrip(n);
    } else {
      var s := NatToString(n);
      assert s[..|s| - 1] == NatToString(n / 10);
      ParseNatToString(n / 10);
      DigitRoundTrip(n % 10);
    }
  }

  /** `str(i)` for a Python int: a minus sign before the digits of a negative number. */
  function IntToString(i: int): (s: string)
    ensures |s| > 0
    ensures i >= 0 ==> s == NatToString(i)
  {
    if i < 0 then "-" + NatToString(-i) else NatToString(i)
  }

  lemma SignChar(i: int)
    ensures (IntToString(i)[0] == '-') == (i < 0)
  {
    if i >= 0 {
      assert IsDigit(NatToString(i)[0]);
    }
  }

  /** Distinct numbers render as distinct strings. */
  lemma IntToStringInjective(i: int, j: int)
    requires IntToString(i) == IntToString(j)
    ensures i == j
  {
    SignChar(i);
    SignChar(j);
    if i < 0 {
      NegativeDigits(i);
      NegativeDigits(j);
      NatToStringInjective(-i, -j);
    } else {
      NatToStringInjective(i, j);
    }
  }

  lemma NatToStringInjective(a: nat, b: nat)
    requires NatToString(a) == NatToString(b)
    ensures a == b
  {
    ParseNatToString(a);
    ParseNatToString(b);
  }

  lemma NegativeDigits(i: int)
    requires i < 0
    ensures NatToString(-i) == IntToString(i)[1..]
  {
  }

  function Pow10(k: nat): (p: nat)
    ensures p >= 1
  {
    if k == 0 then 1 else 10 * Pow10(k - 1)
  }

  lemma {:induction false} Pow10Monotone(a: nat, b: nat)
    requires a <= b
    ensures Pow10(a) <= Pow10(b)
    decreases b - a
  {
    if a < b {
      Pow10Monotone(a, b - 1);
    }
  }

  /** A rendering of at most `k` digits stands for a number below 10^k. */
  lemma {:induction false} NatToStringBound(n: nat)
    ensures n < Pow10(|NatToString(n)|)
  {
    if n >= 10 {
      NatToStringBound(n / 10);
      var p := Pow10(|NatToString(n / 10)|);
      assert |NatToString(n)| == |NatToString(n / 10)| + 1;
      assert n / 10 + 1 <= p;
      assert n < 10 * (n / 10 + 1);
      assert 10 * (n / 10 + 1) <= 10 * p;
    }
  }

  // ---------------------------------------------------------------------------
  // Prefixes, whitespace, strip, join

  predicate StartsWith(s: string, prefix: string)
  {
    |prefix| <= |s| && s[..|prefix|] == prefix
  }

  /** Python's `str.isspace()` set: the characters that `str.strip()` removes. */
  predicate IsWhitespace(c: char)
  {
    c == ' ' || ('\t' <= c <= '\r') || ('\U{1C}' <= c <= '\U{1F}')
    || c == '\U{85}' || c == '\U{A0}' || c == '\U{1680}' || ('\U{2000}' <= c <= '\U{200A}')
    || c == '\U{2028}' || c == '\U{2029}' || c == '\U{202F}' || c == '\U{205F}' || c == '\U{3000}'
  }

  predicate AllWhitespace(s: string)
  {
    forall i :: 0 <= i < |s| ==> IsWhitespace(s[i])
  }

  function StripLeft(s: string): (r: string)
    ensures |r| <= |s| && r == s[|s| - |r|..]
    ensures AllWhitespace(s[..|s| - |r|])
    ensures |r| > 0 ==> !IsWhitespace(r[0])
  {
    if |s| > 0 && IsWhitespace(s[0]) then StripLeft(s[1..]) else s
  }

  function StripRight(s: string): (r: string)
    ensures |r| <= |s| && r == s[..|r|]
    ensures AllWhitespace(s[|r|..])
    ensures |r| > 0 ==> !IsWhitespace(r[|r| - 1])
  {
    if |s| > 0 && IsWhitespace(s[|s| - 1]) then StripRight(s[..|s| - 1]) else s
  }

  /** `s.strip()`: `s` without its leading and trailing whitespace. */
  function Strip(s: string): (r: string)
  {
    StripRight(StripLeft(s))
  }

  /** What strip keeps is a slice of the input bounded by non-whitespace, and
      everything it cuts off is whitespace. */
  lemma StripSlice(s: string)
    ensures exists i, j ::
              0 <= i <= j <= |s| && Strip(s) == s[i..j] && AllWhitespace(s[..i]) && AllWhitespace(s[j..])
    ensures |Strip(s)| > 0 ==> !IsWhitespace(Strip(s)[0]) && !IsWhitespace(Strip(s)[|Strip(s)| - 1])
  {
    StripCuts(s);
    StripEnds(s);
  }

  lemma StripCuts(s: string)
    ensures exists i, j ::
              0 <= i <= j <= |s| && Strip(s) == s[i..j] && AllWhitespace(s[..i]) && AllWhitespace(s[j..])
  {
    var l := StripLeft(s);
    var r := StripRight(l);
    var i := |s| - |l|;
    var j := i + |r|;
    assert Strip(s) == r;
    assert l == s[i..] && r == l[..|r|];
    assert r == s[i..j];
    assert s[j..] == l[|r|..];
    assert 0 <= i <= j <= |s| && r == s[i..j] && AllWhitespace(s[..i]) && AllWhitespace(s[j..]);
  }

  lemma StripEnds(s: string)
    ensures |Strip(s)| > 0 ==> !IsWhitespace(Strip(s)[0]) && !IsWhitespace(Strip(s)[|Strip(s)| - 1])
  {
    var l := StripLeft(s);
    var r := StripRight(l);
    assert Strip(s) == r;
    if |r| > 0 {
      assert !IsWhitespace(r[|r| - 1]);
      assert r == l[..|r|];
      assert r[0] == l[0];
      assert !IsWhitespace(r[0]);
    }
  }

  /** `s.strip() == ''` exactly when every character of `s` is whitespace. */
  lemma StripEmptyIffBlank(s: string)
    ensures Strip(s) == "" <==> AllWhitespace(s)
  {
    var l := StripLeft(s);
    assert |l| > 0 ==> l[0] == s[|s| - |l|];
    if Strip(s) == "" {
      assert AllWhitespace(l) by {
        assert l[|StripRight(l)|..] == l;
      }
      assert |l| == 0;
      assert s[..|s| - |l|] == s;
    }
  }

  /** `sep.join(parts)` */
  function Join(sep: string, parts: seq<string>): string
  {
    if |parts| == 0 then ""
    else if |parts| == 1 then parts[0]
    else parts[0] + sep + Join(sep, parts[1..])
  }
}

=== FILE: tree_builder.dfy ===
/** The tree builder `LocationAwareTreeBuilder` (lxml_parser.py:124-208),
    driven by an abstract sequence of parser events.

    The document is an arena: `all` is `_all_elements`, a node's id is its
    index there (creation order), and each node records its parent id. The
    top level is kept as the prolog (nodes buffered until the root arrives),
    the root, and the epilog (nodes appended after the root); the element
    stack, the pending-text buffer, `_most_recent` and `_in_tail` are explicit. */
module TreeBuilder {
  import opened Wrappers
  import opened Strings
  import opened Positions

  /** What a node is: an element with its tag, attributes and namespace map,
      a comment, or a processing instruction. */
  datatype Kind =
    | ElementKind(tag: string, attrib: seq<(string, string)>, nsmap: seq<(Option<string>, string)>)
    | CommentKind(content: string)
    | PIKind(target: string, data: string)

  /** A node record: the positions the builder attaches (`open_tag_pos`,
      `close_tag_pos` for elements, `tag_pos` for comments and processing
      instructions), `.text`, `.tail`, and the parent's id (`None` at top level). */
  datatype Node = Node(kind: Kind, openPos: Option<TagPos>, closePos: Option<TagPos>, tagPos: Option<TagPos>,
                       text: Option<string>, tail: Option<string>, parent: Option<nat>)

  function NewNode(k: Kind): Node
  {
    Node(k, None, None, None, None, None, None)
  }

  /** `_all_namespaces`: prefix (`None` for the default namespace) to the URIs
      declared for it, in document order. */
  type Namespaces = seq<(Option<string>, seq<string>)>

  datatype Builder = Builder(
    all: seq<Node>,
    stack: seq<nat>,
    text: seq<string>,
    mostRecent: Option<nat>,
    inTail: Option<bool>,
    namespaces: Namespaces,
    prolog: seq<nat>,
    root: Option<nat>,
    epilog: seq<nat>)

  /** The state `_reset` leaves. */
  function Empty(): Builder
  {
    Builder([], [], [], None, None, [], [], None, [])
  }

  // ---------------------------------------------------------------------------
  // Namespace bookkeeping (lxml_parser.py:148-151)

  predicate Distinct<T(==)>(s: seq<T>)
  {
    forall i, j :: 0 <= i < j < |s| ==> s[i] != s[j]
  }

  predicate KeysDistinct(ns: Namespaces)
  {
    forall i, j :: 0 <= i < j < |ns| ==> ns[i].0 != ns[j].0
  }

  predicate ListsDistinct(ns: Namespaces)
  {
    forall i :: 0 <= i < |ns| ==> Distinct(ns[i].1)
  }

  /** URI `u` is recorded for prefix `p`. */
  predicate Has(ns: Namespaces, p: Option<string>, u: string)
  {
    exists i :: 0 <= i < |ns| && ns[i].0 == p && u in ns[i].1
  }

  /** The entry of prefix `p`, if any. */
  function KeyIndex(ns: Namespaces, p: Option<string>): (r: Option<nat>)
    ensures r.Some? ==> r.value < |ns| && ns[r.value].0 == p
    ensures r.None? ==> forall i :: 0 <= i < |ns| ==> ns[i].0 != p
  {
    if |ns| == 0 then None
    else if ns[|ns| - 1].0 == p then Some(|ns| - 1)
    else KeyIndex(ns[..|ns| - 1], p)
  }

  /** `setdefault(prefix, [])`, then append the URI unless already listed. */
  function AddNamespace(ns: Namespaces, p: Option<string>, u: string): Namespaces
  {
    match KeyIndex(ns, p)
    case None => ns + [(p, [u])]
    case Some(i) => if u in ns[i].1 then ns else ns[i := (p, ns[i].1 + [u])]
  }

  /** The loop over the new element's namespace map, in its order. */
  function MergeNamespaces(ns: Namespaces, nsmap: seq<(Option<string>, string)>): Namespaces
    decreases |nsmap|
  {
    if |nsmap| == 0 then ns
    else
      var last := nsmap[|nsmap| - 1];
      AddNamespace(MergeNamespaces(ns, nsmap[..|nsmap| - 1]), last.0, last.1)
  }

  /** Existing entries keep their place and only grow. */
  predicate Extends(ns: Namespaces, r: Namespaces)
  {
    |ns| <= |r| && forall i :: 0 <= i < |ns| ==> r[i].0 == ns[i].0 && |ns[i].1| <= |r[i].1| && r[i].1[..|ns[i].1|] == ns[i].1
  }

  lemma AddNamespaceSpec(ns: Namespaces, p: Option<string>, u: string)
    requires KeysDistinct(ns) && ListsDistinct(ns)
    ensures var r := AddNamespace(ns, p, u);
            && KeysDistinct(r) && ListsDistinct(r) && Extends(ns, r)
            && Has(r, p, u)
            && forall q, v :: Has(r, q, v) <==> Has(ns, q, v) || (q == p && v == u)
  {
    var r := AddNamespace(ns, p, u);
    match KeyIndex(ns, p)
    case None =>
      assert r[|ns|].0 == p && u in r[|ns|].1;
      forall q, v | Has(r, q, v)
        ensures Has(ns, q, v) || (q == p && v == u)
      {
        var i :| 0 <= i < |r| && r[i].0 == q && v in r[i].1;
        if i < |ns| {
          assert ns[i] == r[i];
        }
      }
      forall q, v | Has(ns, q, v)
        ensures Has(r, q, v)
      {
        var i :| 0 <= i < |ns| && ns[i].0 == q && v in ns[i].1;
        assert r[i] == ns[i];
      }
    case Some(k) =>
      if u !in ns[k].1 {
        assert r[k].0 == p && u in r[k].1;
        forall q, v | Has(r, q, v)
          ensures Has(ns, q, v) || (q == p && v == u)
        {
          var i :| 0 <= i < |r| && r[i].0 == q && v in r[i].1;
          if i != k {
            assert ns[i] == r[i];
          } else if v != u {
            assert v in ns[k].1;
          }
        }
        forall q, v | Has(ns, q, v)
          ensures Has(r, q, v)
        {
          var i :| 0 <= i < |ns| && ns[i].0 == q && v in ns[i].1;
          assert v in r[i].1;
        }
        assert Distinct(r[k].1);
        assert r[k].1[..|ns[k].1|] == ns[k].1;
      }
  }

  /** Merging a namespace map keeps every prefix once, every URI list free of
      repetitions, and every existing entry in place. */
  lemma {:induction false} MergeNamespacesShape(ns: Namespaces, nsmap: seq<(Option<string>, string)>)
    requires KeysDistinct(ns) && ListsDistinct(ns)
    ensures var r := MergeNamespaces(ns, nsmap);
            KeysDistinct(r) && ListsDistinct(r) && Extends(ns, r)
    decreases |nsmap|
  {
    if |nsmap| > 0 {
      var init := nsmap[..|nsmap| - 1];
      var last := nsmap[|nsmap| - 1];
      MergeNamespacesShape(ns, init);
      var m := MergeNamespaces(ns, init);
      AddNamespaceSpec(m, last.0, last.1);
      ExtendsTrans(ns, m, AddNamespace(m, last.0, last.1));
    }
  }

  /** Merging a namespace map records exactly its pairs besides the old ones. */
  lemma {:induction false} MergeNamespacesHas(ns: Namespaces, nsmap: seq<(Option<string>, string)>)
    requires KeysDistinct(ns) && ListsDistinct(ns)
    ensures var r := MergeNamespaces(ns, nsmap);
            forall q, v :: Has(r, q, v) <==> Has(ns, q, v) || (q, v) in nsmap
    decreases |nsmap|
  {
    if |nsmap| > 0 {
      var init := nsmap[..|nsmap| - 1];
      var last := nsmap[|nsmap| - 1];
      MergeNamespacesHas(ns, init);
      var m := MergeNamespaces(ns, init);
      var r := AddNamespace(m, last.0, last.1);
      assert MergeNamespaces(ns, nsmap) == r;
      assert KeysDistinct(m) && ListsDistinct(m) by {
        MergeNamespacesShape(ns, init);
      }
      assert forall q, v :: Has(r, q, v) <==> Has(m, q, v) || (q == last.0 && v == last.1) by {
        AddNamespaceSpec(m, last.0, last.1);
      }
      forall q, v
        ensures Has(r, q, v) <==> Has(ns, q, v) || (q, v) in nsmap
      {
        assert Has(r, q, v) <==> Has(m, q, v) || (q == last.0 && v == last.1);
        assert Has(m, q, v) <==> Has(ns, q, v) || (q, v) in init;
        InInitOrLast(nsmap, (q, v));
      }
    }
  }

  lemma InInitOrLast<T>(s: seq<T>, x: T)
    requires |s| > 0
    ensures x in s <==> x in s[..|s| - 1] || x == s[|s| - 1]
  {
    assert s == s[..|s| - 1] + [s[|s| - 1]];
  }

  lemma ExtendsTrans(a: Namespaces, b: Namespaces, c: Namespaces)
    requires Extends(a, b) && Extends(b, c)
    ensures Extends(a, c)
  {
    forall i | 0 <= i < |a|
      ensures c[i].1[..|a[i].1|] == a[i].1
    {
      assert c[i].1[..|b[i].1|][..|a[i].1|] == c[i].1[..|a[i].1|];
    }
  }

  // ---------------------------------------------------------------------------
  // The builder operations

  /** `_flush` is defined: it dereferences `_most_recent` whenever the buffered
      text is not blank, so that text must not arrive before the first node. */
  predicate FlushDefined(b: Builder)
  {
    !(|b.text| > 0 && b.mostRecent.None? && Strip(Concat(b.text)) != "")
  }

  predicate RecentInRange(b: Builder)
  {
    b.mostRecent.Some? ==> b.mostRecent.value < |b.all|
  }

  /** `_flush`: hand the buffered text to the most recent node, as its tail
      when `_in_tail` holds and as its text otherwise; blank text before any
      node is dropped. */
  function Flush(b: Builder): Builder
    requires FlushDefined(b) && RecentInRange(b)
  {
    if |b.text| == 0 then b
    else if b.mostRecent.None? then b.(text := [])
    else
      var i := b.mostRecent.value;
      var value := Concat(b.text);
      if b.inTail == Some(true) then b.(all := b.all[i := b.all[i].(tail := Some(value))], text := [])
      else b.(all := b.all[i := b.all[i].(text := Some(value))], text := [])
  }

  /** `_appendNode`: the new node becomes the last child of the stack top;
      or, with an empty stack, the root if it is the first element; or the
      next sibling after the most recent node once the root exists; or else a
      prolog node buffered for the root. */
  function AppendNode(b: Builder, k: Kind): Builder
  {
    var id := |b.all|;
    if |b.stack| > 0 then
      b.(all := b.all + [NewNode(k).(parent := Some(b.stack[|b.stack| - 1]))], mostRecent := Some(id))
    else if b.root.None? && k.ElementKind? then
      b.(all := b.all + [NewNode(k)], root := Some(id), mostRecent := Some(id))
    else if b.mostRecent.Some? && b.root.Some? then
      b.(all := b.all + [NewNode(k)], epilog := b.epilog + [id], mostRecent := Some(id))
    else
      b.(all := b.all + [NewNode(k)], prolog := b.prolog + [id], mostRecent := Some(id))
  }

  /** A second top-level element: lxml refuses to make an element a sibling of
      the root. */
  predicate SecondRoot(b: Builder)
  {
    |b.stack| == 0 && b.root.Some?
  }

  /** Append an element, push it and attach its open-tag position. */
  function Push(f: Builder, k: Kind, loc: TagPos): Builder
  {
    var a := AppendNode(f, k);
    var id := |f.all|;
    a.(all := a.all[id := a.all[id].(openPos := Some(loc))], stack := a.stack + [id], inTail := Some(false))
  }

  /** `element_start`: record the namespaces, flush, append the new element,
      push it and attach its open-tag position. */
  function ElementStart(b: Builder, tag: string, attrib: seq<(string, string)>,
                        nsmap: seq<(Option<string>, string)>, loc: TagPos): Builder
    requires FlushDefined(b) && RecentInRange(b) && !SecondRoot(b)
  {
    Push(Flush(b.(namespaces := MergeNamespaces(b.namespaces, nsmap))), ElementKind(tag, attrib, nsmap), loc)
  }

  /** Pop the stack top, make it the most recent node and attach its
      close-tag position. */
  function Pop(f: Builder, loc: TagPos): Builder
    requires |f.stack| > 0 && f.stack[|f.stack| - 1] < |f.all|
  {
    var top := f.stack[|f.stack| - 1];
    f.(all := f.all[top := f.all[top].(closePos := Some(loc))], stack := f.stack[..|f.stack| - 1],
       mostRecent := Some(top), inTail := Some(true))
  }

  /** `element_end`: flush, then pop. */
  function ElementEnd(b: Builder, loc: TagPos): Builder
    requires FlushDefined(b) && RecentInRange(b) && |b.stack| > 0
    requires b.stack[|b.stack| - 1] < |b.all|
  {
    Pop(Flush(b), loc)
  }

  /** `text_data`: buffer the text. */
  function TextData(b: Builder, data: string): Builder
  {
    b.(text := b.text + [data])
  }

  /** Append a comment or processing instruction and attach its position;
      text that follows is its tail. */
  function Attach(f: Builder, k: Kind, loc: TagPos): Builder
  {
    var a := AppendNode(f, k);
    var id := |f.all|;
    a.(all := a.all[id := a.all[id].(tagPos := Some(loc))], inTail := Some(true))
  }

  /** `comment` and `pi`: flush, then attach. */
  function Leaf(b: Builder, k: Kind, loc: TagPos): Builder
    requires FlushDefined(b) && RecentInRange(b) && !k.ElementKind?
  {
    Attach(Flush(b), k, loc)
  }

  /** `document_end`: the root, the namespaces and every node created. */
  function DocumentEnd(b: Builder): (Option<nat>, Namespaces, seq<Node>)
  {
    (b.root, b.namespaces, b.all)
  }

  // ---------------------------------------------------------------------------
  // The invariant every reachable builder satisfies

  predicate Below(ids: seq<nat>, n: int)
  {
    forall k :: 0 <= k < |ids| ==> ids[k] < n
  }

  predicate Above(ids: seq<nat>, n: int)
  {
    forall k :: 0 <= k < |ids| ==> ids[k] > n
  }

  predicate Increasing(ids: seq<nat>)
  {
    forall i, j :: 0 <= i < j < |ids| ==> ids[i] < ids[j]
  }

  /** A parent is created before its children. */
  predicate ParentsBefore(all: seq<Node>)
  {
    forall i :: 0 <= i < |all| && all[i].parent.Some? ==> all[i].parent.value < i
  }

  /** The stack holds open elements from the root down, each a child of the
      one below it. */
  predicate StackOk(b: Builder)
  {
    && Below(b.stack, |b.all|)
    && (|b.stack| > 0 ==> b.root == Some(b.stack[0]))
    && (forall k :: 0 <= k < |b.stack| ==> b.all[b.stack[k]].kind.ElementKind?)
    && (forall k :: 0 < k < |b.stack| ==> b.all[b.stack[k]].parent == Some(b.stack[k - 1]))
  }

  predicate TopLevel(b: Builder, i: nat)
  {
    i in b.prolog || b.root == Some(i) || i in b.epilog
  }

  /** Prolog nodes precede the root, epilog nodes follow it, both in creation
      order; the root is the only top-level element; the epilog stays empty
      while an element is open; and the top-level nodes are exactly those
      without a parent. */
  predicate TopLevelOk(b: Builder)
  {
    && Below(b.prolog, |b.all|) && Below(b.epilog, |b.all|)
    && (b.root.Some? ==> b.root.value < |b.all| && b.all[b.root.value].kind.ElementKind?)
    && Increasing(b.prolog) && Increasing(b.epilog)
    && (b.root.Some? ==> Below(b.prolog, b.root.value) && Above(b.epilog, b.root.value))
    && (b.root.None? ==> b.epilog == [])
    && (|b.stack| > 0 ==> b.epilog == [])
    && (forall k :: 0 <= k < |b.prolog| ==> !b.all[b.prolog[k]].kind.ElementKind?)
    && (forall k :: 0 <= k < |b.epilog| ==> !b.all[b.epilog[k]].kind.ElementKind?)
    && (forall i :: 0 <= i < |b.all| ==> (b.all[i].parent.None? <==> TopLevel(b, i)))
  }

  /** The last top-level node. */
  function LastTopLevel(b: Builder): nat
    requires b.root.Some?
  {
    if |b.epilog| == 0 then b.root.value else b.epilog[|b.epilog| - 1]
  }

  /** `_most_recent` and `_in_tail` are unset exactly before the first node;
      text (rather than tail) goes to the innermost open element; and once the
      root is closed the most recent node is the last top-level one, so that
      lxml's `addnext` on it appends to the epilog. */
  predicate RecentOk(b: Builder)
  {
    && RecentInRange(b)
    && (b.mostRecent.None? <==> |b.all| == 0)
    && (b.inTail.None? <==> b.mostRecent.None?)
    && (b.inTail == Some(false) ==> |b.stack| > 0 && b.mostRecent == Some(b.stack[|b.stack| - 1]))
    && (SecondRoot(b) ==> b.mostRecent == Some(LastTopLevel(b)))
  }

  predicate Valid(b: Builder)
  {
    && ParentsBefore(b.all)
    && StackOk(b)
    && TopLevelOk(b)
    && RecentOk(b)
    && KeysDistinct(b.namespaces) && ListsDistinct(b.namespaces)
  }

  lemma EmptyValid()
    ensures Valid(Empty())
  {
  }

  /** Same nodes, same kinds, same parents. */
  predicate SameShape(a: seq<Node>, c: seq<Node>)
  {
    |a| == |c| && forall i :: 0 <= i < |a| ==> a[i].kind == c[i].kind && a[i].parent == c[i].parent
  }

  /** The invariant looks at nodes only through their kinds and parents. */
  lemma ShapeKeepsValid(b: Builder, all: seq<Node>, text: seq<string>)
    requires Valid(b) && SameShape(b.all, all)
    ensures Valid(b.(all := all, text := text))
  {
    var c := b.(all := all, text := text);
    assert StackOk(c);
    assert TopLevelOk(c) by {
      forall i | 0 <= i < |c.all|
        ensures c.all[i].parent.None? <==> TopLevel(c, i)
      {
        assert b.all[i].parent == c.all[i].parent;
        assert TopLevel(b, i) == TopLevel(c, i);
      }
    }
  }

  lemma FlushKeepsValid(b: Builder)
    requires Valid(b) && FlushDefined(b)
    ensures Valid(Flush(b))
    ensures SameShape(b.all, Flush(b).all)
  {
    var f := Flush(b);
    ShapeKeepsValid(b, f.all, []);
    if |b.text| == 0 {
      assert f == b;
    } else {
      assert f == b.(all := f.all, text := []);
    }
  }

  lemma PushKeepsValid(f: Builder, k: Kind, loc: TagPos)
    requires Valid(f) && !SecondRoot(f) && k.ElementKind?
    ensures Valid(Push(f, k, loc))
  {
    var id := |f.all|;
    var r := Push(f, k, loc);
    assert r.all[id].parent == (if |f.stack| > 0 then Some(f.stack[|f.stack| - 1]) else None);
    assert forall i :: 0 <= i < id ==> r.all[i] == f.all[i];
    assert ParentsBefore(r.all);
    PushStackOk(f, k, loc);
    PushTopLevelOk(f, k, loc);
  }

  lemma PushStackOk(f: Builder, k: Kind, loc: TagPos)
    requires Valid(f) && !SecondRoot(f) && k.ElementKind?
    ensures StackOk(Push(f, k, loc))
  {
    var id := |f.all|;
    var r := Push(f, k, loc);
    assert r.all[id].parent == (if |f.stack| > 0 then Some(f.stack[|f.stack| - 1]) else None);
    assert forall i :: 0 <= i < id ==> r.all[i] == f.all[i];
    forall j | 0 <= j < |r.stack|
      ensures r.stack[j] < |r.all| && r.all[r.stack[j]].kind.ElementKind?
    {
      if j < |f.stack| {
        assert r.stack[j] == f.stack[j];
      }
    }
    forall j | 0 < j < |r.stack|
      ensures r.all[r.stack[j]].parent == Some(r.stack[j - 1])
    {
      if j < |f.stack| {
        assert r.stack[j] == f.stack[j] && r.stack[j - 1] == f.stack[j - 1];
      }
    }
  }

  lemma PushTopLevelOk(f: Builder, k: Kind, loc: TagPos)
    requires Valid(f) && !SecondRoot(f) && k.ElementKind?
    ensures TopLevelOk(Push(f, k, loc))
  {
    var id := |f.all|;
    var r := Push(f, k, loc);
    assert r.all[id].parent == (if |f.stack| > 0 then Some(f.stack[|f.stack| - 1]) else None);
    assert forall i :: 0 <= i < id ==> r.all[i] == f.all[i];
    forall i | 0 <= i < |r.all|
      ensures r.all[i].parent.None? <==> TopLevel(r, i)
    {
      if i < id {
        assert TopLevel(r, i) == TopLevel(f, i);
      }
    }
  }

  lemma PopKeepsValid(f: Builder, loc: TagPos)
    requires Valid(f) && |f.stack| > 0
    ensures Valid(Pop(f, loc))
  {
    var r := Pop(f, loc);
    assert SameShape(f.all, r.all);
    assert StackOk(r) by {
      forall j | 0 <= j < |r.stack|
        ensures r.stack[j] == f.stack[j]
      {
      }
    }
    assert TopLevelOk(r) by {
      forall i | 0 <= i < |r.all|
        ensures r.all[i].parent.None? <==> TopLevel(r, i)
      {
        assert f.all[i].parent == r.all[i].parent;
      }
    }
  }

  lemma AttachKeepsValid(f: Builder, k: Kind, loc: TagPos)
    requires Valid(f) && !k.ElementKind?
    ensures Valid(Attach(f, k, loc))
  {
    if |f.stack| > 0 {
      AttachChildKeepsValid(f, k, loc);
    } else if f.root.Some? {
      AttachEpilogKeepsValid(f, k, loc);
    } else {
      AttachPrologKeepsValid(f, k, loc);
    }
  }

  lemma AttachChildKeepsValid(f: Builder, k: Kind, loc: TagPos)
    requires Valid(f) && !k.ElementKind? && |f.stack| > 0
    ensures Valid(Attach(f, k, loc))
  {
    var id := |f.all|;
    var r := Attach(f, k, loc);
    assert forall i :: 0 <= i < id ==> r.all[i] == f.all[i];
    assert r.all[id].parent == Some(f.stack[|f.stack| - 1]);
    assert ParentsBefore(r.all);
    assert StackOk(r);
    assert TopLevelOk(r) by {
      forall i | 0 <= i < |r.all|
        ensures r.all[i].parent.None? <==> TopLevel(r, i)
      {
        if i < id {
          assert TopLevel(r, i) == TopLevel(f, i);
        }
      }
    }
  }

  lemma AttachEpilogKeepsValid(f: Builder, k: Kind, loc: TagPos)
    requires Valid(f) && !k.ElementKind? && |f.stack| == 0 && f.root.Some?
    ensures Valid(Attach(f, k, loc))
  {
    var id := |f.all|;
    var r := Attach(f, k, loc);
    assert r.epilog == f.epilog + [id] && r.prolog == f.prolog;
    assert forall i :: 0 <= i < id ==> r.all[i] == f.all[i];
    assert r.all[id].kind == k && r.all[id].parent.None?;
    assert ParentsBefore(r.all);
    assert StackOk(r);
    AttachEpilogTopLevelOk(f, k, loc);
  }

  /** Appending a new, larger id keeps a list increasing and within bounds. */
  lemma AppendKeepsOrder(ids: seq<nat>, x: nat, low: int, n: int)
    requires Increasing(ids) && Below(ids, x) && Above(ids, low) && low < x < n
    ensures Increasing(ids + [x]) && Below(ids + [x], n) && Above(ids + [x], low)
  {
    var s := ids + [x];
    assert forall k :: 0 <= k < |ids| ==> s[k] == ids[k];
  }

  lemma AttachEpilogTopLevelOk(f: Builder, k: Kind, loc: TagPos)
    requires Valid(f) && !k.ElementKind? && |f.stack| == 0 && f.root.Some?
    ensures TopLevelOk(Attach(f, k, loc))
  {
    var id := |f.all|;
    var r := Attach(f, k, loc);
    assert r.epilog == f.epilog + [id] && r.prolog == f.prolog;
    assert forall i :: 0 <= i < id ==> r.all[i] == f.all[i];
    assert r.all[id].kind == k && r.all[id].parent.None?;
    AppendKeepsOrder(f.epilog, id, f.root.value, |r.all|);
    forall j | 0 <= j < |r.epilog|
      ensures r.epilog[j] < |r.all| && !r.all[r.epilog[j]].kind.ElementKind?
    {
      if j < |f.epilog| {
        assert r.epilog[j] == f.epilog[j];
      }
    }
    forall i | 0 <= i < |r.all|
      ensures r.all[i].parent.None? <==> TopLevel(r, i)
    {
      if i < id {
        assert TopLevel(r, i) == TopLevel(f, i);
      }
    }
  }

  lemma AttachPrologKeepsValid(f: Builder, k: Kind, loc: TagPos)
    requires Valid(f) && !k.ElementKind? && |f.stack| == 0 && f.root.None?
    ensures Valid(Attach(f, k, loc))
  {
    var id := |f.all|;
    var r := Attach(f, k, loc);
    assert r.prolog == f.prolog + [id] && r.epilog == [];
    assert forall i :: 0 <= i < id ==> r.all[i] == f.all[i];
    assert r.all[id].kind == k && r.all[id].parent.None?;
    assert ParentsBefore(r.all);
    assert StackOk(r);
    assert TopLevelOk(r) by {
      forall j | 0 <= j < |r.prolog|
        ensures r.prolog[j] < |r.all| && !r.all[r.prolog[j]].kind.ElementKind?
      {
        if j < |f.prolog| {
          assert r.prolog[j] == f.prolog[j];
        }
      }
      forall i | 0 <= i < |r.all|
        ensures r.all[i].parent.None? <==> TopLevel(r, i)
      {
        if i < id {
          assert TopLevel(r, i) == TopLevel(f, i);
        }
      }
    }
  }

  lemma ElementStartKeepsValid(b: Builder, tag: string, attrib: seq<(string, string)>,
                               nsmap: seq<(Option<string>, string)>, loc: TagPos)
    requires Valid(b) && FlushDefined(b) && !SecondRoot(b)
    ensures Valid(ElementStart(b, tag, attrib, nsmap, loc))
  {
    var m := b.(namespaces := MergeNamespaces(b.namespaces, nsmap));
    MergeNamespacesShape(b.namespaces, nsmap);
    assert Valid(m) by {
      assert StackOk(m) && RecentOk(m);
      assert TopLevelOk(m) by {
        forall i | 0 <= i < |m.all|
          ensures TopLevel(m, i) == TopLevel(b, i)
        {
        }
      }
    }
    FlushKeepsValid(m);
    PushKeepsValid(Flush(m), ElementKind(tag, attrib, nsmap), loc);
  }

  lemma ElementEndKeepsValid(b: Builder, loc: TagPos)
    requires Valid(b) && FlushDefined(b) && |b.stack| > 0
    ensures Valid(ElementEnd(b, loc))
  {
    FlushKeepsValid(b);
    PopKeepsValid(Flush(b), loc);
  }

  lemma LeafKeepsValid(b: Builder, k: Kind, loc: TagPos)
    requires Valid(b) && FlushDefined(b) && !k.ElementKind?
    ensures Valid(Leaf(b, k, loc))
  {
    FlushKeepsValid(b);
    AttachKeepsValid(Flush(b), k, loc);
  }

  // ---------------------------------------------------------------------------
  // Events

  /** The target callbacks the foreign parser invokes. */
  datatype Event =
    | Start(tag: string, attrib: seq<(string, string)>, nsmap: seq<(Option<string>, string)>)
    | End(tag: string)
    | Data(data: string)
    | CommentEvent(content: string)
    | PIEvent(target: string, data: string)
    | Doctype(name: string, publicId: string, systemId: string)

  /** The Python exceptions a callback can raise: `IndexError` (popping an
      empty stack, or a location index outside the recorded spans),
      `AttributeError` (`_flush` writing to a `None` most recent node) and
      `TypeError` (lxml refusing an element as a sibling of the root). */
  datatype BuildError = IndexError | AttributeError | TypeError

  /** One callback with its location already computed. */
  function Apply(b: Builder, ev: Event, loc: TagPos): (r: Result<Builder, BuildError>)
    requires Valid(b)
    ensures r.Success? ==> Valid(r.value)
  {
    if ev.Data? then Success(TextData(b, ev.data))
    else if ev.Doctype? then Success(b)
    else if !FlushDefined(b) then Failure(AttributeError)
    else if ev.Start? then
      if SecondRoot(b) then Failure(TypeError)
      else
        ElementStartKeepsValid(b, ev.tag, ev.attrib, ev.nsmap, loc);
        Success(ElementStart(b, ev.tag, ev.attrib, ev.nsmap, loc))
    else if ev.End? then
      if |b.stack| == 0 then Failure(IndexError)
      else
        ElementEndKeepsValid(b, loc);
        Success(ElementEnd(b, loc))
    else if ev.CommentEvent? then
      LeafKeepsValid(b, CommentKind(ev.content), loc);
      Success(Leaf(b, CommentKind(ev.content), loc))
    else
      LeafKeepsValid(b, PIKind(ev.target, ev.data), loc);
      Success(Leaf(b, PIKind(ev.target, ev.data), loc))
  }

  /** A run of callbacks, stopping at the first exception. */
  function Run(b: Builder, steps: seq<(Event, TagPos)>): (r: Result<Builder, BuildError>)
    requires Valid(b)
    ensures r.Success? ==> Valid(r.value)
    decreases |steps|
  {
    if |steps| == 0 then Success(b)
    else
      match Run(b, steps[..|steps| - 1])
      case Failure(e) => Failure(e)
      case Success(m) => Apply(m, steps[|steps| - 1].0, steps[|steps| - 1].1)
  }

  // ---------------------------------------------------------------------------
  // What each callback does

  /** `_flush`: an empty buffer changes nothing; whitespace-only text seen
      before any node is dropped; otherwise the joined text becomes the tail of
      the most recent node when `_in_tail` holds and its text otherwise, and no
      other node changes. The buffer is empty afterwards. */
  lemma FlushCases(b: Builder)
    requires FlushDefined(b) && RecentInRange(b)
    ensures var r := Flush(b);
            && r.text == []
            && r.(all := b.all, text := b.text) == b
            && (|b.text| == 0 ==> r == b)
            && (|b.text| > 0 && b.mostRecent.None? ==> r.all == b.all && AllWhitespace(Concat(b.text)))
            && (|b.text| > 0 && b.mostRecent.Some? ==>
                  var i := b.mostRecent.value;
                  && |r.all| == |b.all|
                  && (forall j :: 0 <= j < |b.all| && j != i ==> r.all[j] == b.all[j])
                  && (b.inTail == Some(true) ==> r.all[i] == b.all[i].(tail := Some(Concat(b.text))))
                  && (b.inTail != Some(true) ==> r.all[i] == b.all[i].(text := Some(Concat(b.text)))))
  {
    if |b.text| > 0 && b.mostRecent.None? {
      StripEmptyIffBlank(Concat(b.text));
    }
  }

  /** Text (as opposed to tail) always lands on the innermost open element. */
  lemma FlushTextGoesToOpenElement(b: Builder)
    requires Valid(b) && FlushDefined(b) && |b.text| > 0 && b.inTail == Some(false)
    ensures |b.stack| > 0
    ensures var top := b.stack[|b.stack| - 1];
            && b.all[top].kind.ElementKind?
            && Flush(b).all[top].text == Some(Concat(b.text))
  {
  }

  /** Under the invariant, `_flush` can fail only on non-blank text that
      arrives before the first node. */
  lemma FlushUndefinedOnlyBeforeFirstNode(b: Builder)
    requires Valid(b) && !FlushDefined(b)
    ensures |b.all| == 0 && !AllWhitespace(Concat(b.text))
  {
    StripEmptyIffBlank(Concat(b.text));
  }

  /** `element_start` appends one new element to `_all_elements`, makes it the
      last child of the stack top or, with an empty stack, the root, pushes it
      and records its open-tag position and its namespaces. */
  lemma ElementStartEffect(b: Builder, tag: string, attrib: seq<(string, string)>,
                           nsmap: seq<(Option<string>, string)>, loc: TagPos)
    requires Valid(b) && FlushDefined(b) && !SecondRoot(b)
    ensures var r := ElementStart(b, tag, attrib, nsmap, loc);
            var id := |b.all|;
            && |r.all| == id + 1
            && r.all[id].kind == ElementKind(tag, attrib, nsmap)
            && r.all[id].openPos == Some(loc)
            && r.all[id].parent == (if |b.stack| > 0 then Some(b.stack[|b.stack| - 1]) else None)
            && (|b.stack| == 0 ==> b.root.None? && r.root == Some(id))
            && r.stack == b.stack + [id]
            && r.mostRecent == Some(id) && r.inTail == Some(false)
            && r.text == [] && r.prolog == b.prolog && r.epilog == b.epilog
            && (forall q, v :: Has(r.namespaces, q, v) <==> Has(b.namespaces, q, v) || (q, v) in nsmap)
  {
    var m := b.(namespaces := MergeNamespaces(b.namespaces, nsmap));
    var f := Flush(m);
    assert && f.stack == b.stack && f.root == b.root && |f.all| == |b.all| && f.text == []
           && f.prolog == b.prolog && f.epilog == b.epilog && f.namespaces == m.namespaces by {
      FlushCases(m);
    }
    PushEffect(f, ElementKind(tag, attrib, nsmap), loc);
    MergeNamespacesHas(b.namespaces, nsmap);
  }

  /** Pushing an element that is not a second root. */
  lemma PushEffect(f: Builder, k: Kind, loc: TagPos)
    requires !SecondRoot(f) && k.ElementKind?
    ensures var r := Push(f, k, loc);
            var id := |f.all|;
            && |r.all| == id + 1
            && r.all[id].kind == k
            && r.all[id].openPos == Some(loc)
            && r.all[id].parent == (if |f.stack| > 0 then Some(f.stack[|f.stack| - 1]) else None)
            && (|f.stack| == 0 ==> r.root == Some(id))
            && r.stack == f.stack + [id]
            && r.mostRecent == Some(id) && r.inTail == Some(false)
            && r.text == f.text && r.prolog == f.prolog && r.epilog == f.epilog && r.namespaces == f.namespaces
  {
  }

  /** `element_end` pops the stack top, records its close-tag position and
      makes it the most recent node, so the text that follows is its tail. */
  lemma ElementEndEffect(b: Builder, loc: TagPos)
    requires Valid(b) && FlushDefined(b) && |b.stack| > 0
    ensures var r := ElementEnd(b, loc);
            var top := b.stack[|b.stack| - 1];
            && r.stack == b.stack[..|b.stack| - 1]
            && |r.all| == |b.all|
            && r.all[top].closePos == Some(loc)
            && r.all[top].openPos == b.all[top].openPos
            && r.mostRecent == Some(top) && r.inTail == Some(true) && r.text == []
  {
  }

  /** A comment or processing instruction is appended to `_all_elements`
      with its position attached, becomes the most recent node, and the text
      that follows is its tail. */
  lemma LeafEffect(b: Builder, k: Kind, loc: TagPos)
    requires Valid(b) && FlushDefined(b) && !k.ElementKind?
    ensures var r := Leaf(b, k, loc);
            var id := |b.all|;
            && |r.all| == id + 1
            && r.all[id].kind == k && r.all[id].tagPos == Some(loc)
            && r.stack == b.stack && r.root == b.root
            && r.mostRecent == Some(id) && r.inTail == Some(true) && r.text == []
  {
    FlushCases(b);
    var f := Flush(b);
    assert |f.all| == |b.all| && f.stack == b.stack && f.root == b.root && f.text == [];
    AttachEffect(f, k, loc);
  }

  lemma AttachEffect(f: Builder, k: Kind, loc: TagPos)
    requires !k.ElementKind?
    ensures var r := Attach(f, k, loc);
            var id := |f.all|;
            && |r.all| == id + 1
            && r.all[id].kind == k && r.all[id].tagPos == Some(loc)
            && r.stack == f.stack && r.root == f.root && r.text == f.text
            && r.mostRecent == Some(id) && r.inTail == Some(true)
  {
  }

  /** Inside an element it becomes the last child of the stack top. */
  lemma LeafInsideElement(b: Builder, k: Kind, loc: TagPos)
    requires Valid(b) && FlushDefined(b) && !k.ElementKind? && |b.stack| > 0
    ensures var r := Leaf(b, k, loc);
            && r.all[|b.all|].parent == Some(b.stack[|b.stack| - 1])
            && r.prolog == b.prolog && r.epilog == b.epilog
  {
  }

  /** After the root it is appended to the epilog. */
  lemma LeafAfterRoot(b: Builder, k: Kind, loc: TagPos)
    requires Valid(b) && FlushDefined(b) && !k.ElementKind? && |b.stack| == 0 && b.root.Some?
    ensures var r := Leaf(b, k, loc);
            && r.all[|b.all|].parent.None?
            && r.prolog == b.prolog && r.epilog == b.epilog + [|b.all|]
  {
  }

  /** Before the root it is buffered in the prolog. */
  lemma LeafBeforeRoot(b: Builder, k: Kind, loc: TagPos)
    requires Valid(b) && FlushDefined(b) && !k.ElementKind? && b.root.None?
    ensures var r := Leaf(b, k, loc);
            && r.all[|b.all|].parent.None?
            && r.prolog == b.prolog + [|b.all|] && r.epilog == b.epilog
  {
  }

  /** lxml's `addnext` on the most recent node appends to the epilog: once the
      root is closed, the most recent node is always the last top-level node. */
  lemma AddNextAppends(b: Builder)
    requires Valid(b) && |b.stack| == 0 && b.root.Some?
    ensures b.mostRecent == Some(LastTopLevel(b))
  {
  }

  /** The top level in document order: the prolog, then the root, then the
      epilog, by increasing creation order; these are exactly the nodes without
      a parent, and the root is the only element among them. */
  lemma TopLevelOrder(b: Builder)
    requires Valid(b) && b.root.Some?
    ensures var top := b.prolog + [b.root.value] + b.epilog;
            && Increasing(top)
            && (forall i :: 0 <= i < |b.all| ==> (b.all[i].parent.None? <==> i in top))
            && (forall k :: 0 <= k < |top| ==> top[k] < |b.all| && (b.all[top[k]].kind.ElementKind? <==> k == |b.prolog|))
  {
    TopIncreasing(b);
    TopMembers(b);
    TopKinds(b);
  }

  /** `document_end` hands back every node created and a namespace table
      without repeated prefixes or URIs; the root it returns, if any, is the
      one element without a parent. */
  lemma DocumentEndRoot(b: Builder)
    requires Valid(b)
    ensures var (root, ns, all) := DocumentEnd(b);
            && all == b.all && KeysDistinct(ns) && ListsDistinct(ns)
            && (root.Some? ==> root.value < |all| && all[root.value].kind.ElementKind? && all[root.value].parent.None?)
            && (forall i :: 0 <= i < |all| && all[i].parent.None? && all[i].kind.ElementKind? ==> root == Some(i))
  {
    forall i | 0 <= i < |b.all| && b.all[i].parent.None? && b.all[i].kind.ElementKind?
      ensures b.root == Some(i)
    {
      assert TopLevel(b, i);
    }
  }

  lemma TopIncreasing(b: Builder)
    requires Valid(b) && b.root.Some?
    ensures Increasing(b.prolog + [b.root.value] + b.epilog)
  {
    var top := b.prolog + [b.root.value] + b.epilog;
    forall i, j | 0 <= i < j < |top|
      ensures top[i] < top[j]
    {
      if j < |b.prolog| {
      } else if j == |b.prolog| {
        assert top[i] == b.prolog[i];
      } else if i > |b.prolog| {
        assert top[i] == b.epilog[i - |b.prolog| - 1] && top[j] == b.epilog[j - |b.prolog| - 1];
      } else if i == |b.prolog| {
        assert top[j] == b.epilog[j - |b.prolog| - 1];
      } else {
        assert top[i] == b.prolog[i] && top[j] == b.epilog[j - |b.prolog| - 1];
      }
    }
  }

  lemma TopMembers(b: Builder)
    requires Valid(b) && b.root.Some?
    ensures var top := b.prolog + [b.root.value] + b.epilog;
            forall i :: 0 <= i < |b.all| ==> (b.all[i].parent.None? <==> i in top)
  {
    var top := b.prolog + [b.root.value] + b.epilog;
    forall i | 0 <= i < |b.all|
      ensures b.all[i].parent.None? <==> i in top
    {
      assert TopLevel(b, i) <==> i in top;
    }
  }

  lemma TopKinds(b: Builder)
    requires Valid(b) && b.root.Some?
    ensures var top := b.prolog + [b.root.value] + b.epilog;
            forall k :: 0 <= k < |top| ==> top[k] < |b.all| && (b.all[top[k]].kind.ElementKind? <==> k == |b.prolog|)
  {
    var top := b.prolog + [b.root.value] + b.epilog;
    forall k | 0 <= k < |top|
      ensures top[k] < |b.all| && (b.all[top[k]].kind.ElementKind? <==> k == |b.prolog|)
    {
      if k < |b.prolog| {
        assert top[k] == b.prolog[k];
      } else if k > |b.prolog| {
        assert top[k] == b.epilog[k - |b.prolog| - 1];
      }
    }
  }

  // ---------------------------------------------------------------------------
  // Runs of callbacks

  /** The callbacks that create a node. */
  predicate Creates(ev: Event)
  {
    ev.Start? || ev.CommentEvent? || ev.PIEvent?
  }

  /** Old nodes keep their kind, parent and open-tag position. */
  predicate KeepsOld(b: Builder, r: Builder)
  {
    |b.all| <= |r.all|
    && forall x :: 0 <= x < |b.all| ==>
         r.all[x].kind == b.all[x].kind && r.all[x].parent == b.all[x].parent && r.all[x].openPos == b.all[x].openPos
  }

  /** One successful callback: how `_all_elements` and the stack change. */
  lemma ApplyFrame(b: Builder, ev: Event, loc: TagPos)
    requires Valid(b) && Apply(b, ev, loc).Success?
    ensures var r := Apply(b, ev, loc).value;
            && KeepsOld(b, r)
            && |r.all| == |b.all| + (if Creates(ev) then 1 else 0)
            && r.stack == (if ev.Start? then b.stack + [|b.all|] else if ev.End? then b.stack[..|b.stack| - 1] else b.stack)
            && (ev.Start? ==> r.all[|b.all|].openPos == Some(loc) && r.all[|b.all|].kind == ElementKind(ev.tag, ev.attrib, ev.nsmap))
            && (ev.End? ==> |b.stack| > 0 && r.all[b.stack[|b.stack| - 1]].closePos == Some(loc)
                            && r.mostRecent == Some(b.stack[|b.stack| - 1]))
  {
    if ev.Start? {
      StartFrame(b, ev.tag, ev.attrib, ev.nsmap, loc);
    } else if ev.End? {
      EndFrame(b, loc);
    } else if ev.CommentEvent? {
      LeafFrame(b, CommentKind(ev.content), loc);
    } else if ev.PIEvent? {
      LeafFrame(b, PIKind(ev.target, ev.data), loc);
    }
  }

  lemma FlushKeepsOld(b: Builder)
    requires FlushDefined(b) && RecentInRange(b)
    ensures KeepsOld(b, Flush(b)) && |Flush(b).all| == |b.all|
  {
    FlushCases(b);
  }

  lemma StartFrame(b: Builder, tag: string, attrib: seq<(string, string)>,
                   nsmap: seq<(Option<string>, string)>, loc: TagPos)
    requires Valid(b) && FlushDefined(b) && !SecondRoot(b)
    ensures var r := ElementStart(b, tag, attrib, nsmap, loc);
            && KeepsOld(b, r) && |r.all| == |b.all| + 1 && r.stack == b.stack + [|b.all|]
            && r.all[|b.all|].openPos == Some(loc) && r.all[|b.all|].kind == ElementKind(tag, attrib, nsmap)
  {
    var m := b.(namespaces := MergeNamespaces(b.namespaces, nsmap));
    FlushKeepsOld(m);
    ElementStartEffect(b, tag, attrib, nsmap, loc);
  }

  lemma EndFrame(b: Builder, loc: TagPos)
    requires Valid(b) && FlushDefined(b) && |b.stack| > 0
    ensures var r := ElementEnd(b, loc);
            var top := b.stack[|b.stack| - 1];
            && KeepsOld(b, r) && |r.all| == |b.all| && r.stack == b.stack[..|b.stack| - 1]
            && r.all[top].closePos == Some(loc) && r.mostRecent == Some(top)
  {
    FlushKeepsOld(b);
    ElementEndEffect(b, loc);
  }

  lemma LeafFrame(b: Builder, k: Kind, loc: TagPos)
    requires Valid(b) && FlushDefined(b) && !k.ElementKind?
    ensures var r := Leaf(b, k, loc);
            KeepsOld(b, r) && |r.all| == |b.all| + 1 && r.stack == b.stack
  {
    FlushKeepsOld(b);
    LeafEffect(b, k, loc);
  }

  /** The number of `start` and `end` callbacks. */
  function Opens(steps: seq<(Event, TagPos)>): nat
  {
    if |steps| == 0 then 0 else Opens(steps[..|steps| - 1]) + (if steps[|steps| - 1].0.Start? then 1 else 0)
  }

  function Closes(steps: seq<(Event, TagPos)>): nat
  {
    if |steps| == 0 then 0 else Closes(steps[..|steps| - 1]) + (if steps[|steps| - 1].0.End? then 1 else 0)
  }

  /** No prefix closes more elements than it opens. */
  predicate NeverBelow(steps: seq<(Event, TagPos)>)
  {
    forall n :: 0 <= n <= |steps| ==> Closes(steps[..n]) <= Opens(steps[..n])
  }

  lemma NeverBelowPrefix(steps: seq<(Event, TagPos)>)
    requires |steps| > 0 && NeverBelow(steps)
    ensures NeverBelow(steps[..|steps| - 1])
  {
    var init := steps[..|steps| - 1];
    forall n | 0 <= n <= |init|
      ensures Closes(init[..n]) <= Opens(init[..n])
    {
      assert init[..n] == steps[..n];
    }
  }

  /** Running `a` then `c` is running `a + c`. */
  lemma {:induction false} RunAppend(b: Builder, a: seq<(Event, TagPos)>, c: seq<(Event, TagPos)>)
    requires Valid(b)
    ensures Run(b, a).Failure? ==> Run(b, a + c) == Run(b, a)
    ensures Run(b, a).Success? ==> Run(b, a + c) == Run(Run(b, a).value, c)
    decreases |c|
  {
    if |c| == 0 {
      assert a + c == a;
    } else {
      assert (a + c)[..|a + c| - 1] == a + c[..|c| - 1];
      RunAppend(b, a, c[..|c| - 1]);
    }
  }

  /** A run that never closes more than it opens leaves the stack it started
      from in place, with as many more entries as it opened minus closed. */
  lemma {:induction false} RunStack(b: Builder, steps: seq<(Event, TagPos)>)
    requires Valid(b) && NeverBelow(steps) && Run(b, steps).Success?
    ensures var r := Run(b, steps).value;
            && |b.stack| <= |r.stack|
            && |r.stack| + Closes(steps) == |b.stack| + Opens(steps)
            && r.stack[..|b.stack|] == b.stack
    decreases |steps|
  {
    if |steps| > 0 {
      var init := steps[..|steps| - 1];
      var last := steps[|steps| - 1];
      NeverBelowPrefix(steps);
      RunStack(b, init);
      RunLastStack(b, steps);
      var m := Run(b, init).value;
      var r := Run(b, steps).value;
      assert Closes(steps) <= Opens(steps) by {
        assert steps[..|steps|] == steps;
      }
      StackKeepsPrefix(b.stack, m.stack, r.stack, last.0, |m.all|);
    }
  }

  /** The stack after the last callback of a run. */
  lemma RunLastStack(b: Builder, steps: seq<(Event, TagPos)>)
    requires Valid(b) && |steps| > 0 && Run(b, steps).Success?
    ensures Run(b, steps[..|steps| - 1]).Success?
    ensures var m := Run(b, steps[..|steps| - 1]).value;
            var ev := steps[|steps| - 1].0;
            && (ev.End? ==> |m.stack| > 0)
            && Run(b, steps).value.stack ==
                 (if ev.Start? then m.stack + [|m.all|] else if ev.End? then m.stack[..|m.stack| - 1] else m.stack)
  {
    var m := Run(b, steps[..|steps| - 1]).value;
    var last := steps[|steps| - 1];
    ApplyFrame(m, last.0, last.1);
  }

  /** One callback's effect on the stack keeps the entries below. */
  lemma StackKeepsPrefix(base: seq<nat>, ms: seq<nat>, rs: seq<nat>, ev: Event, id: nat)
    requires |base| <= |ms| && ms[..|base|] == base
    requires ev.End? ==> |ms| > |base|
    requires rs == (if ev.Start? then ms + [id] else if ev.End? then ms[..|ms| - 1] else ms)
    ensures |base| <= |rs| && rs[..|base|] == base
  {
    assert rs[..|base|] == ms[..|base|];
  }

  /** A run never changes the kind, parent or open-tag position of a node that
      existed before it. */
  lemma {:induction false} RunFrame(b: Builder, steps: seq<(Event, TagPos)>)
    requires Valid(b) && Run(b, steps).Success?
    ensures KeepsOld(b, Run(b, steps).value)
    decreases |steps|
  {
    if |steps| > 0 {
      var init := steps[..|steps| - 1];
      var last := steps[|steps| - 1];
      RunFrame(b, init);
      var m := Run(b, init).value;
      ApplyFrame(m, last.0, last.1);
    }
  }

  lemma RunSingle(b: Builder, x: (Event, TagPos))
    requires Valid(b)
    ensures Run(b, [x]) == Apply(b, x.0, x.1)
  {
    assert [x][..0] == [];
  }

  /** A balanced run ends on the stack it started from. */
  lemma BalancedRun(m: Builder, inner: seq<(Event, TagPos)>)
    requires Valid(m) && NeverBelow(inner) && Opens(inner) == Closes(inner) && Run(m, inner).Success?
    ensures Run(m, inner).value.stack == m.stack && KeepsOld(m, Run(m, inner).value)
  {
    RunStack(m, inner);
    RunFrame(m, inner);
  }

  /** Stack discipline: an `end` that closes a `start` with a balanced run in
      between pops exactly the node that `start` created, records its close-tag
      position beside the open-tag position recorded at the start, and leaves
      the stack as it was before the `start`. */
  lemma StartEndPair(b: Builder, start: (Event, TagPos), inner: seq<(Event, TagPos)>, end: (Event, TagPos))
    requires Valid(b) && start.0.Start? && end.0.End?
    requires NeverBelow(inner) && Opens(inner) == Closes(inner)
    requires Run(b, [start] + inner + [end]).Success?
    ensures var r := Run(b, [start] + inner + [end]).value;
            var id := |b.all|;
            && r.stack == b.stack
            && id < |r.all|
            && r.all[id].kind == ElementKind(start.0.tag, start.0.attrib, start.0.nsmap)
            && r.all[id].openPos == Some(start.1)
            && r.all[id].closePos == Some(end.1)
            && r.mostRecent == Some(id)
  {
    var id := |b.all|;
    RunThree(b, start, inner, end);
    var m1 := Apply(b, start.0, start.1).value;
    var m2 := Run(m1, inner).value;
    var r := Apply(m2, end.0, end.1).value;
    ApplyFrame(b, start.0, start.1);
    BalancedRun(m1, inner);
    ApplyFrame(m2, end.0, end.1);
    PairFacts(b, m1, m2, r, start, end);
  }

  /** The frames of the three stages, put together. */
  lemma PairFacts(b: Builder, m1: Builder, m2: Builder, r: Builder, start: (Event, TagPos), end: (Event, TagPos))
    requires start.0.Start? && end.0.End?
    requires KeepsOld(b, m1) && |m1.all| == |b.all| + 1 && m1.stack == b.stack + [|b.all|]
    requires m1.all[|b.all|].openPos == Some(start.1)
    requires m1.all[|b.all|].kind == ElementKind(start.0.tag, start.0.attrib, start.0.nsmap)
    requires m2.stack == m1.stack && KeepsOld(m1, m2) && KeepsOld(m2, r)
    requires |m2.stack| > 0 && r.stack == m2.stack[..|m2.stack| - 1]
    requires r.all[m2.stack[|m2.stack| - 1]].closePos == Some(end.1) && r.mostRecent == Some(m2.stack[|m2.stack| - 1])
    ensures var id := |b.all|;
            && r.stack == b.stack
            && id < |r.all|
            && r.all[id].kind == ElementKind(start.0.tag, start.0.attrib, start.0.nsmap)
            && r.all[id].openPos == Some(start.1)
            && r.all[id].closePos == Some(end.1)
            && r.mostRecent == Some(id)
  {
    var id := |b.all|;
    assert m2.stack[|m2.stack| - 1] == id;
    assert m2.stack[..|m2.stack| - 1] == b.stack;
    assert r.all[id].kind == m2.all[id].kind == m1.all[id].kind;
  }

  /** A successful run of `start`, then `inner`, then `end`, step by step. */
  lemma RunThree(b: Builder, start: (Event, TagPos), inner: seq<(Event, TagPos)>, end: (Event, TagPos))
    requires Valid(b) && Run(b, [start] + inner + [end]).Success?
    ensures Apply(b, start.0, start.1).Success?
    ensures Run(Apply(b, start.0, start.1).value, inner).Success?
    ensures var m2 := Run(Apply(b, start.0, start.1).value, inner).value;
            Run(b, [start] + inner + [end]) == Apply(m2, end.0, end.1)
  {
    assert [start] + inner + [end] == [start] + (inner + [end]);
    RunAppend(b, [start], inner + [end]);
    RunSingle(b, start);
    var m1 := Apply(b, start.0, start.1).value;
    RunAppend(m1, inner, [end]);
    RunSingle(Run(m1, inner).value, end);
  }

  /** The number of callbacks that create a node. */
  function Created(steps: seq<(Event, TagPos)>): nat
  {
    if |steps| == 0 then 0 else Created(steps[..|steps| - 1]) + (if Creates(steps[|steps| - 1].0) then 1 else 0)
  }

  /** Every node created is appended to `_all_elements`, and nothing else is. */
  lemma {:induction false} RunGrows(b: Builder, steps: seq<(Event, TagPos)>)
    requires Valid(b) && Run(b, steps).Success?
    ensures |Run(b, steps).value.all| == |b.all| + Created(steps)
    decreases |steps|
  {
    if |steps| > 0 {
      var init := steps[..|steps| - 1];
      var last := steps[|steps| - 1];
      RunGrows(b, init);
      ApplyFrame(Run(b, init).value, last.0, last.1);
    }
  }
}

=== FILE: wrappers.dfy ===
/** Failure-carrying datatypes shared by the whole model. */
module Wrappers {

  /** A value that may be absent; stands for Python's `None`. */
  datatype Option<+T> = None | Some(value: T) {

    /** The wrapped value, or `default` when absent. */
    function GetOr(default: T): T {
      match this
      case Some(v) => v
      case None => default
    }
  }

  /** Either a value or the error that a Python call would have raised. */
  datatype Result<+R, +E> = Success(value: R) | Failure(error: E) {

    predicate IsFailure() {
      Failure?
    }

    function PropagateFailure<U>(): Result<U, E>
      requires Failure?
    {
      Failure(error)
    }

    function Extract(): R
      requires Success?
    {
      value
    }
  }
}
